=== FILE: README.md ===
# A verified model of a Go BitTorrent client's core

This project models, in Dafny, the four byte-exact cores of a small Go
BitTorrent client, and proves properties of them:

- **Bencoding** (the bencoding section of BEP 3):
  - the recursive-descent decoder of `pkg/mybittorrent/decode.go`, whose copy in
    `cmd/mybittorrent/main.go` is the same code;
  - the canonical encoder of `pkg/mybittorrent/bencode/encode.go`;
  - the `Encode`/`EncodeInfo` pair of `cmd/mybittorrent/main.go`, which sorts
    only the top-level keys.
- **Metainfo interpretation** (the metainfo section of BEP 3), in three
  variants:
  - `pkg/bittorrent/metafile.go` keeps the piece hashes in order;
  - `pkg/mybittorrent/metafile.go` sorts them;
  - `cmd/mybittorrent/main.go` sorts them and also parses the announce URL first.
  - In all three, the info-hash is the SHA-1 of the encoded `info` entry. For
    `pkg/mybittorrent` the model takes that encoding to be the canonical one
    (see "Left out").
- **Peer wire protocol** (the peer protocol section of BEP 3):
  - the 68-byte handshake;
  - length-prefixed `Send`/`Receive` framing;
  - the Request payload and the Piece reply;
  - the piece and block plan;
  - two piece downloads. `DownloadPiece` of `pkg/bittorrent/protocol.go`
    checks the echoed offset and index and the piece hash. `Download` of
    `pkg/mybittorrent/torrent/protocol.go` checks neither.
- **Tracker responses** (the compact peer list of BEP 23): the `failure reason`
  check, the six-byte peer entries and the interval.

Everything is bytes: a `byte` is an integer in [0, 256), and Go strings and
hex text are byte sequences.

Each decoder production maps the unread input to a value and the input left
after it. The download is a pure fold over the byte stream the peer sends. It
yields the Requests written and either the piece buffer or the error.

A Go panic on input the file or the peer controls becomes a distinct error
variant, so every path the code can take appears in the model:

- `NegativeLength`: `Next` with a negative count.
- `MissingField`: a failed type assertion.
- `ShortPiece`: slicing a short payload.
- `ZeroPieceLength`: a division by a zero piece length.
- `NegativePieceSize`: `make` with a negative size.
- `NoSuchPiece`: indexing outside the hash list, with an index past its end or a negative one.
- `BeginPastEnd`: `piece[begin:]` past the end.

`os.Exit` in the metainfo parsers becomes `PiecesNotMultipleOf20`.

The model also takes four things as parameters, so every property holds for
every choice of them:

- SHA-1 (`Metafile.Sha1`);
- `url.Parse` (`CmdMetafile.UrlCheck`);
- Go's map-iteration order (`CmdEncoder.IterationOrder`), chosen separately
  for each dictionary the encoder reaches;
- the network and the random peer id during the handshake
  (`Handshake.Environment`).

## Model

| member | source | states |
|---|---|---|
| Bytes.ToUint32 | pkg/bittorrent/protocol.go:183-185 | the `uint32(...)` conversion keeps the low 32 bits: it differs from its argument by a multiple of 2^32, so values under 2^32 are unchanged |
| Bytes.BE32RoundTrip | pkg/bittorrent/protocol.go:224-226 | reading back a big-endian u32 as the peer does gives the number written |
| Bytes.ReadBE32RoundTrip | pkg/bittorrent/protocol.go:247-248 | every four bytes are the big-endian form of the u32 read from them, so the reading loses nothing |
| Bytes.BE16RoundTrip | pkg/bittorrent/trackers.go:78 | a port written big-endian reads back as the same port |
| Bytes.ReadBE16RoundTrip | pkg/mybittorrent/trackers.go:76 | every two-byte port field is the big-endian form of the port read from it |
| Decimal.Signed | pkg/mybittorrent/bencode/encode.go:15-16 | `%d` text starts with '-' exactly for negative numbers, and every other byte is an ASCII digit |
| Decimal.Atoi | pkg/mybittorrent/decode.go:54 | base-10 `strconv.Atoi` over arbitrary bytes: a number is accepted only from text starting with a digit or sign, and only when it fits a 64-bit int |
| Decimal.AtoiAcceptsOnlyDigits | pkg/mybittorrent/decode.go:54 | accepted text is an optional sign followed only by ASCII digits, at least one: any other byte anywhere is refused, as `strconv.Atoi` refuses it |
| Decimal.AtoiSigned | pkg/mybittorrent/decode.go:67 | `strconv.Atoi` of the `%d` text of any 64-bit int gives that int back |
| Decimal.AtoiExamples | pkg/mybittorrent/decode.go:62-68 | empty text and a lone '-' are errors; "-5" gives -5; a '+' sign and leading zeros are accepted |
| Hex.Encode | pkg/bittorrent/metafile.go:54 | each byte becomes two lowercase hex digits |
| Hex.DecodeEncode | pkg/bittorrent/metafile.go:53-54 | hex text decodes back to the bytes it was made from |
| Hex.EncodeInjective | pkg/bittorrent/protocol.go:208-216 | equal hex hashes mean equal digests, so comparing hex text compares the hashes |
| Lex.SortedKeys | pkg/mybittorrent/bencode/encode.go:37-46 | lists every key of the set exactly once, in strictly ascending byte order |
| Lex.Sort | pkg/mybittorrent/metafile.go:56 | `sort.Strings` returns an ascending permutation of its input |
| Lex.SortedUnique | pkg/mybittorrent/bencode/encode.go:42 | two ascending sequences with the same elements are equal, so the sorted order is unique |
| Lex.SortEnumeration | pkg/mybittorrent/bencode/encode.go:38-42 | sorting any duplicate-free listing of a key set gives the ascending listing of that set |
| Decoder.ReadUntil | pkg/mybittorrent/decode.go:48 | `ReadString` fails exactly when the delimiter is absent; otherwise it splits at the first delimiter |
| Decoder.DecodeString | pkg/mybittorrent/decode.go:47-60 | the length is the text before the first ':', parsed as a number; the body is that many bytes, or all that remain when fewer are left |
| Decoder.DecodeInteger | pkg/mybittorrent/decode.go:62-68 | the value is the number parsed from the text up to the first 'e'; with no 'e' the result is an end-of-input error |
| Decoder.DecodeValue | pkg/mybittorrent/decode.go:24-45 | empty input is an error; a digit, 'i', 'l' or 'd' selects string, integer, list or dictionary, and any other byte is "prefix not recognized" |
| Decoder.DecodeList | pkg/mybittorrent/decode.go:70-98 | items are decoded until an 'e'; the list is empty exactly when the 'e' comes first, and empty input is an error |
| Decoder.DecodeDict | pkg/mybittorrent/decode.go:100-133 | pairs are decoded until an 'e'; an empty map means the 'e' came first, and every key and value is well formed |
| Decoder.Decode | pkg/mybittorrent/decode.go:20-22 | decodes one well-formed value from the front of the input; empty input is an error |
| DecoderProperties.TruncatedStringAccepted | pkg/mybittorrent/decode.go:59 | a string whose declared length runs past the end of the input yields the bytes that are there, with no error |
| DecoderProperties.LastKeyWins | pkg/mybittorrent/decode.go:124 | a dictionary naming the same key twice keeps the later value |
| DecoderProperties.UnterminatedListFails | pkg/mybittorrent/decode.go:73-94 | a list missing its closing 'e' is an error, however many complete items precede the end |
| DecoderProperties.ListItemFailureAborts | pkg/mybittorrent/decode.go:84-87 | a failing item aborts the list with that item's error, discarding the items already decoded |
| DecoderProperties.NestedFailureAborts | pkg/mybittorrent/decode.go:84-122 | a failure inside a list item or a dictionary value aborts the whole decode with that failure |
| DecoderProperties.NegativeKeyLength | pkg/mybittorrent/decode.go:54-59 | a negative key length reaches `Next` and is reported as `NegativeLength` |
| Encoder.EncodeString | pkg/mybittorrent/bencode/encode.go:13-14 | a string encodes as decimal digits with no leading zero whose value is its length, then ':', then the bytes unchanged |
| Encoder.Encode | pkg/mybittorrent/bencode/encode.go:11-35 | the first byte of an encoding names the value's kind, and none starts with 'e' |
| Encoder.InSortedOrder | pkg/mybittorrent/bencode/encode.go:37-46 | visits each key of the map exactly once, in strictly ascending order |
| Encoder.InSortedOrderIgnoresIterationOrder | pkg/mybittorrent/bencode/encode.go:38-42 | whatever order the map is ranged over, sorting gives the same keys, so equal maps encode identically |
| Encoder.DecodeEncodedString | pkg/mybittorrent/bencode/encode.go:13-14 | the decoder reads an encoded string back exactly and leaves what follows it |
| Encoder.DecodeEncodedInteger | pkg/mybittorrent/bencode/encode.go:15-16 | the decoder reads `i<n>e` back as n and leaves what follows it |
| Encoder.DecodeEncode | pkg/mybittorrent/bencode/encode.go:11-35 | decoding an encoding consumes exactly that encoding and returns the value, whatever input follows |
| Encoder.RoundTrip | pkg/mybittorrent/bencode/encode.go:11-35 | `Decode(Encode(v)) == v` for every well-formed value, consuming all the input |
| CmdEncoder.Encode | cmd/mybittorrent/main.go:297-322 | starts with the same kind byte as the canonical encoding, and equals it for strings and integers |
| CmdEncoder.EncodeInfo | cmd/mybittorrent/main.go:143-152 | the output is wrapped in 'd' … 'e' |
| CmdEncoder.EncodeInfoSortsTopLevel | cmd/mybittorrent/main.go:143-170 | each top-level key is written once, in ascending order: whatever the values hold, when each value is written canonically the whole output is the canonical encoding |
| CmdEncoder.AscendingIsCanonical | cmd/mybittorrent/main.go:309-316 | when map iteration happens to be ascending, `Encode` is the canonical encoder |
| CmdEncoder.DictFreeIsCanonical | cmd/mybittorrent/main.go:297-308 | a value with no dictionary in it encodes canonically under every iteration order |
| CmdEncoder.EncodeInfoFlatIsCanonical | cmd/mybittorrent/main.go:143-170 | an `info` dictionary with no dictionary inside it is encoded canonically under every iteration order |
| CmdEncoder.DecodeEncode | cmd/mybittorrent/main.go:297-322 | under every iteration order, the decoder reads back exactly the value written |
| CmdEncoder.EncodeInfoDecodes | cmd/mybittorrent/main.go:143-152 | the bytes `EncodeInfo` hashes decode back to the `info` dictionary |
| CmdEncoder.NestedDictionaryBreaksCanonicalForm | cmd/mybittorrent/main.go:309-316 | an `info` holding a dictionary whose keys Go visits in descending order encodes differently from the canonical form |
| Metafile.SplitPieces | pkg/bittorrent/metafile.go:50-55 | yields len/20 chunks for a multiple of 20, each non-empty hex text of at most 40 characters |
| Metafile.SplitPiecesInOrder | pkg/bittorrent/metafile.go:50-55 | entry i is the hex of bytes [20i, 20i+20): piece i's hash stays at index i |
| Metafile.JoinSplitPieces | pkg/bittorrent/metafile.go:50-55 | the split hashes, decoded and joined, are the `pieces` string: no byte is lost or moved |
| Metafile.Interpret | pkg/bittorrent/metafile.go:42-69 | a non-dictionary is "not a dict"; a bad `pieces` length is rejected; success exactly when every asserted field is present; the fields are copied and the hashes listed in order |
| Metafile.ParseMetaInfoFile | pkg/bittorrent/metafile.go:37-69 | decoding errors are passed on unchanged; otherwise the result is the interpretation of the decoded value |
| Metafile.InfoBytes | pkg/bittorrent/metafile.go:25-29 | the bytes hashed for the info-hash decode back to the `info` entry itself |
| Metafile.HashInfoOnlyReadsInfo | pkg/bittorrent/metafile.go:25-29 | files whose `info` entries are equal share the 20-byte info-hash, whatever else they hold |
| Metafile.SameInfoSameHash | pkg/bittorrent/metafile.go:25-29 | two torrent files whose decoded `info` entries are equal have the same info-hash, even when their bytes differ |
| SortedMetafile.WithSortedPieces | pkg/mybittorrent/metafile.go:56 | the hashes become an ascending permutation of themselves; every other field is unchanged |
| SortedMetafile.Interpret | pkg/mybittorrent/metafile.go:42-70 | same success condition and errors as the order-preserving parser; the same fields; the pieces sorted and a permutation of the order-preserving list |
| SortedMetafile.ParseMetaInfoFile | pkg/mybittorrent/metafile.go:37-70 | decoding errors are passed on unchanged; otherwise the result is the interpretation of the decoded value |
| SortedMetafile.SortedInputUnchanged | pkg/mybittorrent/metafile.go:56 | sorting changes nothing when the hashes already come in ascending order |
| SortedMetafile.SortingMisindexesPieces | pkg/mybittorrent/metafile.go:56 | for two pieces whose second hash sorts first, the sorted list no longer holds piece 0's hash at index 0 |
| CmdMetafile.Interpret | cmd/mybittorrent/main.go:103-136 | the announce URL is asserted and parsed before anything else; success condition as before plus a parsing URL; hashes sorted and a permutation of the split |
| CmdMetafile.ParseMetaInfoFile | cmd/mybittorrent/main.go:92-137 | decoding errors are passed on unchanged; otherwise the result is the interpretation of the decoded value |
| CmdMetafile.AgreesWithSortingParser | cmd/mybittorrent/main.go:103-133 | once the announce URL parses, this parser and the sorting one give the same result, errors included |
| CmdMetafile.HashInfo | cmd/mybittorrent/main.go:154-159 | 40 hex characters that decode to the SHA-1 of the bytes `EncodeInfo` writes |
| CmdMetafile.FlatInfoHashAgrees | cmd/mybittorrent/main.go:87-90 | for a flat `info` dictionary, the printed hash is the hex of the info-hash the order-preserving package computes |
| Wire.Send | pkg/bittorrent/protocol.go:123-136 | 5 + len(data) bytes: the big-endian length len(data)+1 (truncated to 32 bits), the id, then the data; pkg/mybittorrent/torrent/protocol.go:119-132 frames alike |
| Wire.Receive | pkg/bittorrent/protocol.go:91-121 | a stream shorter than 4 or 5 bytes fails at the length or the id; otherwise exactly length-1 payload bytes when length > 1 and none otherwise; a short payload is an error; pkg/mybittorrent/torrent/protocol.go:82-117 reads alike |
| Wire.ReceiveSend | pkg/bittorrent/protocol.go:91-136 | `Receive` reads back exactly the message `Send` wrote and leaves what follows |
| Wire.KeepAliveTakesNextByte | pkg/bittorrent/protocol.go:98-105 | a zero-length keep-alive makes `Receive` take the next message's first byte as its id |
| Wire.ParseRequestPayload | pkg/bittorrent/protocol.go:221-226 | the 12-byte Request payload holds the index, offset and size big-endian, and reads back as the same Request |
| Wire.SendRequest | pkg/bittorrent/protocol.go:221-234 | a 17-byte message with id 6 that `Receive` reads back as the 12-byte Request payload |
| Wire.ReceivePiece | pkg/bittorrent/protocol.go:236-251 | receiving errors are passed on; an id other than 7 is an error; otherwise index, offset and block are the payload's bytes [0,4), [4,8) and [8,…) |
| Wire.ReceivePieceReply | pkg/bittorrent/protocol.go:236-251 | a Piece message as a peer sends it is read back field for field |
| Handshake.Message | pkg/mybittorrent/protocol.go:28-33 | byte 19, "BitTorrent protocol", eight zero bytes, the info-hash, then the peer id; `Dial` in pkg/bittorrent/protocol.go:67-72 builds the same greeting |
| Handshake.MessageLayout | pkg/mybittorrent/protocol.go:28-33 | with a 20-byte hash and id the greeting is 68 bytes: hash at [28,48), id at [48,68) |
| Handshake.ReplyBuffer | pkg/mybittorrent/protocol.go:40-41 | 68 bytes: the reply chunk's first bytes, padded with zeros when the chunk is short |
| Handshake.RemotePeerId | pkg/mybittorrent/protocol.go:46 | 40 hex characters that decode to bytes [48,68) of the reply buffer |
| Handshake.EchoedHashIgnored | pkg/mybittorrent/protocol.go:40-46 | replies agreeing on bytes [48,68) give the same id: the echoed info-hash is never compared |
| Handshake.ShortReplyGivesZeroId | pkg/mybittorrent/protocol.go:40-46 | a reply of 48 bytes or fewer yields forty '0' characters and no error |
| Handshake.HandshakePeer | pkg/mybittorrent/protocol.go:12-47 | a failure at any step returns that error with an empty id; the greeting is written exactly when the write or a later step is reached |
| Handshake.SuccessfulHandshake | pkg/mybittorrent/protocol.go:12-47 | a successful handshake wrote the 68-byte greeting carrying the hash and id, and returned 40 hex characters |
| Handshake.CheckedHandshake | pkg/mybittorrent/protocol.go:40-46 | the handshake the peer protocol of BEP 3 asks for: it succeeds exactly when no step fails and the reply echoes our info-hash, and then returns the same peer id |
| Handshake.OtherTorrentAccepted | pkg/mybittorrent/protocol.go:40-46 | a full reply echoing another info-hash yields a peer id from `HandshakePeer` and is refused by the checked handshake |
| PiecePlan.GoDiv | pkg/bittorrent/protocol.go:158 | Go's `/`: the remainder is smaller than the divisor and is zero or has the dividend's sign |
| PiecePlan.PieceSize | pkg/bittorrent/protocol.go:157-161 | for a positive piece length and a non-negative file length, the size is the bytes left from where the piece starts, capped at one piece length; a negative index therefore gets the full piece length |
| PiecePlan.PieceSizeBounds | pkg/bittorrent/protocol.go:157-161 | every piece but the last is full, the last holds the remainder, and an index past the end gets size ≤ 0 |
| PiecePlan.PieceSizesSum | pkg/bittorrent/protocol.go:157-161 | the piece sizes of a file add up to its length |
| PiecePlan.BlockCount | pkg/bittorrent/protocol.go:163-170 | ceil(size/16384) blocks: enough to cover the piece, with no empty block |
| PiecePlan.LastBlockSize | pkg/bittorrent/protocol.go:164-170 | the last block is what remains after the full blocks, between 1 and 16384 bytes |
| PiecePlan.Plan | pkg/bittorrent/protocol.go:175-186 | one Request per block: the truncated piece index, offset 16384·i, and a size of 1 to 16384 bytes |
| PiecePlan.PlanCoversPiece | pkg/bittorrent/protocol.go:163-205 | the blocks follow one another from 0 to the end of the piece, and their sizes sum to the piece size |
| PiecePlan.PlanExamples | pkg/bittorrent/protocol.go:163-186 | 32768 bytes give two 16384-byte blocks; 20000 bytes give 16384 + 3616; an empty piece gives no Request |
| Download.Copy | pkg/bittorrent/protocol.go:204 | `copy(buf[at:], data)`: the first min(len(data), len(buf)-at) bytes of `data` land at `at`, the rest of `data` is dropped, and every other byte of the buffer is unchanged |
| Download.Check | pkg/bittorrent/protocol.go:191-202 | a reply is accepted exactly when it was read and echoes the requested offset and index |
| Download.Fetch | pkg/bittorrent/protocol.go:175-206 | the Requests sent are a prefix of the plan, all of it on success; the buffer keeps its size; the errors are read failures, bad echoes and a begin past the end |
| Download.BadEchoStops | pkg/bittorrent/protocol.go:196-202 | a reply with the wrong offset or index ends the download after one Request, with the matching error |
| Download.DownloadPiece | pkg/bittorrent/protocol.go:155-219 | a zero piece length and a negative size fail before any Request; loop errors are passed on; an index outside the hash list, negative ones included, fails after the Requests; a mismatching hash is an error; success means the index is in range and the SHA-1 hex equals the listed hash |
| Download.NegativeIndexFails | pkg/bittorrent/protocol.go:155-208 | a negative index, which pkg/commands/download_piece.go passes on from the command line, gets the full piece length, sends at least one Request carrying the index wrapped to 32 bits, and never succeeds; if every reply is accepted it fails at the `Pieces` lookup |
| Download.DownloadPieces | pkg/bittorrent/protocol.go:141-150 | every returned buffer has its piece's size and hashes to the hash listed for it; the Requests written are those of the pieces in order, cut off at the first failure, and all of them on success |
| Download.DownloadFile | pkg/bittorrent/protocol.go:138-153 | the Requests written are a prefix of all pieces' Requests, so none is written after the failing piece; on success the file has the total size of the pieces and the bytes where piece i lies hash to its listed hash |
| Download.FileLayout | pkg/bittorrent/protocol.go:141-150 | concatenating verified pieces puts piece i between the total sizes of the pieces before it and up to it |
| Download.PieceInConcat | pkg/bittorrent/protocol.go:146 | in a concatenation, piece k lies between the lengths of the pieces before it and up to it |
| Download.FetchHonest | pkg/bittorrent/protocol.go:175-206 | a peer answering every Request with the bytes asked for fills the buffer with exactly those bytes |
| Download.HonestPiece | pkg/bittorrent/protocol.go:155-219 | a peer answering honestly with content matching the listed hash yields that content, after one Request per block |
| Download.ForeignIndexRefused | pkg/bittorrent/protocol.go:200-202 | correct bytes under another piece's index are refused at the first block |
| Download.ConcatPieces | pkg/bittorrent/protocol.go:146 | the pieces of a file, concatenated, are the file |
| Download.HonestDownload | pkg/bittorrent/protocol.go:138-153 | downloading a whole torrent from an honest peer returns the file |
| LooseDownload.FetchLoose | pkg/mybittorrent/torrent/protocol.go:155-191 | the Requests sent are a prefix of the plan; the only errors are read failures and a begin past the end |
| LooseDownload.LooseDownloadPiece | pkg/mybittorrent/torrent/protocol.go:134-202 | a zero piece length, an index outside the hash list (negative ones included) and a negative size fail before any Request; it never reports a bad echo or a hash mismatch |
| LooseDownload.FetchAgrees | pkg/mybittorrent/torrent/protocol.go:155-191 | the loose and strict block loops agree on every stream the strict one does not refuse for its echo |
| LooseDownload.StrictAcceptedIsLooseAccepted | pkg/mybittorrent/torrent/protocol.go:134-202 | every piece the strict download accepts, the loose one returns after the same Requests |
| LooseDownload.HashMismatchAccepted | pkg/mybittorrent/torrent/protocol.go:193-201 | a piece the strict download rejects for its hash is returned by the loose one |
| LooseDownload.MissingHashBeforeRequests | pkg/mybittorrent/torrent/protocol.go:151 | for an index outside the hash list, negative or past its end, the loose download sends nothing, while the strict one sends Requests first |
| LooseDownload.FetchLooseHonest | pkg/mybittorrent/torrent/protocol.go:155-191 | a peer sending the right bytes fills the buffer with them, whatever index it echoes |
| LooseDownload.ForeignIndexAccepted | pkg/mybittorrent/torrent/protocol.go:182-188 | correct bytes under another piece's index are returned by the loose download and refused by the strict one |
| Trackers.IPv4 | pkg/bittorrent/trackers.go:80 | 16 bytes: the IPv4-mapped prefix, then the four address bytes |
| Trackers.CompactPeer | pkg/bittorrent/trackers.go:77-82 | the address is entry bytes 0..4 in mapped form; the port is the big-endian u16 of bytes 4..6 |
| Trackers.ParsePeers | pkg/bittorrent/trackers.go:74-84 | one peer per six bytes |
| Trackers.ParsePeersEntries | pkg/bittorrent/trackers.go:74-84 | peer i comes from bytes [6i, 6i+6), in input order |
| Trackers.CompactParsePeers | pkg/bittorrent/trackers.go:74-84 | every parsed peer is IPv4, and writing the list back in compact form gives the same bytes |
| Trackers.ParseCompactPeers | pkg/bittorrent/trackers.go:74-84 | a list of IPv4 peers written in compact form parses back to the same list |
| Trackers.Interpret | pkg/bittorrent/trackers.go:63-91 | a non-dictionary and a `failure reason` are errors; success exactly when `peers` is a multiple of 6 bytes and `interval` an integer; the interval is copied and the peers are the compact list; pkg/mybittorrent/trackers.go:61-89 interprets alike |
| Trackers.ParseResponse | pkg/mybittorrent/trackers.go:56-89 | an empty body and other decoding errors are passed on unchanged; an accepted response decoded to a dictionary without `failure reason`, whose `interval` is the 64-bit interval returned and whose `peers` bytes are the compact form of the peers returned |
| Trackers.EncodedResponseParses | pkg/mybittorrent/trackers.go:56-89 | a dictionary a tracker writes canonically is read as its interpretation |
| Trackers.ParseEncodedResponse | pkg/mybittorrent/trackers.go:56-89 | an interval and a list of IPv4 peers, written as a tracker response and parsed, come back unchanged |
| Trackers.PeersOfResponse | pkg/mybittorrent/trackers.go:72-82 | each peer of an accepted response has entry i's four address bytes and the big-endian port of its bytes 4..6 |

## Left out

- Sockets, HTTP and files are not modelled. This covers `net.ResolveTCPAddr`, `net.DialTCP`, `conn.Read`/`conn.Write`, the `http.Client` request, and `os.ReadFile`. The peer is the byte stream it sends. A failed write in `Send` is not modelled. The handshake takes which step fails as a parameter.
- Building the tracker request is not modelled, because it is HTTP plumbing. This includes the query string and the doubly escaped `info_hash` of pkg/mybittorrent/trackers.go:35-36.
- SHA-1 and `url.Parse` are parameters. Their internals are out of scope.
- `randomPeerId` is not part of this model; the local peer id is part of `Handshake.Environment`.
- Go's map-iteration order is a parameter (`CmdEncoder.IterationOrder`). It takes the dictionary's path inside the value being encoded and its key set, and must list each key once. Go picks the order of each `range` separately; since no two dictionaries of one value share a path, every choice Go can make during one encoding is one such parameter. Two separate encodings are not tied to each other.
- The encoder called by `HashInfo` in pkg/mybittorrent/metafile.go:27 is the package-local `Encode` of package `mybittorrent`; the file defining it is not part of this model. The model assumes it is the canonical encoder of pkg/mybittorrent/bencode/encode.go (`Encoder.Encode`), so the info-hash of `Metafile.HashInfo` rests on that assumption.
- pkg/bittorrent/bencoding is not part of this model. Where pkg/bittorrent decodes or encodes, the model uses the codec of pkg/mybittorrent.
- The CLI is not modelled: `main` in cmd/mybittorrent/main.go, pkg/commands, printing, logging and JSON output.
- Error texts are not modelled; each error is a variant carrying its data.
- The decoder reads bytes, not UTF-8 runes. For ASCII input the two are the same. A non-ASCII Unicode digit as a value's first rune is an error either way: Go fails in `ReadString` (no ':') or in `strconv.Atoi`, the model reports an unrecognised prefix.
- Go's nil and empty payloads are both the empty sequence. Nothing in the modelled code tells them apart.
- Integer overflow of Go's 64-bit `int` in `pieceLength * pieceIndex` and in `byteOffset` is not modelled. Sizes are unbounded integers, and only the `uint32` conversions are truncated.
- The check `n != int(length-1)` in `Receive` is not modelled, because `io.ReadFull` never returns a short count without an error.
- Metafile.HashInfo: returns a `Digest` (a 20-byte sequence) but carries no contract of its own. Its properties are stated by Metafile.HashInfoOnlyReadsInfo and Metafile.SameInfoSameHash.

## Findings

| source | as written | input that shows it | evidently intended | confidence | as-written member | corrected member |
|---|---|---|---|---|---|---|
| pkg/mybittorrent/metafile.go:56 | the hex piece hashes are sorted after splitting, so index i no longer holds the hash of piece i | `pieces` = twenty 0xff bytes, then twenty 0x00 bytes: the sorted list puts piece 1's hash at index 0 | keep the hashes in file order, as pkg/bittorrent/metafile.go does | high; not executed | SortedMetafile.SortingMisindexesPieces | Metafile.SplitPiecesInOrder |
| cmd/mybittorrent/main.go:309-316 | `Encode` writes a dictionary's pairs in map-iteration order; only the top-level keys of `info` are sorted | an `info` entry `{"x": {"a": 1, "b": 2}}` with the inner keys visited "b" first | dictionary keys in ascending order at every depth, as in pkg/mybittorrent/bencode/encode.go | high; not executed | CmdEncoder.NestedDictionaryBreaksCanonicalForm | Encoder.InSortedOrderIgnoresIterationOrder |
| pkg/mybittorrent/torrent/protocol.go:193-201 | the piece's SHA-1 is computed but never compared with the listed hash | a peer sending bytes whose SHA-1 differs from the listed hash | refuse a piece whose hash differs, as pkg/bittorrent/protocol.go:214-216 does | medium; not executed | LooseDownload.HashMismatchAccepted | Download.DownloadPiece |
| pkg/mybittorrent/protocol.go:40-46 | only bytes [48, 68) of the peer's reply are read; the info-hash it echoes at [28, 48) is never compared with the one sent | a 68-byte reply whose bytes [28, 48) differ from the info-hash sent: a peer id is returned with no error | end the connection when the echoed info-hash differs, as the peer protocol of BEP 3 requires | medium; not executed | Handshake.OtherTorrentAccepted | Handshake.CheckedHandshake |

=== FILE: bencode.dfy ===
/** The decoded form of bencoded data: the four value kinds of the bencoding
    section of BEP 3. */
module Bencode {
  import opened Bytes
  import opened Decimal

  const COLON: byte := 58     // ':'
  const INT_TAG: byte := 105  // 'i'
  const LIST_TAG: byte := 108 // 'l'
  const DICT_TAG: byte := 100 // 'd'
  const END: byte := 101      // 'e'

  /** A dictionary key: raw bytes, compared byte by byte. */
  type Key = seq<byte>

  /** The Go decoder yields `string`, `int`, `[]interface{}` or
      `map[string]interface{}`; a Go map holds each key once. */
  datatype BValue =
    | Str(bytes: seq<byte>)
    | Int(n: int)
    | List(items: seq<BValue>)
    | Dict(entries: map<Key, BValue>)

  /** The values Go can hold: integers fit `int`, and every string's length is
      an `int` as well. */
  predicate WellFormed(v: BValue)
    decreases v
  {
    match v
    case Str(b) => |b| <= MAX_INT64
    case Int(n) => InInt64(n)
    case List(items) => forall i :: 0 <= i < |items| ==> WellFormed(items[i])
    case Dict(m) => forall k :: k in m ==> |k| <= MAX_INT64 && WellFormed(m[k])
  }

  /** Whether `v` holds a dictionary below its top level. */
  predicate HasNestedDict(v: BValue)
    decreases v
  {
    match v
    case Str(_) => false
    case Int(_) => false
    case List(items) => exists i :: 0 <= i < |items| && (items[i].Dict? || HasNestedDict(items[i]))
    case Dict(m) => exists k :: k in m && (m[k].Dict? || HasNestedDict(m[k]))
  }

  /** The entry `key` of a dictionary when it is a byte string: a Go
      `d[key].(string)` that does not panic. */
  predicate HasStr(m: map<Key, BValue>, key: Key) {
    key in m && m[key].Str?
  }

  predicate HasInt(m: map<Key, BValue>, key: Key) {
    key in m && m[key].Int?
  }

  predicate HasDict(m: map<Key, BValue>, key: Key) {
    key in m && m[key].Dict?
  }
}

=== FILE: bytes.dfy ===
/** Bytes, ASCII text and the fixed-width big-endian integers of the wire format. */
module Bytes {

  type byte = b: int | 0 <= b < 256

  const UINT16_LIMIT: int := 0x1_0000
  const UINT32_LIMIT: int := 0x1_0000_0000

  type uint16 = n: int | 0 <= n < 0x1_0000
  type uint32 = n: int | 0 <= n < 0x1_0000_0000

  /** Go's `uint32(x)` conversion of an int: keep the low 32 bits, so a
      negative value wraps around. */
  function ToUint32(x: int): (r: uint32)
    ensures 0 <= x < UINT32_LIMIT ==> r == x
    ensures 0 <= x ==> r <= x
    ensures -UINT32_LIMIT <= x < 0 ==> r == x + UINT32_LIMIT
    ensures (x - r) % UINT32_LIMIT == 0
  {
    x % UINT32_LIMIT
  }

  function Zeros(n: nat): (r: seq<byte>)
    ensures |r| == n
    ensures forall i :: 0 <= i < n ==> r[i] == 0
  {
    seq(n, _ => 0)
  }

  /** `binary.BigEndian.PutUint32`. */
  function BE32(n: uint32): (r: seq<byte>)
    ensures |r| == 4
  {
    [n / 0x100_0000, (n / 0x1_0000) % 256, (n / 0x100) % 256, n % 256]
  }

  /** `binary.BigEndian.Uint32`. */
  function ReadBE32(b: seq<byte>): (n: uint32)
    requires |b| == 4
  {
    (b[0] as int) * 0x100_0000 + (b[1] as int) * 0x1_0000 + (b[2] as int) * 0x100 + b[3] as int
  }

  /** `binary.BigEndian.Uint16`. */
  function ReadBE16(b: seq<byte>): (n: uint16)
    requires |b| == 2
  {
    (b[0] as int) * 0x100 + b[1] as int
  }

  function BE16(n: uint16): (r: seq<byte>)
    ensures |r| == 2
  {
    [n / 0x100, n % 0x100]
  }

  lemma BE32RoundTrip(n: uint32)
    ensures ReadBE32(BE32(n)) == n
  {
    var q1, r1 := n / 0x100, n % 0x100;
    var q2, r2 := q1 / 0x100, q1 % 0x100;
    var q3, r3 := q2 / 0x100, q2 % 0x100;
    assert n == q1 * 0x100 + r1;
    assert q1 == q2 * 0x100 + r2;
    assert q2 == q3 * 0x100 + r3;
    assert n / 0x1_0000 == q2;
    assert n / 0x100_0000 == q3;
  }

  lemma ReadBE32RoundTrip(b: seq<byte>)
    requires |b| == 4
    ensures BE32(ReadBE32(b)) == b
  {
    var n := ReadBE32(b);
    var b0, b1, b2, b3 := b[0] as int, b[1] as int, b[2] as int, b[3] as int;
    var hi, mid := b0 * 0x100 + b1, b0 * 0x1_0000 + b1 * 0x100 + b2;
    DivUnique(n, 0x100_0000, b0, b1 * 0x1_0000 + b2 * 0x100 + b3);
    DivUnique(n, 0x1_0000, hi, b2 * 0x100 + b3);
    DivUnique(hi, 0x100, b0, b1);
    DivUnique(n, 0x100, mid, b3);
    DivUnique(mid, 0x100, hi, b2);
  }

  /** Euclidean division has one quotient and one remainder. */
  lemma DivUnique(n: int, d: int, q: int, r: int)
    requires 0 <= r < d && n == q * d + r
    ensures n / d == q && n % d == r
  {
    var q', r' := n / d, n % d;
    assert (q - q') * d == r' - r;
    if q > q' {
      assert (q - q') * d >= d by { MulAtLeast(q - q', d); }
    } else if q < q' {
      assert (q' - q) * d >= d by { MulAtLeast(q' - q, d); }
    }
  }

  lemma MulAtLeast(k: int, d: int)
    requires k >= 1 && d > 0
    ensures k * d >= d
  {
    assert k * d == d + (k - 1) * d;
  }

  lemma BE16RoundTrip(n: uint16)
    ensures ReadBE16(BE16(n)) == n
  {
  }

  lemma ReadBE16RoundTrip(b: seq<byte>)
    requires |b| == 2
    ensures BE16(ReadBE16(b)) == b
  {
  }

  lemma Assoc<T>(a: seq<T>, b: seq<T>, c: seq<T>)
    ensures a + b + c == a + (b + c)
  {
  }
}

=== FILE: cmd_encoder.dfy ===
/** The encoder in cmd/mybittorrent/main.go: `Encode` walks a dictionary in Go
    map-iteration order, and only `EncodeInfo` sorts, and only the keys of the
    dictionary it is given. The iteration order is a parameter, chosen afresh
    for every dictionary the encoding reaches, so every property below holds
    for every sequence of choices Go may make. */
module CmdEncoder {
  import opened Bytes
  import opened Results
  import opened Decimal
  import opened Bencode
  import opened Lex
  import opened Decoder
  import Encoder

  /** One step down into a value: the item at a list position, or the value
      under a dictionary key. */
  datatype Step = Item(i: nat) | Field(k: Key)

  /** Where a value sits inside the value being encoded. No two dictionaries
      of one value share a path. */
  type Path = seq<Step>

  /** The order in which the `for k, v := range` loop over the dictionary at
      a path visits its keys. Go picks an order for each `range` separately,
      so two dictionaries with the same keys may be visited differently. */
  type IterationOrder = (Path, set<Key>) -> seq<Key>

  /** A `range` over a map visits each key of the map exactly once. */
  ghost predicate Enumerates(order: IterationOrder) {
    forall at: Path, ks: set<Key> :: Distinct(order(at, ks)) && (forall k :: k in order(at, ks) <==> k in ks)
  }

  /** An iteration order that happens to be ascending everywhere. */
  ghost predicate Ascending(order: IterationOrder) {
    forall at: Path, ks: set<Key> :: order(at, ks) == SortedKeys(ks)
  }

  lemma VisitsKeys(order: IterationOrder, at: Path, m: map<Key, BValue>)
    requires Enumerates(order)
    ensures forall k :: k in order(at, m.Keys) <==> k in m
  {
  }

  /** `Encode` of the value at path `at`: the string, integer and list cases
      of the canonical encoder, and a dictionary case that emits the pairs in
      iteration order. */
  function Encode(order: IterationOrder, at: Path, v: BValue): (r: seq<byte>)
    requires Enumerates(order)
    ensures r != [] && r[0] == Encoder.Encode(v)[0]
    ensures !v.Dict? && !v.List? ==> r == Encoder.Encode(v)
    decreases v
  {
    match v
    case Str(b) => Encoder.EncodeString(b)
    case Int(n) => [INT_TAG] + Signed(n) + [END]
    case List(items) => [LIST_TAG] + EncodeItems(order, at, 0, items) + [END]
    case Dict(m) => [DICT_TAG] + EncodePairs(order, at, m, order(at, m.Keys), v) + [END]
  }

  /** The items of the list at `at`, from position `i` on. */
  function EncodeItems(order: IterationOrder, at: Path, i: nat, items: seq<BValue>): (r: seq<byte>)
    requires Enumerates(order)
    ensures items == [] <==> r == []
    decreases items
  {
    if items == [] then []
    else Encode(order, at + [Item(i)], items[0]) + EncodeItems(order, at, i + 1, items[1..])
  }

  /** Each visited key of the dictionary at `at` as a string, immediately
      followed by its value. */
  function EncodePairs(order: IterationOrder, at: Path, m: map<Key, BValue>, keys: seq<Key>, ghost parent: BValue): (r: seq<byte>)
    requires Enumerates(order)
    requires parent == Dict(m)
    requires forall k :: k in keys ==> k in m
    ensures keys == [] <==> r == []
    decreases parent, |keys|
  {
    if keys == [] then []
    else
      Encoder.EncodeString(keys[0]) + Encode(order, at + [Field(keys[0])], m[keys[0]])
        + EncodePairs(order, at, m, keys[1..], parent)
  }

  /** `Dictionary.EncodeInfo`: 'd', the top-level keys in ascending order, each
      followed by its value as `Encode` writes it, then 'e'. */
  function EncodeInfo(order: IterationOrder, m: map<Key, BValue>): (r: seq<byte>)
    requires Enumerates(order)
    ensures |r| >= 2 && r[0] == DICT_TAG && r[|r| - 1] == END
  {
    [DICT_TAG] + EncodePairs(order, [], m, Encoder.InSortedOrder(m), Dict(m)) + [END]
  }

  /** Only the values can make `EncodeInfo` differ from the canonical
      encoding: each top-level key is written once, in ascending order, so
      when every value is written canonically, so is the whole. */
  lemma EncodeInfoSortsTopLevel(order: IterationOrder, m: map<Key, BValue>)
    requires Enumerates(order)
    requires forall k :: k in m ==> Encode(order, [Field(k)], m[k]) == Encoder.Encode(m[k])
    ensures EncodeInfo(order, m) == Encoder.Encode(Dict(m))
  {
    CanonicalValuesPairs(order, m, Encoder.InSortedOrder(m));
  }

  lemma {:induction false} CanonicalValuesPairs(order: IterationOrder, m: map<Key, BValue>, keys: seq<Key>)
    requires Enumerates(order)
    requires forall k :: k in keys ==> k in m
    requires forall k :: k in m ==> Encode(order, [Field(k)], m[k]) == Encoder.Encode(m[k])
    ensures EncodePairs(order, [], m, keys, Dict(m)) == Encoder.EncodePairs(m, keys, Dict(m))
    decreases |keys|
  {
    if keys != [] {
      assert [] + [Field(keys[0])] == [Field(keys[0])];
      CanonicalValuesPairs(order, m, keys[1..]);
    }
  }

  /** When the iteration order is ascending, `Encode` writes the canonical
      encoding. */
  lemma {:induction false} AscendingIsCanonical(order: IterationOrder, at: Path, v: BValue)
    requires Enumerates(order) && Ascending(order)
    ensures Encode(order, at, v) == Encoder.Encode(v)
    decreases v, 1
  {
    match v
    case Str(_) =>
    case Int(_) =>
    case List(items) =>
      AscendingItems(order, at, 0, items);
    case Dict(m) =>
      AscendingPairs(order, at, m, order(at, m.Keys), v);
  }

  lemma {:induction false} AscendingItems(order: IterationOrder, at: Path, i: nat, items: seq<BValue>)
    requires Enumerates(order) && Ascending(order)
    ensures EncodeItems(order, at, i, items) == Encoder.EncodeItems(items)
    decreases items, 0
  {
    if items != [] {
      AscendingIsCanonical(order, at + [Item(i)], items[0]);
      AscendingItems(order, at, i + 1, items[1..]);
    }
  }

  lemma {:induction false} AscendingPairs(order: IterationOrder, at: Path, m: map<Key, BValue>, keys: seq<Key>, parent: BValue)
    requires Enumerates(order) && Ascending(order)
    requires parent == Dict(m)
    requires forall k :: k in keys ==> k in m
    ensures EncodePairs(order, at, m, keys, parent) == Encoder.EncodePairs(m, keys, parent)
    decreases parent, 0, |keys|
  {
    if keys != [] {
      AscendingIsCanonical(order, at + [Field(keys[0])], m[keys[0]]);
      AscendingPairs(order, at, m, keys[1..], parent);
    }
  }

  /** A value without dictionaries encodes canonically whatever the iteration
      order. */
  lemma {:induction false} DictFreeIsCanonical(order: IterationOrder, at: Path, v: BValue)
    requires Enumerates(order)
    requires !v.Dict? && !HasNestedDict(v)
    ensures Encode(order, at, v) == Encoder.Encode(v)
    decreases v, 1
  {
    match v
    case Str(_) =>
    case Int(_) =>
    case List(items) =>
      DictFreeItems(order, at, 0, items);
  }

  lemma {:induction false} DictFreeItems(order: IterationOrder, at: Path, i: nat, items: seq<BValue>)
    requires Enumerates(order)
    requires forall j :: 0 <= j < |items| ==> !items[j].Dict? && !HasNestedDict(items[j])
    ensures EncodeItems(order, at, i, items) == Encoder.EncodeItems(items)
    decreases items, 0
  {
    if items != [] {
      DictFreeIsCanonical(order, at + [Item(i)], items[0]);
      DictFreeItems(order, at, i + 1, items[1..]);
    }
  }

  /** `EncodeInfo` of a dictionary with no dictionary below it is the canonical
      encoding, so the info-hash of such an `info` entry does not depend on
      iteration order. */
  lemma EncodeInfoFlatIsCanonical(order: IterationOrder, m: map<Key, BValue>)
    requires Enumerates(order)
    requires forall k :: k in m ==> !m[k].Dict? && !HasNestedDict(m[k])
    ensures EncodeInfo(order, m) == Encoder.Encode(Dict(m))
  {
    forall k | k in m ensures Encode(order, [Field(k)], m[k]) == Encoder.Encode(m[k]) {
      DictFreeIsCanonical(order, [Field(k)], m[k]);
    }
    EncodeInfoSortsTopLevel(order, m);
  }

  /** Whatever the iteration order, the decoder reads back exactly the value
      `Encode` wrote, consuming all of it. */
  lemma {:induction false} DecodeEncode(order: IterationOrder, at: Path, v: BValue, rest: seq<byte>)
    requires Enumerates(order) && WellFormed(v)
    ensures DecodeValue(Encode(order, at, v) + rest) == Ok((v, rest))
    decreases v, 2
  {
    match v
    case Str(b) =>
      Encoder.DecodeEncodeStr(b, rest);
    case Int(n) =>
      Encoder.DecodeEncodeInt(n, rest);
    case List(items) =>
      var body := EncodeItems(order, at, 0, items) + [END] + rest;
      assert Encode(order, at, v) + rest == [LIST_TAG] + body;
      DecodeEncodeItems(order, at, 0, items, rest);
      DecodeListOk(body, items, rest);
    case Dict(m) =>
      DecodeEncodeDict(order, at, m, v, rest);
  }

  lemma {:induction false} DecodeEncodeDict(order: IterationOrder, at: Path, m: map<Key, BValue>, parent: BValue, rest: seq<byte>)
    requires Enumerates(order)
    requires parent == Dict(m) && WellFormed(parent)
    ensures DecodeValue(Encode(order, at, parent) + rest) == Ok((parent, rest))
    decreases parent, 1
  {
    var keys := order(at, m.Keys);
    VisitsKeys(order, at, m);
    var body := EncodePairs(order, at, m, keys, parent) + [END] + rest;
    DictShape(order, at, m, parent, rest);
    DecodeEncodePairs(order, at, m, keys, parent, rest);
    Encoder.KeysCover(m, keys);
    DecodeDictOk(body, m, rest);
  }

  lemma DictShape(order: IterationOrder, at: Path, m: map<Key, BValue>, parent: BValue, rest: seq<byte>)
    requires Enumerates(order) && parent == Dict(m)
    ensures Encode(order, at, parent) + rest == [DICT_TAG] + (EncodePairs(order, at, m, order(at, m.Keys), parent) + [END] + rest)
  {
    var pairs := EncodePairs(order, at, m, order(at, m.Keys), parent);
    assert Encode(order, at, parent) == [DICT_TAG] + pairs + [END];
  }

  lemma {:induction false} DecodeEncodeItems(order: IterationOrder, at: Path, i: nat, items: seq<BValue>, rest: seq<byte>)
    requires Enumerates(order)
    requires forall j :: 0 <= j < |items| ==> WellFormed(items[j])
    ensures DecodeList(EncodeItems(order, at, i, items) + [END] + rest) == Ok((items, rest))
    decreases items, 0
  {
    if items != [] {
      var first := Encode(order, at + [Item(i)], items[0]);
      var tail := EncodeItems(order, at, i + 1, items[1..]) + [END] + rest;
      assert EncodeItems(order, at, i, items) + [END] + rest == first + tail;
      DecodeEncode(order, at + [Item(i)], items[0], tail);
      DecodeEncodeItems(order, at, i + 1, items[1..], rest);
      Encoder.DecodeListStep(first + tail, items[0], tail, items[1..], rest);
      assert [items[0]] + items[1..] == items;
    }
  }

  lemma DecodePairThen(order: IterationOrder, at: Path, k: Key, v: BValue, tail: seq<byte>, later: map<Key, BValue>, rest: seq<byte>)
    requires Enumerates(order)
    requires |k| <= MAX_INT64 && WellFormed(v)
    requires DecodeDict(tail) == Ok((later, rest))
    ensures DecodeDict(Encoder.EncodeString(k) + Encode(order, at, v) + tail) == Ok((map[k := v] + later, rest))
    decreases v, 3
  {
    var key, value := Encoder.EncodeString(k), Encode(order, at, v);
    var s := key + value + tail;
    Assoc(key, value, tail);
    assert s[0] == key[0];
    Encoder.DecodeEncodedString(k, value + tail);
    DecodeEncode(order, at, v, tail);
    Encoder.DecodeDictStep(s, k, value + tail, v, tail, later, rest);
  }

  lemma {:induction false} DecodeEncodePairs(order: IterationOrder, at: Path, m: map<Key, BValue>, keys: seq<Key>, parent: BValue, rest: seq<byte>)
    requires Enumerates(order)
    requires parent == Dict(m) && WellFormed(parent)
    requires forall k :: k in keys ==> k in m
    ensures DecodeDict(EncodePairs(order, at, m, keys, parent) + [END] + rest)
            == Ok(((map k | k in keys :: m[k]), rest))
    decreases parent, 0, |keys|
  {
    if keys == [] {
      assert (map k | k in keys :: m[k]) == map[];
    } else {
      var key := keys[0];
      var value := Encode(order, at + [Field(key)], m[key]);
      var tail := EncodePairs(order, at, m, keys[1..], parent) + [END] + rest;
      DecodeEncodePairs(order, at, m, keys[1..], parent, rest);
      DecodePairThen(order, at + [Field(key)], key, m[key], tail, map k | k in keys[1..] :: m[k], rest);
      Encoder.Regroup(Encoder.EncodeString(key), value, EncodePairs(order, at, m, keys[1..], parent), END, rest);
      Encoder.MapPrepend(m, keys);
    }
  }

  /** The bytes `EncodeInfo` hashes always decode back to the `info` dictionary,
      even when they are not its canonical encoding. */
  lemma EncodeInfoDecodes(order: IterationOrder, m: map<Key, BValue>)
    requires Enumerates(order) && WellFormed(Dict(m))
    ensures Decode(EncodeInfo(order, m)) == Ok(Dict(m))
    ensures DecodeValue(EncodeInfo(order, m)) == Ok((Dict(m), []))
  {
    var keys := Encoder.InSortedOrder(m);
    var body := EncodePairs(order, [], m, keys, Dict(m)) + [END] + [];
    assert EncodeInfo(order, m) == [DICT_TAG] + body;
    DecodeEncodePairs(order, [], m, keys, Dict(m), []);
    Encoder.KeysCover(m, keys);
    DecodeDictOk(body, m, []);
  }

  /** Two one-byte keys, "a" < "b", and the top-level key "x". */
  const KEY_A: Key := [97]
  const KEY_B: Key := [98]
  const KEY_X: Key := [120]

  lemma PairKeys(m: map<Key, BValue>)
    requires m.Keys == {KEY_A, KEY_B}
    ensures Encoder.InSortedOrder(m) == [KEY_A, KEY_B]
  {
    var r := Encoder.InSortedOrder(m);
    assert KEY_A in r && KEY_B in r && |r| == 2;
    assert !Le(KEY_B, KEY_A);
    assert Lt(r[0], r[1]);
  }

  lemma EncodeStringOfOneByte(k: Key)
    requires |k| == 1
    ensures Encoder.EncodeString(k) == [ZERO + 1, COLON] + k
  {
  }

  /** Byte 3 of an encoded dictionary is the first byte of the first key
      visited, when that key is one byte long. */
  lemma LooseFirstKeyByte(order: IterationOrder, at: Path, m: map<Key, BValue>, first: Key)
    requires Enumerates(order)
    requires order(at, m.Keys) != [] && order(at, m.Keys)[0] == first && |first| == 1
    ensures |Encode(order, at, Dict(m))| > 3 && Encode(order, at, Dict(m))[3] == first[0]
  {
    VisitsKeys(order, at, m);
    var pairs := EncodePairs(order, at, m, order(at, m.Keys), Dict(m));
    LoosePairsStart(order, at, m, first);
    assert Encode(order, at, Dict(m)) == [DICT_TAG] + pairs + [END];
  }

  lemma LoosePairsStart(order: IterationOrder, at: Path, m: map<Key, BValue>, first: Key)
    requires Enumerates(order)
    requires order(at, m.Keys) != [] && order(at, m.Keys)[0] == first && |first| == 1
    ensures forall k :: k in order(at, m.Keys) ==> k in m
    ensures var pairs := EncodePairs(order, at, m, order(at, m.Keys), Dict(m));
            |pairs| > 2 && pairs[2] == first[0]
  {
    var keys := order(at, m.Keys);
    VisitsKeys(order, at, m);
    EncodeStringOfOneByte(first);
    var later := Encode(order, at + [Field(first)], m[first]) + EncodePairs(order, at, m, keys[1..], Dict(m));
    assert EncodePairs(order, at, m, keys, Dict(m)) == Encoder.EncodeString(first) + later;
  }

  lemma CanonicalFirstKeyByte(m: map<Key, BValue>, first: Key)
    requires Encoder.InSortedOrder(m) != [] && Encoder.InSortedOrder(m)[0] == first && |first| == 1
    ensures |Encoder.Encode(Dict(m))| > 3 && Encoder.Encode(Dict(m))[3] == first[0]
  {
    var pairs := Encoder.EncodePairs(m, Encoder.InSortedOrder(m), Dict(m));
    CanonicalPairsStart(m, first);
    assert Encoder.Encode(Dict(m)) == [DICT_TAG] + pairs + [END];
  }

  lemma CanonicalPairsStart(m: map<Key, BValue>, first: Key)
    requires Encoder.InSortedOrder(m) != [] && Encoder.InSortedOrder(m)[0] == first && |first| == 1
    ensures var pairs := Encoder.EncodePairs(m, Encoder.InSortedOrder(m), Dict(m));
            |pairs| > 2 && pairs[2] == first[0]
  {
    var keys := Encoder.InSortedOrder(m);
    EncodeStringOfOneByte(first);
    var later := Encoder.Encode(m[first]) + Encoder.EncodePairs(m, keys[1..], Dict(m));
    assert Encoder.EncodePairs(m, keys, Dict(m)) == Encoder.EncodeString(first) + later;
  }

  /** An `info` dictionary holding a dictionary: when Go happens to visit the
      inner keys "b" before "a", the bytes `EncodeInfo` hashes differ from the
      canonical encoding at the first inner key, so the info-hash is not the
      one a tracker expects. */
  lemma NestedDictionaryBreaksCanonicalForm(order: IterationOrder)
    requires Enumerates(order)
    requires order([Field(KEY_X)], {KEY_A, KEY_B}) == [KEY_B, KEY_A]
    ensures var info := map[KEY_X := Dict(map[KEY_A := Int(1), KEY_B := Int(2)])];
            EncodeInfo(order, info) != Encoder.Encode(Dict(info))
  {
    var inner := map[KEY_A := Int(1), KEY_B := Int(2)];
    assert inner.Keys == {KEY_A, KEY_B};
    PairKeys(inner);
    LooseFirstKeyByte(order, [Field(KEY_X)], inner, KEY_B);
    CanonicalFirstKeyByte(inner, KEY_A);
    SingleKeyInfo(order, KEY_X, Dict(inner));
    SingleKeyCanonical(KEY_X, Dict(inner));
    var info := map[KEY_X := Dict(inner)];
    var loose := Encode(order, [Field(KEY_X)], Dict(inner));
    var canonical := Encoder.Encode(Dict(inner));
    assert EncodeInfo(order, info)[4 + 3] == loose[3];
    assert Encoder.Encode(Dict(info))[4 + 3] == canonical[3];
  }

  /** `EncodeInfo` of a one-key dictionary, "x" written first. */
  lemma SingleKeyInfo(order: IterationOrder, k: Key, v: BValue)
    requires Enumerates(order) && |k| == 1
    ensures var loose := Encode(order, [Field(k)], v);
            EncodeInfo(order, map[k := v]) == [DICT_TAG, ZERO + 1, COLON] + k + loose + [END]
  {
    var m := map[k := v];
    assert m.Keys == {k};
    var top := Encoder.InSortedOrder(m);
    assert top == [k] by {
      assert k in top && |top| == 1;
    }
    EncodeStringOfOneByte(k);
    assert [] + [Field(k)] == [Field(k)];
    assert EncodePairs(order, [], m, top, Dict(m)) == Encoder.EncodeString(k) + Encode(order, [Field(k)], v) + [];
  }

  /** The canonical encoding of a one-key dictionary. */
  lemma SingleKeyCanonical(k: Key, v: BValue)
    requires |k| == 1
    ensures Encoder.Encode(Dict(map[k := v])) == [DICT_TAG, ZERO + 1, COLON] + k + Encoder.Encode(v) + [END]
  {
    var m := map[k := v];
    assert m.Keys == {k};
    var top := Encoder.InSortedOrder(m);
    assert top == [k] by {
      assert k in top && |top| == 1;
    }
    EncodeStringOfOneByte(k);
    assert Encoder.EncodePairs(m, top, Dict(m)) == Encoder.EncodeString(k) + Encoder.Encode(v) + [];
  }
}

=== FILE: cmd_metafile.dfy ===
/** `ParseMetaInfoFile` and the info-hash of cmd/mybittorrent/main.go. This
    parser reads and parses the announce URL first, sorts the piece hashes like
    pkg/mybittorrent/metafile.go, and hashes the `info` entry as written by
    `EncodeInfo`, returning the digest as hex text. */
module CmdMetafile {
  import opened Bytes
  import opened Results
  import opened Bencode
  import opened Decoder
  import opened Lex
  import opened Metafile
  import Hex
  import Encoder
  import CmdEncoder
  import SortedMetafile

  /** Whether `url.Parse` accepts the text. URL syntax is not modelled. */
  type UrlCheck = seq<byte> -> bool

  function Interpret(v: BValue, urlParses: UrlCheck): (r: Result<MetaInfo, MetaError>)
    ensures !v.Dict? ==> r == Err(NotADict)
    ensures v.Dict? && !HasStr(v.entries, ANNOUNCE) ==> r == Err(MissingField(ANNOUNCE))
    ensures v.Dict? && HasStr(v.entries, ANNOUNCE) && !urlParses(v.entries[ANNOUNCE].bytes)
            ==> r == Err(BadAnnounce(v.entries[ANNOUNCE].bytes))
    ensures r.Ok? <==> HasFields(v) && urlParses(v.entries[ANNOUNCE].bytes) && |RawPieces(v)| % 20 == 0
    ensures r.Ok? ==>
      && r.value.raw == v.entries
      && r.value.announce == v.entries[ANNOUNCE].bytes
      && |r.value.info.pieces| == |RawPieces(v)| / 20
      && Sorted(r.value.info.pieces)
      && multiset(r.value.info.pieces) == multiset(SplitPieces(RawPieces(v)))
  {
    if !v.Dict? then Err(NotADict)
    else
      var meta := v.entries;
      if !HasStr(meta, ANNOUNCE) then Err(MissingField(ANNOUNCE))
      else
        var announce := meta[ANNOUNCE].bytes;
        if !urlParses(announce) then Err(BadAnnounce(announce))
        else if !HasDict(meta, INFO) then Err(MissingField(INFO))
        else
          var info := meta[INFO].entries;
          if !HasStr(info, PIECES) then Err(MissingField(PIECES))
          else
            var pieces := info[PIECES].bytes;
            if |pieces| % 20 != 0 then Err(PiecesNotMultipleOf20)
            else
              var hashes := Sort(SplitPieces(pieces));
              assert |hashes| == |multiset(hashes)| == |SplitPieces(pieces)|;
              if !HasStr(info, NAME) then Err(MissingField(NAME))
              else if !HasInt(info, LENGTH) then Err(MissingField(LENGTH))
              else if !HasInt(info, PIECE_LENGTH) then Err(MissingField(PIECE_LENGTH))
              else Ok(MetaInfo(meta, announce,
                               Info(info[NAME].bytes, info[LENGTH].n, info[PIECE_LENGTH].n, hashes)))
  }

  function ParseMetaInfoFile(content: seq<byte>, urlParses: UrlCheck): (r: Result<MetaInfo, MetaError>)
    ensures Decode(content).Err? ==> r == Err(DecodeFailed(Decode(content).error))
    ensures Decode(content).Ok? ==> r == Interpret(Decode(content).value, urlParses)
    ensures r.Ok? ==> WellFormed(Dict(r.value.raw)) && HasDict(r.value.raw, INFO)
  {
    match Decode(content)
    case Err(e) => Err(DecodeFailed(e))
    case Ok(v) => Interpret(v, urlParses)
  }

  /** Once the announce URL is present and parses, this parser and the one in
      pkg/mybittorrent/metafile.go give the same result, errors included; they
      differ only in checking the announce URL first. */
  lemma AgreesWithSortingParser(v: BValue, urlParses: UrlCheck)
    requires v.Dict? && HasStr(v.entries, ANNOUNCE) && urlParses(v.entries[ANNOUNCE].bytes)
    ensures Interpret(v, urlParses) == SortedMetafile.Interpret(v)
  {
  }

  /** `Dictionary.HashInfo`: the hex text of the SHA-1 of `EncodeInfo`. */
  function HashInfo(order: CmdEncoder.IterationOrder, m: MetaInfo, sha1: Sha1): (r: seq<byte>)
    requires CmdEncoder.Enumerates(order) && HasDict(m.raw, INFO)
    ensures |r| == 40 && Hex.IsHex(r)
    ensures Hex.Decode(r) == sha1(CmdEncoder.EncodeInfo(order, m.raw[INFO].entries))
  {
    var digest := sha1(CmdEncoder.EncodeInfo(order, m.raw[INFO].entries));
    Hex.DecodeEncode(digest);
    Hex.Encode(digest)
  }

  /** For an `info` dictionary with no dictionary inside it, the hex info-hash
      printed here is the hex of the 20-byte info-hash pkg/bittorrent computes. */
  lemma FlatInfoHashAgrees(order: CmdEncoder.IterationOrder, m: MetaInfo, sha1: Sha1)
    requires CmdEncoder.Enumerates(order)
    requires HasDict(m.raw, INFO) && WellFormed(m.raw[INFO])
    requires forall k :: k in m.raw[INFO].entries ==> !m.raw[INFO].entries[k].Dict? && !HasNestedDict(m.raw[INFO].entries[k])
    ensures HashInfo(order, m, sha1) == Hex.Encode(Metafile.HashInfo(m, sha1))
  {
    CmdEncoder.EncodeInfoFlatIsCanonical(order, m.raw[INFO].entries);
  }
}

=== FILE: decimal.dfy ===
/** ASCII decimal text: `fmt`'s `%d` rendering and `strconv.Atoi` parsing, base 10 only. */
module Decimal {
  import opened Bytes
  import opened Results

  const ZERO: byte := 48
  const NINE: byte := 57
  const MINUS: byte := 45
  const PLUS: byte := 43

  const MIN_INT64: int := -0x8000_0000_0000_0000
  const MAX_INT64: int := 0x7FFF_FFFF_FFFF_FFFF

  predicate IsDigit(b: byte) {
    ZERO <= b <= NINE
  }

  predicate AllDigits(t: seq<byte>) {
    forall i :: 0 <= i < |t| ==> IsDigit(t[i])
  }

  predicate InInt64(n: int) {
    MIN_INT64 <= n <= MAX_INT64
  }

  /** The number a run of ASCII digits denotes (leading zeros allowed). */
  function DigitsValue(t: seq<byte>): nat
    requires AllDigits(t)
  {
    if t == [] then 0 else DigitsValue(t[..|t| - 1]) * 10 + (t[|t| - 1] - ZERO)
  }

  /** `%d` of a non-negative number: shortest digit string, no leading zeros. */
  function Digits(n: nat): (r: seq<byte>)
    ensures 1 <= |r|
    ensures AllDigits(r)
    ensures |r| > 1 ==> r[0] != ZERO
  {
    if n < 10 then [ZERO + n] else Digits(n / 10) + [ZERO + n % 10]
  }

  /** `%d` of any integer. */
  function Signed(n: int): (r: seq<byte>)
    ensures 1 <= |r|
    ensures n < 0 <==> r[0] == MINUS
    ensures forall i :: 0 < i < |r| ==> IsDigit(r[i])
  {
    if n < 0 then [MINUS] + Digits(-n) else Digits(n)
  }

  /** `strconv.Atoi` in base 10 over arbitrary bytes: an optional sign, then at
      least one ASCII digit (leading zeros accepted), and the value must fit
      Go's 64-bit `int`; anything else, any other byte included, is an error,
      modelled as `None`. */
  function Atoi(t: seq<byte>): (r: Option<int>)
    ensures r.Some? ==> InInt64(r.value)
    ensures r.Some? ==> |t| > 0 && (IsDigit(t[0]) || t[0] == MINUS || t[0] == PLUS)
  {
    if t == [] then None
    else
      var body := if t[0] == MINUS || t[0] == PLUS then t[1..] else t;
      if body == [] || !AllDigits(body) then None
      else
        var magnitude: int := DigitsValue(body);
        var n: int := if t[0] == MINUS then -magnitude else magnitude;
        if InInt64(n) then Some(n) else None
  }

  /** Text `Atoi` accepts is a sign or a digit followed only by digits, with at
      least one digit: a single non-digit byte anywhere makes it an error. */
  lemma AtoiAcceptsOnlyDigits(t: seq<byte>)
    requires Atoi(t).Some?
    ensures |t| > 1 || IsDigit(t[0])
    ensures forall i :: 0 < i < |t| ==> IsDigit(t[i])
  {
  }

  lemma {:induction false} DigitsValueOfDigits(n: nat)
    ensures DigitsValue(Digits(n)) == n
    decreases n
  {
    if n >= 10 {
      var t := Digits(n);
      assert t[..|t| - 1] == Digits(n / 10);
      DigitsValueOfDigits(n / 10);
    }
  }

  /** Parsing what `%d` printed gives the number back, for every 64-bit int. */
  lemma AtoiSigned(n: int)
    requires InInt64(n)
    ensures Atoi(Signed(n)) == Some(n)
  {
    if n < 0 {
      assert Signed(n)[1..] == Digits(-n);
      DigitsValueOfDigits(-n);
    } else {
      DigitsValueOfDigits(n);
    }
  }

  lemma AtoiDigits(n: nat)
    requires n <= MAX_INT64
    ensures Atoi(Digits(n)) == Some(n)
  {
    AtoiSigned(n);
  }

  /** A lone digit parses as its own value, and the empty text is an error. */
  lemma AtoiExamples()
    ensures Atoi([]) == None
    ensures Atoi([MINUS]) == None
    ensures Atoi([MINUS, ZERO + 5]) == Some(-5)
    ensures Atoi([PLUS, ZERO + 7]) == Some(7)
    ensures Atoi([ZERO, ZERO + 7]) == Some(7)
  {
    assert [MINUS, ZERO + 5][1..] == [ZERO + 5];
    assert [PLUS, ZERO + 7][1..] == [ZERO + 7];
    assert DigitsValue([ZERO + 5]) == 5 by {
      assert [ZERO + 5][..0] == [];
    }
    assert DigitsValue([ZERO + 7]) == 7 by {
      assert [ZERO + 7][..0] == [];
    }
    assert DigitsValue([ZERO, ZERO + 7]) == 7 by {
      assert [ZERO, ZERO + 7][..1] == [ZERO];
      assert [ZERO][..0] == [];
    }
  }
}

=== FILE: decoder.dfy ===
/** The recursive-descent bencode decoder of pkg/mybittorrent/decode.go; the
    decoder in cmd/mybittorrent/main.go is the same code and is modelled by
    the same functions. Each production takes the unread input and returns
    its value together with the input left after it: the single cursor of the
    Go `bytes.Buffer`. */
module Decoder {
  import opened Bytes
  import opened Results
  import opened Decimal
  import opened Bencode

  datatype DecodeError =
    | EndOfInput                        // io.EOF from ReadRune or ReadString
    | UnrecognizedPrefix(prefix: byte)  // "prefix not recognized"
    | BadNumber(text: seq<byte>)        // strconv.Atoi refused the text
    | NegativeLength(n: int)            // bytes.Buffer.Next panics on a negative count

  /** A production's value and the input after it. */
  type Decoded<T> = Result<(T, seq<byte>), DecodeError>

  /** `bytes.Buffer.ReadString(delim)` with the delimiter dropped: the text
      before the first `delim`, and the input after that delimiter. */
  function ReadUntil(s: seq<byte>, delim: byte): (r: Result<(seq<byte>, seq<byte>), DecodeError>)
    ensures delim !in s <==> r == Err(EndOfInput)
    ensures r.Ok? ==> s == r.value.0 + [delim] + r.value.1 && delim !in r.value.0
  {
    if s == [] then Err(EndOfInput)
    else if s[0] == delim then Ok(([], s[1..]))
    else
      var (text, rest) :- ReadUntil(s[1..], delim);
      assert s == [s[0]] + s[1..];
      Ok(([s[0]] + text, rest))
  }

  /** `decodeString`: decimal length text up to the first ':', then that many
      bytes, or all remaining bytes when fewer are left (`bytes.Buffer.Next`). */
  function DecodeString(s: seq<byte>): (r: Decoded<seq<byte>>)
    ensures COLON !in s ==> r == Err(EndOfInput)
    ensures r.Ok? ==>
      var (body, rest) := r.value;
      var k := |s| - |body| - |rest|;
      && 1 <= k && s[k - 1] == COLON && COLON !in s[..k - 1]
      && Atoi(s[..k - 1]).Some? && 0 <= Atoi(s[..k - 1]).value <= MAX_INT64
      && s[k..] == body + rest
      && (|body| == Atoi(s[..k - 1]).value || (|body| < Atoi(s[..k - 1]).value && rest == []))
  {
    var (text, after) :- ReadUntil(s, COLON);
    match Atoi(text)
    case None => Err(BadNumber(text))
    case Some(n) =>
      if n < 0 then Err(NegativeLength(n))
      else
        var take := if n <= |after| then n else |after|;
        assert s[..|text|] == text;
        assert after == after[..take] + after[take..];
        Ok((after[..take], after[take..]))
  }

  /** `decodeInteger`, entered after the 'i': the text up to the first 'e',
      read by `strconv.Atoi`. */
  function DecodeInteger(s: seq<byte>): (r: Decoded<int>)
    ensures END !in s ==> r == Err(EndOfInput)
    ensures r.Ok? ==>
      var k := |s| - |r.value.1|;
      && 1 <= k && s[k - 1] == END && END !in s[..k - 1]
      && Atoi(s[..k - 1]) == Some(r.value.0)
      && s[k..] == r.value.1
  {
    var (text, rest) :- ReadUntil(s, END);
    assert s[..|text|] == text;
    match Atoi(text)
    case None => Err(BadNumber(text))
    case Some(n) => Ok((n, rest))
  }

  /** `decodeBencode`: the first byte chooses the production. */
  function DecodeValue(s: seq<byte>): (r: Decoded<BValue>)
    ensures s == [] ==> r == Err(EndOfInput)
    ensures s != [] && !IsDigit(s[0]) && s[0] != INT_TAG && s[0] != LIST_TAG && s[0] != DICT_TAG
            ==> r == Err(UnrecognizedPrefix(s[0]))
    ensures r.Ok? ==>
      && |r.value.1| < |s|
      && (r.value.0.Str? <==> IsDigit(s[0]))
      && (r.value.0.Int? <==> s[0] == INT_TAG)
      && (r.value.0.List? <==> s[0] == LIST_TAG)
      && (r.value.0.Dict? <==> s[0] == DICT_TAG)
      && WellFormed(r.value.0)
    decreases |s|, 0
  {
    if s == [] then Err(EndOfInput)
    else if IsDigit(s[0]) then
      var (b, rest) :- DecodeString(s);
      Ok((Str(b), rest))
    else if s[0] == INT_TAG then
      var (n, rest) :- DecodeInteger(s[1..]);
      Ok((Int(n), rest))
    else if s[0] == LIST_TAG then
      var (items, rest) :- DecodeList(s[1..]);
      Ok((List(items), rest))
    else if s[0] == DICT_TAG then
      var (m, rest) :- DecodeDict(s[1..]);
      Ok((Dict(m), rest))
    else
      Err(UnrecognizedPrefix(s[0]))
  }

  /** `decodeList`, entered after the 'l': values in input order until an 'e'
      where a value would start. */
  function DecodeList(s: seq<byte>): (r: Decoded<seq<BValue>>)
    ensures s == [] ==> r == Err(EndOfInput)
    ensures r.Ok? ==>
      && |r.value.1| < |s|
      && (forall i :: 0 <= i < |r.value.0| ==> WellFormed(r.value.0[i]))
      && (r.value.0 == [] <==> s[0] == END)
    decreases |s|, 1
  {
    if s == [] then Err(EndOfInput)
    else if s[0] == END then Ok(([], s[1..]))
    else
      var (item, afterItem) :- DecodeValue(s);
      var (items, rest) :- DecodeList(afterItem);
      Ok(([item] + items, rest))
  }

  /** `decodeDict`, entered after the 'd': (string key, value) pairs until an
      'e' where a key would start. A later pair overwrites an earlier pair with
      the same key, as the Go assignment `dict[key] = value` does. */
  function DecodeDict(s: seq<byte>): (r: Decoded<map<Key, BValue>>)
    ensures s == [] ==> r == Err(EndOfInput)
    ensures r.Ok? ==>
      && |r.value.1| < |s|
      && (forall k :: k in r.value.0 ==> |k| <= MAX_INT64 && WellFormed(r.value.0[k]))
      && (r.value.0 == map[] ==> s[0] == END)
    decreases |s|, 1
  {
    if s == [] then Err(EndOfInput)
    else if s[0] == END then Ok((map[], s[1..]))
    else
      var (key, afterKey) :- DecodeString(s);
      var (value, afterValue) :- DecodeValue(afterKey);
      var (later, rest) :- DecodeDict(afterValue);
      Ok((map[key := value] + later, rest))
  }

  /** `Decoder.Decode`: one value from the front of the input; whatever
      follows it is left unread. */
  function Decode(s: seq<byte>): (r: Result<BValue, DecodeError>)
    ensures r.Ok? ==> WellFormed(r.value)
    ensures s == [] ==> r == Err(EndOfInput)
  {
    var (v, _) :- DecodeValue(s);
    Ok(v)
  }

  lemma DecodeListOk(body: seq<byte>, items: seq<BValue>, rest: seq<byte>)
    requires DecodeList(body) == Ok((items, rest))
    ensures DecodeValue([LIST_TAG] + body) == Ok((List(items), rest))
    ensures Decode([LIST_TAG] + body) == Ok(List(items))
  {
    assert ([LIST_TAG] + body)[1..] == body;
  }

  lemma DecodeListErr(body: seq<byte>)
    requires DecodeList(body).Err?
    ensures Decode([LIST_TAG] + body) == Err(DecodeList(body).error)
  {
    assert ([LIST_TAG] + body)[1..] == body;
  }

  lemma DecodeDictOk(body: seq<byte>, m: map<Key, BValue>, rest: seq<byte>)
    requires DecodeDict(body) == Ok((m, rest))
    ensures DecodeValue([DICT_TAG] + body) == Ok((Dict(m), rest))
    ensures Decode([DICT_TAG] + body) == Ok(Dict(m))
  {
    assert ([DICT_TAG] + body)[1..] == body;
  }

  lemma DecodeDictErr(body: seq<byte>)
    requires DecodeDict(body).Err?
    ensures Decode([DICT_TAG] + body) == Err(DecodeDict(body).error)
  {
    assert ([DICT_TAG] + body)[1..] == body;
  }

  lemma DecodeOfValue(s: seq<byte>)
    ensures DecodeValue(s).Ok? ==> Decode(s) == Ok(DecodeValue(s).value.0)
    ensures DecodeValue(s).Err? ==> Decode(s) == Err(DecodeValue(s).error)
  {
  }
}

=== FILE: decoder_properties.dfy ===
/** Properties of the decoder of pkg/mybittorrent/decode.go beyond the round
    trip: how it treats truncated strings, repeated keys, unterminated
    containers and failures inside containers. Inputs are built from the
    encoder, so each statement covers every well-formed value. */
module DecoderProperties {
  import opened Bytes
  import opened Results
  import opened Decimal
  import opened Bencode
  import opened Decoder
  import opened Encoder

  /** A string whose declared length runs past the end of the input is not an
      error: it yields the bytes that are there and leaves nothing unread. */
  lemma TruncatedStringAccepted(n: nat, body: seq<byte>)
    requires |body| < n <= MAX_INT64
    ensures Decode(Digits(n) + [COLON] + body) == Ok(Str(body))
    ensures DecodeValue(Digits(n) + [COLON] + body) == Ok((Str(body), []))
  {
    DigitsAvoid(n, COLON);
    ReadUntilSplit(Digits(n), COLON, body);
    AtoiDigits(n);
    assert body[..|body|] == body && body[|body|..] == [];
  }

  /** A dictionary that names the same key twice keeps the value of the later
      pair. */
  lemma LastKeyWins(k: Key, first: BValue, second: BValue)
    requires |k| <= MAX_INT64 && WellFormed(first) && WellFormed(second)
    ensures Decode([DICT_TAG] + EncodeString(k) + Encode(first) + EncodeString(k) + Encode(second) + [END])
            == Ok(Dict(map[k := second]))
  {
    var tail := EncodeString(k) + Encode(second) + [END];
    assert DecodeDict([END]) == Ok((map[], []));
    LastPair(k, second, [END]);
    OverwrittenPair(k, first, second, tail);
    Regroup(DICT_TAG, EncodeString(k), Encode(first), EncodeString(k), Encode(second), END);
  }

  lemma Regroup(open: byte, a: seq<byte>, b: seq<byte>, c: seq<byte>, d: seq<byte>, close: byte)
    ensures [open] + a + b + c + d + [close] == [open] + (a + b + (c + d + [close]))
  {
  }

  lemma OverwrittenPair(k: Key, first: BValue, second: BValue, tail: seq<byte>)
    requires |k| <= MAX_INT64 && WellFormed(first)
    requires DecodeDict(tail) == Ok((map[k := second], []))
    ensures Decode([DICT_TAG] + (EncodeString(k) + Encode(first) + tail)) == Ok(Dict(map[k := second]))
  {
    var later := map[k := second];
    DecodePairThen(k, first, tail, later, []);
    MapOverwrite(k, first, second);
    var pairs := EncodeString(k) + Encode(first) + tail;
    DecodeDictOk(pairs, later, []);
  }

  lemma MapOverwrite(k: Key, first: BValue, second: BValue)
    ensures map[k := first] + map[k := second] == map[k := second]
  {
  }

  lemma LastPair(k: Key, v: BValue, tail: seq<byte>)
    requires |k| <= MAX_INT64 && WellFormed(v)
    requires DecodeDict(tail) == Ok((map[], []))
    ensures DecodeDict(EncodeString(k) + Encode(v) + tail) == Ok((map[k := v], []))
  {
    DecodePairThen(k, v, tail, map[], []);
    assert map[k := v] + map[] == map[k := v];
  }

  /** Input that ends before a list's closing 'e' is an error, however many
      complete items precede the end. */
  lemma {:induction false} UnterminatedListFails(items: seq<BValue>)
    requires forall i :: 0 <= i < |items| ==> WellFormed(items[i])
    ensures DecodeList(EncodeItems(items)) == Err(EndOfInput)
    ensures Decode([LIST_TAG] + EncodeItems(items)) == Err(EndOfInput)
    decreases items
  {
    if items != [] {
      var tail := EncodeItems(items[1..]);
      DecodeEncode(items[0], tail);
      UnterminatedListFails(items[1..]);
    }
    DecodeListErr(EncodeItems(items));
  }

  lemma ListStepErr(s: seq<byte>, item: BValue, afterItem: seq<byte>)
    requires s != [] && s[0] != END
    requires DecodeValue(s) == Ok((item, afterItem))
    requires DecodeList(afterItem).Err?
    ensures DecodeList(s) == Err(DecodeList(afterItem).error)
  {
  }

  lemma ListStepFails(s: seq<byte>)
    requires s != [] && s[0] != END && DecodeValue(s).Err?
    ensures DecodeList(s) == Err(DecodeValue(s).error)
  {
  }

  lemma ListStepErrAfter(item: BValue, tail: seq<byte>)
    requires WellFormed(item) && DecodeList(tail).Err?
    ensures DecodeList(Encode(item) + tail) == Err(DecodeList(tail).error)
  {
    DecodeEncode(item, tail);
    ListStepErr(Encode(item) + tail, item, tail);
  }

  /** A failure inside a list aborts the whole decode with that failure: the
      items decoded before it are discarded, not returned. */
  lemma {:induction false} ListItemFailureAborts(before: seq<BValue>, bad: seq<byte>)
    requires forall i :: 0 <= i < |before| ==> WellFormed(before[i])
    requires bad != [] && bad[0] != END && DecodeValue(bad).Err?
    ensures DecodeList(EncodeItems(before) + bad) == Err(DecodeValue(bad).error)
    decreases before
  {
    if before != [] {
      var tail := EncodeItems(before[1..]) + bad;
      ListItemFailureAborts(before[1..], bad);
      ListStepErrAfter(before[0], tail);
      assert EncodeItems(before) + bad == Encode(before[0]) + tail;
    } else {
      assert EncodeItems(before) + bad == bad;
      ListStepFails(bad);
    }
  }

  /** Failures inside containers abort the whole decode and return no value:
      an item of a list, or the value of a dictionary entry. */
  lemma NestedFailureAborts(before: seq<BValue>, k: Key, bad: seq<byte>)
    requires forall i :: 0 <= i < |before| ==> WellFormed(before[i])
    requires |k| <= MAX_INT64
    requires bad != [] && bad[0] != END && DecodeValue(bad).Err?
    ensures Decode([LIST_TAG] + EncodeItems(before) + bad) == Err(DecodeValue(bad).error)
    ensures Decode([DICT_TAG] + EncodeString(k) + bad) == Err(DecodeValue(bad).error)
  {
    ListItemFailureAborts(before, bad);
    DecodeListErr(EncodeItems(before) + bad);
    Assoc([LIST_TAG], EncodeItems(before), bad);
    DictValueFailure(k, bad);
    DecodeDictErr(EncodeString(k) + bad);
    Assoc([DICT_TAG], EncodeString(k), bad);
  }

  lemma DictValueFailure(k: Key, bad: seq<byte>)
    requires |k| <= MAX_INT64
    requires bad != [] && bad[0] != END && DecodeValue(bad).Err?
    ensures DecodeDict(EncodeString(k) + bad) == Err(DecodeValue(bad).error)
  {
    DecodeEncodedString(k, bad);
  }

  /** A dictionary key whose length text is negative makes Go's
      `bytes.Buffer.Next` panic; the model reports it as `NegativeLength`. */
  lemma NegativeKeyLength(n: int, after: seq<byte>)
    requires MIN_INT64 <= n < 0
    ensures Decode([DICT_TAG] + Signed(n) + [COLON] + after) == Err(NegativeLength(n))
  {
    var text := Signed(n);
    assert text[0] == MINUS;
    assert END !in text && COLON !in text by {
      forall i | 0 <= i < |text|
        ensures text[i] != END && text[i] != COLON
      {
      }
    }
    var body := text + [COLON] + after;
    ReadUntilSplit(text, COLON, after);
    AtoiSigned(n);
    assert DecodeDict(body) == Err(NegativeLength(n));
    DecodeDictErr(body);
    assert [DICT_TAG] + Signed(n) + [COLON] + after == [DICT_TAG] + body;
  }
}

=== FILE: download.dfy ===
/** `DownloadPiece` and `Download` of pkg/bittorrent/protocol.go. The peer is
    the byte stream it sends; downloading a piece is a fold over the block plan
    that sends one Request, reads one Piece reply, checks the echoed offset and
    index, and copies the block into the piece buffer. At the end the SHA-1 of
    the buffer is compared with the hash the metainfo lists for the piece. */
module Download {
  import opened Bytes
  import opened Results
  import opened Wire
  import opened PiecePlan
  import Hex
  import Metafile

  datatype DownloadError =
    | ZeroPieceLength                                  // `Length / PieceLength` divides by zero
    | NegativePieceSize(size: int)                     // `make([]byte, n)` with n < 0 panics
    | Reply(cause: PieceError)                         // reading the Piece reply failed
    | OffsetMismatch(requested: uint32, got: uint32)   // "invalid bytes offset"
    | IndexMismatch(requested: uint32, got: uint32)    // "invalid piece index"
    | BeginPastEnd(begin: uint32, pieceSize: nat)      // `piece[begin:]` past the end panics
    | NoSuchPiece(index: int)                          // `Pieces[index]` out of range panics
    | HashMismatch(expected: seq<byte>, actual: seq<byte>) // "invalid data"

  /** The Requests written, in order, and either the piece buffer with the
      inbound bytes left over, or the error. */
  datatype Fetched = Fetched(sent: seq<Request>, result: Result<(seq<byte>, seq<byte>), DownloadError>)

  function Min(a: nat, b: nat): nat {
    if a < b then a else b
  }

  /** `copy(buf[at:], data)`: as many bytes of `data` as fit, written at `at`.
      The rest of `data` is dropped and every other byte of `buf` is kept. */
  function Copy(buf: seq<byte>, at: nat, data: seq<byte>): (r: seq<byte>)
    requires at <= |buf|
    ensures |r| == |buf|
    ensures var n := Min(|data|, |buf| - at);
            && r[at..at + n] == data[..n]
            && r[..at] == buf[..at] && r[at + n..] == buf[at + n..]
  {
    var n := Min(|data|, |buf| - at);
    buf[..at] + data[..n] + buf[at + n..]
  }

  /** The checks on one Piece reply to request `q`: it must have been read,
      then echo the requested offset, then the requested index. */
  function Check(q: Request, reply: Result<(PieceMessage, seq<byte>), PieceError>): (r: Result<(PieceMessage, seq<byte>), DownloadError>)
    ensures r.Ok? <==> reply.Ok? && reply.value.0.offset == q.offset && reply.value.0.index == q.index
    ensures r.Ok? ==> r.value == reply.value
  {
    match reply
    case Err(e) => Err(Reply(e))
    case Ok((m, rest)) =>
      if m.offset != q.offset then Err(OffsetMismatch(q.offset, m.offset))
      else if m.index != q.index then Err(IndexMismatch(q.index, m.index))
      else Ok((m, rest))
  }

  /** The block loop of `DownloadPiece`: send the next Request, read one Piece
      reply, refuse it unless it echoes the requested offset and then the
      requested index, and copy its block at that offset (which panics for an
      offset past the end of the buffer). The first error ends the loop, so no
      Request follows the one whose reply failed. */
  function Fetch(plan: seq<Request>, buf: seq<byte>, inbound: seq<byte>): (r: Fetched)
    ensures |r.sent| <= |plan| && r.sent == plan[..|r.sent|]
    ensures plan != [] ==> r.sent != []
    ensures r.result.Ok? ==> r.sent == plan && |r.result.value.0| == |buf|
    ensures r.result.Err? ==>
      || r.result.error.Reply? || r.result.error.OffsetMismatch? || r.result.error.IndexMismatch?
      || r.result.error.BeginPastEnd?
    decreases |plan|
  {
    if plan == [] then Fetched([], Ok((buf, inbound)))
    else
      var q := plan[0];
      match Check(q, ReceivePiece(inbound))
      case Err(e) => Fetched([q], Err(e))
      case Ok((m, rest)) =>
        if q.offset > |buf| then Fetched([q], Err(BeginPastEnd(q.offset, |buf|)))
        else
          var next := Fetch(plan[1..], Copy(buf, q.offset, m.block), rest);
          PrefixCons(plan, next.sent);
          Fetched([q] + next.sent, next.result)
  }

  /** One accepted reply: its block is copied and the loop goes on. */
  lemma FetchStep(plan: seq<Request>, buf: seq<byte>, inbound: seq<byte>, m: PieceMessage, rest: seq<byte>)
    requires plan != [] && plan[0].offset <= |buf|
    requires Check(plan[0], ReceivePiece(inbound)) == Ok((m, rest))
    ensures var next := Fetch(plan[1..], Copy(buf, plan[0].offset, m.block), rest);
            Fetch(plan, buf, inbound) == Fetched([plan[0]] + next.sent, next.result)
  {
  }

  lemma PrefixCons<T>(s: seq<T>, t: seq<T>)
    requires s != [] && |t| < |s| && t == s[1..][..|t|]
    ensures [s[0]] + t == s[..|t| + 1]
  {
  }

  /** A reply whose echoed offset or index differs from the request ends the
      download at once: only that one Request has been sent. */
  lemma BadEchoStops(plan: seq<Request>, buf: seq<byte>, m: PieceMessage, rest: seq<byte>)
    requires plan != []
    requires |m.block| + 9 < UINT32_LIMIT
    requires m.offset != plan[0].offset || m.index != plan[0].index
    ensures var r := Fetch(plan, buf, PieceReply(m) + rest);
            && r.sent == plan[..1]
            && r.result == Err(if m.offset != plan[0].offset then OffsetMismatch(plan[0].offset, m.offset)
                               else IndexMismatch(plan[0].index, m.index))
  {
    ReceivePieceReply(m, rest);
  }

  predicate IsPrefix<T(==)>(s: seq<T>, t: seq<T>) {
    |s| <= |t| && s == t[..|s|]
  }

  lemma PrefixOfAppend<T>(s: seq<T>, a: seq<T>, b: seq<T>)
    requires IsPrefix(s, a)
    ensures IsPrefix(s, a + b)
  {
    assert (a + b)[..|s|] == a[..|s|];
  }

  lemma AppendPrefix<T>(a: seq<T>, s: seq<T>, b: seq<T>)
    requires IsPrefix(s, b)
    ensures IsPrefix(a + s, a + b)
  {
    assert (a + b)[..|a + s|] == a + b[..|s|];
  }

  /** The Requests `DownloadPiece` writes for piece `index` when every reply
      is accepted: one per block of the piece's effective size, and none when
      that size cannot be computed. */
  function RequestsFor(info: Metafile.Info, index: int): seq<Request> {
    if info.pieceLength == 0 then []
    else
      var size := PieceSize(info.length, info.pieceLength, index);
      if size < 0 then [] else Plan(index, size)
  }

  /** The Requests for pieces [from, n), piece after piece. */
  function RequestsFrom(info: Metafile.Info, from: nat): seq<Request>
    requires from <= |info.pieces|
    decreases |info.pieces| - from
  {
    if from == |info.pieces| then [] else RequestsFor(info, from) + RequestsFrom(info, from + 1)
  }

  /** `DownloadPiece`: the effective piece size, the block loop over a zeroed
      buffer of that size, then the hash check against the listed hash. The
      index comes from the command line (pkg/commands/download_piece.go), so
      it may be negative or past the hash list; the lookup then fails only
      after the Requests. */
  function DownloadPiece(info: Metafile.Info, index: int, sha1: Metafile.Sha1, inbound: seq<byte>): (r: Fetched)
    ensures info.pieceLength == 0 ==> r == Fetched([], Err(ZeroPieceLength))
    ensures info.pieceLength != 0 && PieceSize(info.length, info.pieceLength, index) < 0 ==>
              r == Fetched([], Err(NegativePieceSize(PieceSize(info.length, info.pieceLength, index))))
    ensures info.pieceLength != 0 && PieceSize(info.length, info.pieceLength, index) >= 0 ==>
              var plan := Plan(index, PieceSize(info.length, info.pieceLength, index));
              var fetched := Fetch(plan, Zeros(PieceSize(info.length, info.pieceLength, index)), inbound);
              && r.sent == fetched.sent
              && (fetched.result.Err? ==> r.result == fetched.result)
              && (fetched.result.Ok? && !(0 <= index < |info.pieces|) ==> r.result == Err(NoSuchPiece(index)))
              && (fetched.result.Ok? && 0 <= index < |info.pieces| &&
                  info.pieces[index] != Hex.Encode(sha1(fetched.result.value.0)) ==>
                    r.result == Err(HashMismatch(info.pieces[index], Hex.Encode(sha1(fetched.result.value.0)))))
    ensures r.result.Ok? ==>
      && info.pieceLength != 0
      && 0 <= index < |info.pieces|
      && |r.result.value.0| == PieceSize(info.length, info.pieceLength, index)
      && r.sent == Plan(index, |r.result.value.0|)
      && info.pieces[index] == Hex.Encode(sha1(r.result.value.0))
    ensures IsPrefix(r.sent, RequestsFor(info, index))
    ensures r.result.Ok? ==> r.sent == RequestsFor(info, index)
  {
    if info.pieceLength == 0 then Fetched([], Err(ZeroPieceLength))
    else
      var size := PieceSize(info.length, info.pieceLength, index);
      if size < 0 then Fetched([], Err(NegativePieceSize(size)))
      else
        var fetched := Fetch(Plan(index, size), Zeros(size), inbound);
        match fetched.result
        case Err(e) => fetched
        case Ok((buf, rest)) =>
          if !(0 <= index < |info.pieces|) then Fetched(fetched.sent, Err(NoSuchPiece(index)))
          else
            var actual := Hex.Encode(sha1(buf));
            if info.pieces[index] != actual then Fetched(fetched.sent, Err(HashMismatch(info.pieces[index], actual)))
            else fetched
  }

  /** A negative index, which the command line can pass: the piece gets the
      full piece length, the Requests carry the index wrapped to 32 bits, and
      the download never succeeds. When every reply is accepted it ends at the
      hash lookup. */
  lemma NegativeIndexFails(info: Metafile.Info, index: int, sha1: Metafile.Sha1, inbound: seq<byte>)
    requires 0 < info.pieceLength && 0 <= info.length && index < 0
    ensures PieceSize(info.length, info.pieceLength, index) == info.pieceLength
    ensures var r := DownloadPiece(info, index, sha1, inbound);
            && r.sent != [] && IsPrefix(r.sent, Plan(index, info.pieceLength))
            && (forall i :: 0 <= i < |r.sent| ==> r.sent[i].index == ToUint32(index))
            && r.result.Err?
            && (Fetch(Plan(index, info.pieceLength), Zeros(info.pieceLength), inbound).result.Ok? ==>
                  r.result == Err(NoSuchPiece(index)))
  {
    PieceSizeBounds(info.length, info.pieceLength, index);
  }

  /** The piece buffers read so far, and the inbound bytes left over. */
  datatype Downloaded = Downloaded(sent: seq<Request>, result: Result<(seq<seq<byte>>, seq<byte>), DownloadError>)

  /** `pieces` are the buffers of pieces [from, n), each of its effective size
      and each hashing to the hash listed for it. */
  predicate Verified(info: Metafile.Info, sha1: Metafile.Sha1, from: nat, pieces: seq<seq<byte>>)
    decreases |pieces|
  {
    && from + |pieces| == |info.pieces|
    && (pieces != [] ==>
          && info.pieceLength != 0
          && |pieces[0]| == PieceSize(info.length, info.pieceLength, from)
          && info.pieces[from] == Hex.Encode(sha1(pieces[0]))
          && Verified(info, sha1, from + 1, pieces[1..]))
  }

  /** What `Verified` says of each piece. */
  lemma {:induction false} VerifiedPieces(info: Metafile.Info, sha1: Metafile.Sha1, from: nat, pieces: seq<seq<byte>>)
    requires Verified(info, sha1, from, pieces)
    ensures |pieces| == |info.pieces| - from
    ensures forall i :: 0 <= i < |pieces| ==>
              && info.pieceLength != 0
              && |pieces[i]| == PieceSize(info.length, info.pieceLength, from + i)
              && info.pieces[from + i] == Hex.Encode(sha1(pieces[i]))
    decreases |pieces|
  {
    if pieces != [] {
      VerifiedPieces(info, sha1, from + 1, pieces[1..]);
      forall i | 1 <= i < |pieces|
        ensures |pieces[i]| == PieceSize(info.length, info.pieceLength, from + i)
        ensures info.pieces[from + i] == Hex.Encode(sha1(pieces[i]))
      {
        assert pieces[i] == pieces[1..][i - 1];
      }
    }
  }

  /** The loop of `Download` from piece `from` on: each piece in turn, reading
      where the previous one stopped, stopping at the first error. The
      Requests written are those of the pieces in order, cut off where the
      first failure happened: none is written for a piece after it. */
  function DownloadPieces(info: Metafile.Info, sha1: Metafile.Sha1, from: nat, inbound: seq<byte>): (r: Downloaded)
    requires from <= |info.pieces|
    ensures r.result.Ok? ==> Verified(info, sha1, from, r.result.value.0)
    ensures IsPrefix(r.sent, RequestsFrom(info, from))
    ensures r.result.Ok? ==> r.sent == RequestsFrom(info, from)
    decreases |info.pieces| - from
  {
    if from == |info.pieces| then Downloaded([], Ok(([], inbound)))
    else
      var piece := DownloadPiece(info, from, sha1, inbound);
      match piece.result
      case Err(e) =>
        PrefixOfAppend(piece.sent, RequestsFor(info, from), RequestsFrom(info, from + 1));
        Downloaded(piece.sent, Err(e))
      case Ok((buf, rest)) =>
        var later := DownloadPieces(info, sha1, from + 1, rest);
        AppendPrefix(piece.sent, later.sent, RequestsFrom(info, from + 1));
        match later.result
        case Err(e) => Downloaded(piece.sent + later.sent, Err(e))
        case Ok((bufs, left)) =>
          assert ([buf] + bufs)[1..] == bufs;
          Downloaded(piece.sent + later.sent, Ok(([buf] + bufs, left)))
  }

  function Concat(parts: seq<seq<byte>>): seq<byte> {
    if parts == [] then [] else parts[0] + Concat(parts[1..])
  }

  /** `Download`: every piece in order, concatenated; nothing is returned if
      any piece fails. On success the file has the total size of the pieces,
      and the bytes where piece i lies hash to the hash listed for it. */
  function DownloadFile(info: Metafile.Info, sha1: Metafile.Sha1, inbound: seq<byte>): (r: Fetched)
    ensures DownloadPieces(info, sha1, 0, inbound).result.Err? ==>
              r.result == Err(DownloadPieces(info, sha1, 0, inbound).result.error)
    ensures IsPrefix(r.sent, RequestsFrom(info, 0))
    ensures r.result.Ok? ==> r.sent == RequestsFrom(info, 0)
    ensures r.result.Ok? && info.pieces == [] ==> r.result.value.0 == []
    ensures r.result.Ok? && info.pieces != [] ==>
      var file := r.result.value.0;
      && info.pieceLength != 0
      && |file| == TotalSize(info.length, info.pieceLength, |info.pieces|)
      && forall i :: 0 <= i < |info.pieces| ==> HoldsPiece(info, sha1, file, i)
  {
    var all := DownloadPieces(info, sha1, 0, inbound);
    match all.result
    case Err(e) => Fetched(all.sent, Err(e))
    case Ok((bufs, rest)) =>
      FileLayout(info, sha1, bufs);
      Fetched(all.sent, Ok((Concat(bufs), rest)))
  }

  /** Piece i of `file` lies between the total sizes of the pieces before it
      and up to it, and hashes to the hash listed for it. */
  predicate HoldsPiece(info: Metafile.Info, sha1: Metafile.Sha1, file: seq<byte>, i: nat) {
    && info.pieceLength != 0 && i < |info.pieces|
    && var lo, hi := TotalSize(info.length, info.pieceLength, i), TotalSize(info.length, info.pieceLength, i + 1);
       && 0 <= lo <= hi <= |file|
       && info.pieces[i] == Hex.Encode(sha1(file[lo..hi]))
  }

  /** Where each verified piece lies in their concatenation. */
  lemma FileLayout(info: Metafile.Info, sha1: Metafile.Sha1, pieces: seq<seq<byte>>)
    requires Verified(info, sha1, 0, pieces)
    ensures info.pieces == [] ==> Concat(pieces) == []
    ensures info.pieces != [] ==>
      var file := Concat(pieces);
      && info.pieceLength != 0
      && |file| == TotalSize(info.length, info.pieceLength, |info.pieces|)
      && forall i :: 0 <= i < |info.pieces| ==> HoldsPiece(info, sha1, file, i)
  {
    VerifiedPieces(info, sha1, 0, pieces);
    if info.pieces != [] {
      var file := Concat(pieces);
      SizesAreTotals(info, pieces, |pieces|);
      ConcatPrefixLength(pieces, |pieces|);
      assert pieces[..|pieces|] == pieces;
      forall i | 0 <= i < |info.pieces| ensures HoldsPiece(info, sha1, file, i) {
        PieceHeld(info, sha1, pieces, i);
      }
    }
  }

  lemma PieceHeld(info: Metafile.Info, sha1: Metafile.Sha1, pieces: seq<seq<byte>>, i: nat)
    requires info.pieceLength != 0 && |pieces| == |info.pieces| && i < |pieces|
    requires forall j :: 0 <= j < |pieces| ==>
               && |pieces[j]| == PieceSize(info.length, info.pieceLength, j)
               && info.pieces[j] == Hex.Encode(sha1(pieces[j]))
    ensures HoldsPiece(info, sha1, Concat(pieces), i)
  {
    PieceInConcat(pieces, i);
    SizesAreTotals(info, pieces, i);
    SizesAreTotals(info, pieces, i + 1);
  }

  /** The total length of `pieces[..k]`. */
  function Sum(pieces: seq<seq<byte>>, k: nat): nat
    requires k <= |pieces|
  {
    if k == 0 then 0 else Sum(pieces, k - 1) + |pieces[k - 1]|
  }

  lemma {:induction false} ConcatAppend(a: seq<seq<byte>>, b: seq<seq<byte>>)
    ensures Concat(a + b) == Concat(a) + Concat(b)
    decreases |a|
  {
    if a == [] {
      assert a + b == b;
    } else {
      assert (a + b)[1..] == a[1..] + b;
      ConcatAppend(a[1..], b);
    }
  }

  lemma {:induction false} ConcatPrefixLength(pieces: seq<seq<byte>>, k: nat)
    requires k <= |pieces|
    ensures |Concat(pieces[..k])| == Sum(pieces, k)
    decreases k
  {
    if k > 0 {
      ConcatPrefixLength(pieces, k - 1);
      assert pieces[..k] == pieces[..k - 1] + [pieces[k - 1]];
      ConcatAppend(pieces[..k - 1], [pieces[k - 1]]);
      assert Concat([pieces[k - 1]]) == pieces[k - 1] + Concat([]);
    }
  }

  /** Piece k of a concatenation lies between the lengths of the pieces
      before it and up to it. */
  lemma PieceInConcat(pieces: seq<seq<byte>>, k: nat)
    requires k < |pieces|
    ensures Sum(pieces, k) <= Sum(pieces, k + 1) <= |Concat(pieces)|
    ensures Concat(pieces)[Sum(pieces, k)..Sum(pieces, k + 1)] == pieces[k]
  {
    ConcatPrefixLength(pieces, k);
    var front, back := pieces[..k], pieces[k..];
    assert pieces == front + back;
    ConcatAppend(front, back);
    assert back[1..] == pieces[k + 1..];
    assert Concat(back) == pieces[k] + Concat(pieces[k + 1..]);
    assert Concat(pieces) == Concat(front) + (pieces[k] + Concat(pieces[k + 1..]));
  }

  /** The lengths of verified pieces add up as the piece sizes do. */
  lemma {:induction false} SizesAreTotals(info: Metafile.Info, pieces: seq<seq<byte>>, k: nat)
    requires info.pieceLength != 0 && k <= |pieces|
    requires forall i :: 0 <= i < |pieces| ==> |pieces[i]| == PieceSize(info.length, info.pieceLength, i)
    ensures Sum(pieces, k) == TotalSize(info.length, info.pieceLength, k)
    decreases k
  {
    if k > 0 {
      SizesAreTotals(info, pieces, k - 1);
    }
  }

  // An honest peer.

  /** Requested ranges that lie inside `content`. */
  predicate Inside(plan: seq<Request>, size: nat) {
    forall i :: 0 <= i < |plan| ==> plan[i].offset + plan[i].length <= size
  }

  /** What an honest peer holding `content` sends in answer to `plan`: for each
      Request the bytes asked for, echoing the offset and the index `echo`. */
  function Serve(plan: seq<Request>, content: seq<byte>, echo: uint32): seq<byte>
    requires Inside(plan, |content|)
    decreases |plan|
  {
    if plan == [] then []
    else
      var q := plan[0];
      PieceReply(PieceMessage(echo, q.offset, content[q.offset..q.offset + q.length]))
        + Serve(plan[1..], content, echo)
  }

  /** An honest peer's first answer is read back as the block asked for. */
  lemma ServeFirst(plan: seq<Request>, content: seq<byte>, echo: uint32, rest: seq<byte>)
    requires Inside(plan, |content|) && plan != [] && |content| + 9 < UINT32_LIMIT
    ensures Inside(plan[1..], |content|)
    ensures var q := plan[0];
            ReceivePiece(Serve(plan, content, echo) + rest)
              == Ok((PieceMessage(echo, q.offset, content[q.offset..q.offset + q.length]),
                     Serve(plan[1..], content, echo) + rest))
  {
    var q := plan[0];
    var m := PieceMessage(echo, q.offset, content[q.offset..q.offset + q.length]);
    ServeUnfold(plan, content, echo);
    var later := Serve(plan[1..], content, echo);
    Assoc(PieceReply(m), later, rest);
    assert Serve(plan, content, echo) + rest == PieceReply(m) + (later + rest);
    ReceivePieceReply(m, later + rest);
  }

  lemma ServeUnfold(plan: seq<Request>, content: seq<byte>, echo: uint32)
    requires Inside(plan, |content|) && plan != []
    ensures Inside(plan[1..], |content|)
    ensures Serve(plan, content, echo)
              == PieceReply(PieceMessage(echo, plan[0].offset, content[plan[0].offset..plan[0].offset + plan[0].length]))
                 + Serve(plan[1..], content, echo)
  {
  }

  /** Copying the next `len` bytes of `content` at `from` extends the part of
      the buffer that agrees with `content`. */
  lemma CopyExtends(buf: seq<byte>, content: seq<byte>, from: nat, len: nat)
    requires |buf| == |content| && from + len <= |content| && buf[..from] == content[..from]
    ensures Copy(buf, from, content[from..from + len])[..from + len] == content[..from + len]
  {
    var block := content[from..from + len];
    assert Copy(buf, from, block) == buf[..from] + block + buf[from + len..];
    assert content[..from + len] == content[..from] + block;
  }

  /** One honest answer is accepted and its block copied: what follows is the
      loop over the remaining requests from the filled buffer. */
  lemma HonestStep(plan: seq<Request>, buf: seq<byte>, content: seq<byte>, from: nat, echo: uint32, rest: seq<byte>)
    requires plan != [] && plan[0].offset == from && plan[0].index == echo
    requires |buf| == |content| && from + plan[0].length <= |content|
    requires Inside(plan, |content|) && |content| + 9 < UINT32_LIMIT
    ensures Inside(plan[1..], |content|)
    ensures var next := Fetch(plan[1..], Copy(buf, from, content[from..from + plan[0].length]), Serve(plan[1..], content, echo) + rest);
            Fetch(plan, buf, Serve(plan, content, echo) + rest) == Fetched([plan[0]] + next.sent, next.result)
  {
    ServeFirst(plan, content, echo, rest);
    AcceptedBlock(plan, buf, Serve(plan, content, echo) + rest, content[from..from + plan[0].length],
                  Serve(plan[1..], content, echo) + rest);
  }

  /** A reply that echoes the first request and names an offset inside the
      buffer is copied and the loop goes on. */
  lemma AcceptedBlock(plan: seq<Request>, buf: seq<byte>, inbound: seq<byte>, block: seq<byte>, rest: seq<byte>)
    requires plan != [] && plan[0].offset <= |buf|
    requires ReceivePiece(inbound) == Ok((PieceMessage(plan[0].index, plan[0].offset, block), rest))
    ensures var next := Fetch(plan[1..], Copy(buf, plan[0].offset, block), rest);
            Fetch(plan, buf, inbound) == Fetched([plan[0]] + next.sent, next.result)
  {
  }

  /** Answering every Request honestly fills the buffer with `content`,
      whatever it held beyond the part already filled. */
  lemma {:induction false} FetchHonest(plan: seq<Request>, buf: seq<byte>, content: seq<byte>, from: nat,
                                       echo: uint32, rest: seq<byte>)
    requires from <= |content| && |buf| == |content| && buf[..from] == content[..from]
    requires Tiles(plan, from, |content|)
    requires |content| + 9 < UINT32_LIMIT
    requires forall i :: 0 <= i < |plan| ==> plan[i].index == echo
    ensures Inside(plan, |content|)
    ensures Fetch(plan, buf, Serve(plan, content, echo) + rest) == Fetched(plan, Ok((content, rest)))
    decreases |plan|
  {
    TilesRequested(plan, from, |content|);
    if plan == [] {
      HonestEnd(buf, content, from, echo, rest);
    } else {
      var len := plan[0].length;
      TailIndices(plan, echo);
      CopyExtends(buf, content, from, len);
      FetchHonest(plan[1..], Copy(buf, from, content[from..from + len]), content, from + len, echo, rest);
      HonestStep(plan, buf, content, from, echo, rest);
      assert [plan[0]] + plan[1..] == plan;
    }
  }

  lemma HonestEnd(buf: seq<byte>, content: seq<byte>, from: nat, echo: uint32, rest: seq<byte>)
    requires from == |content| && |buf| == |content| && buf[..from] == content[..from]
    ensures Fetch([], buf, Serve([], content, echo) + rest) == Fetched([], Ok((content, rest)))
  {
    assert buf == buf[..from] == content[..from] == content;
    assert Serve([], content, echo) + rest == rest;
  }

  lemma TailIndices(plan: seq<Request>, echo: uint32)
    requires plan != [] && forall i :: 0 <= i < |plan| ==> plan[i].index == echo
    ensures forall i :: 0 <= i < |plan[1..]| ==> plan[1..][i].index == echo
  {
    forall i | 0 <= i < |plan[1..]| ensures plan[1..][i].index == echo {
      assert plan[1..][i] == plan[i + 1];
    }
  }

  /** A peer that answers every block of a piece honestly, with content whose
      SHA-1 is the listed hash, yields exactly that content, after one Request
      per block. */
  lemma HonestPiece(info: Metafile.Info, index: int, sha1: Metafile.Sha1, content: seq<byte>, rest: seq<byte>)
    requires info.pieceLength != 0 && 0 <= index < |info.pieces|
    requires |content| == PieceSize(info.length, info.pieceLength, index)
    requires |content| + 9 < UINT32_LIMIT
    requires info.pieces[index] == Hex.Encode(sha1(content))
    ensures Inside(Plan(index, |content|), |content|)
    ensures DownloadPiece(info, index, sha1, Serve(Plan(index, |content|), content, ToUint32(index)) + rest)
              == Fetched(Plan(index, |content|), Ok((content, rest)))
  {
    PlanCoversPiece(index, |content|);
    FetchHonest(Plan(index, |content|), Zeros(|content|), content, 0, ToUint32(index), rest);
  }

  /** A peer that sends correct bytes but echoes an index other than the one
      requested gets nothing accepted: the first block is refused. */
  lemma ForeignIndexRefused(info: Metafile.Info, index: int, sha1: Metafile.Sha1, content: seq<byte>,
                            echo: uint32, rest: seq<byte>)
    requires info.pieceLength != 0
    requires |content| == PieceSize(info.length, info.pieceLength, index)
    requires 0 < |content| && |content| + 9 < UINT32_LIMIT
    requires echo != ToUint32(index)
    ensures Inside(Plan(index, |content|), |content|)
    ensures var r := DownloadPiece(info, index, sha1, Serve(Plan(index, |content|), content, echo) + rest);
            && r.sent == Plan(index, |content|)[..1]
            && r.result == Err(IndexMismatch(ToUint32(index), echo))
  {
    var plan := Plan(index, |content|);
    PlanCoversPiece(index, |content|);
    TilesRequested(plan, 0, |content|);
    var q := plan[0];
    var m := PieceMessage(echo, q.offset, content[q.offset..q.offset + q.length]);
    assert Serve(plan, content, echo) + rest == PieceReply(m) + (Serve(plan[1..], content, echo) + rest);
    BadEchoStops(plan, Zeros(|content|), m, Serve(plan[1..], content, echo) + rest);
  }

  // Whole files.

  /** Piece i of a file: bytes [pieceLength·i, pieceLength·(i+1)), cut short
      at the end of the file. */
  function PieceOf(content: seq<byte>, pieceLength: nat, i: nat): seq<byte>
    requires pieceLength > 0 && pieceLength * i <= |content|
  {
    var end := pieceLength * (i + 1);
    content[pieceLength * i..if end < |content| then end else |content|]
  }

  lemma PieceOfSize(content: seq<byte>, pieceLength: nat, i: nat)
    requires pieceLength > 0 && i < PieceCount(|content|, pieceLength)
    ensures pieceLength * i < |content|
    ensures |PieceOf(content, pieceLength, i)| == PieceSize(|content|, pieceLength, i)
    ensures i + 1 < PieceCount(|content|, pieceLength) ==> pieceLength * (i + 1) < |content|
    ensures i + 1 == PieceCount(|content|, pieceLength) ==> pieceLength * (i + 1) >= |content|
  {
    var n, len := PieceCount(|content|, pieceLength), |content|;
    PieceSizeBounds(len, pieceLength, i);
    MulMono(pieceLength, i, n - 1);
    var lo, hi := pieceLength * i, pieceLength * (i + 1);
    assert hi == lo + pieceLength;
    if i + 1 < n {
      MulMono(pieceLength, i + 1, n - 1);
      assert n - 1 <= len / pieceLength;
      assert |PieceOf(content, pieceLength, i)| == pieceLength;
    } else {
      assert |PieceOf(content, pieceLength, i)| == len - lo;
    }
  }

  lemma MulMono(p: nat, x: nat, y: nat)
    requires x <= y
    ensures p * x <= p * y
  {
    assert p * y == p * x + p * (y - x);
  }

  /** An honest peer's answers for pieces [from, n) of a file. */
  function HonestStream(content: seq<byte>, pieceLength: nat, from: nat): seq<byte>
    requires 0 < pieceLength && pieceLength + 9 < UINT32_LIMIT
    decreases PieceCount(|content|, pieceLength) - from
  {
    var n := PieceCount(|content|, pieceLength);
    if from >= n then []
    else
      PieceOfSize(content, pieceLength, from);
      PieceSizeBounds(|content|, pieceLength, from);
      var piece := PieceOf(content, pieceLength, from);
      HonestPiecePlanInside(from, piece);
      Serve(Plan(from, |piece|), piece, ToUint32(from)) + HonestStream(content, pieceLength, from + 1)
  }

  lemma HonestPiecePlanInside(index: nat, piece: seq<byte>)
    requires |piece| < UINT32_LIMIT
    ensures Inside(Plan(index, |piece|), |piece|)
  {
    PlanCoversPiece(index, |piece|);
    TilesRequested(Plan(index, |piece|), 0, |piece|);
  }

  /** The torrent's file as an honest peer holds it: its length and piece
      length, and every listed hash the SHA-1 of the matching piece. */
  predicate Describes(info: Metafile.Info, sha1: Metafile.Sha1, content: seq<byte>) {
    && 0 < info.pieceLength && info.pieceLength + 9 < UINT32_LIMIT
    && info.length == |content|
    && |info.pieces| == PieceCount(|content|, info.pieceLength)
    && forall i :: 0 <= i < |info.pieces| ==>
         info.pieceLength * i <= |content| &&
         info.pieces[i] == Hex.Encode(sha1(PieceOf(content, info.pieceLength, i)))
  }

  /** The pieces [from, n) of a file. */
  function PiecesOf(content: seq<byte>, pieceLength: nat, from: nat): seq<seq<byte>>
    requires 0 < pieceLength
    decreases PieceCount(|content|, pieceLength) - from
  {
    if from >= PieceCount(|content|, pieceLength) then []
    else
      PieceOfSize(content, pieceLength, from);
      [PieceOf(content, pieceLength, from)] + PiecesOf(content, pieceLength, from + 1)
  }

  /** Where piece `from` starts, or the end of the file past the last piece. */
  function PieceStart(length: nat, pieceLength: nat, from: nat): (r: nat)
    requires 0 < pieceLength
    ensures r <= length
  {
    if from < PieceCount(length, pieceLength) then
      PieceOfSize(Zeros(length), pieceLength, from);
      pieceLength * from
    else length
  }

  /** The pieces of a file, put back together, are the file. */
  lemma {:induction false} ConcatPieces(content: seq<byte>, pieceLength: nat, from: nat)
    requires 0 < pieceLength && from <= PieceCount(|content|, pieceLength)
    ensures Concat(PiecesOf(content, pieceLength, from)) == content[PieceStart(|content|, pieceLength, from)..]
    decreases PieceCount(|content|, pieceLength) - from
  {
    if from < PieceCount(|content|, pieceLength) {
      ConcatPieces(content, pieceLength, from + 1);
      ConcatPiecesStep(content, pieceLength, from);
    }
  }

  lemma ConcatPiecesStep(content: seq<byte>, pieceLength: nat, from: nat)
    requires 0 < pieceLength && from < PieceCount(|content|, pieceLength)
    requires Concat(PiecesOf(content, pieceLength, from + 1)) == content[PieceStart(|content|, pieceLength, from + 1)..]
    ensures Concat(PiecesOf(content, pieceLength, from)) == content[PieceStart(|content|, pieceLength, from)..]
  {
    var start, next := PieceStart(|content|, pieceLength, from), PieceStart(|content|, pieceLength, from + 1);
    PieceBetweenStarts(content, pieceLength, from);
    var all := PiecesOf(content, pieceLength, from);
    assert all == [content[start..next]] + PiecesOf(content, pieceLength, from + 1);
    assert all[1..] == PiecesOf(content, pieceLength, from + 1);
    assert content[start..] == content[start..next] + content[next..];
  }

  /** Piece `from` runs from where it starts to where the next one starts. */
  lemma PieceBetweenStarts(content: seq<byte>, pieceLength: nat, from: nat)
    requires 0 < pieceLength && from < PieceCount(|content|, pieceLength)
    ensures PieceStart(|content|, pieceLength, from) <= PieceStart(|content|, pieceLength, from + 1)
    ensures pieceLength * from <= |content|
    ensures PieceOf(content, pieceLength, from)
              == content[PieceStart(|content|, pieceLength, from)..PieceStart(|content|, pieceLength, from + 1)]
  {
    var n := PieceCount(|content|, pieceLength);
    PieceOfSize(content, pieceLength, from);
    PieceOfSize(Zeros(|content|), pieceLength, from);
    if from + 1 < n {
      PieceOfSize(Zeros(|content|), pieceLength, from + 1);
    }
  }

  /** One more piece answered honestly is one more piece downloaded. */
  lemma {:induction false} HonestPiecesStep(info: Metafile.Info, sha1: Metafile.Sha1, content: seq<byte>, from: nat, rest: seq<byte>)
    requires Describes(info, sha1, content) && from < |info.pieces|
    ensures DownloadPieces(info, sha1, from, HonestStream(content, info.pieceLength, from) + rest).result
              == Ok((PiecesOf(content, info.pieceLength, from), rest))
    decreases |info.pieces| - from, 0
  {
    HonestPieces(info, sha1, content, from + 1, rest);
    var pl := info.pieceLength;
    PieceOfSize(content, pl, from);
    PieceSizeBounds(|content|, pl, from);
    var piece := PieceOf(content, pl, from);
    var later := HonestStream(content, pl, from + 1);
    HonestPiecePlanInside(from, piece);
    var first := Serve(Plan(from, |piece|), piece, ToUint32(from));
    assert HonestStream(content, pl, from) == first + later;
    Assoc(first, later, rest);
    HonestPiece(info, from, sha1, piece, later + rest);
  }

  lemma HonestPiecesEnd(info: Metafile.Info, sha1: Metafile.Sha1, content: seq<byte>, rest: seq<byte>)
    requires Describes(info, sha1, content)
    ensures DownloadPieces(info, sha1, |info.pieces|, HonestStream(content, info.pieceLength, |info.pieces|) + rest).result
              == Ok((PiecesOf(content, info.pieceLength, |info.pieces|), rest))
  {
    assert HonestStream(content, info.pieceLength, |info.pieces|) + rest == rest;
  }

  lemma {:induction false} HonestPieces(info: Metafile.Info, sha1: Metafile.Sha1, content: seq<byte>,
                                        from: nat, rest: seq<byte>)
    requires Describes(info, sha1, content) && from <= |info.pieces|
    ensures DownloadPieces(info, sha1, from, HonestStream(content, info.pieceLength, from) + rest).result
              == Ok((PiecesOf(content, info.pieceLength, from), rest))
    decreases |info.pieces| - from, 1
  {
    if from == |info.pieces| {
      HonestPiecesEnd(info, sha1, content, rest);
    } else {
      HonestPiecesStep(info, sha1, content, from, rest);
    }
  }

  /** Downloading a whole torrent from an honest peer returns the file. */
  lemma HonestDownload(info: Metafile.Info, sha1: Metafile.Sha1, content: seq<byte>, rest: seq<byte>)
    requires Describes(info, sha1, content)
    ensures DownloadFile(info, sha1, HonestStream(content, info.pieceLength, 0) + rest).result == Ok((content, rest))
  {
    HonestPieces(info, sha1, content, 0, rest);
    ConcatPieces(content, info.pieceLength, 0);
  }
}

=== FILE: encoder.dfy ===
/** The canonical encoder of pkg/mybittorrent/bencode/encode.go, and its
    round trip through the decoder. */
module Encoder {
  import opened Bytes
  import opened Results
  import opened Decimal
  import opened Bencode
  import opened Lex
  import opened Decoder

  /** The bytes a value's encoding starts with; each tells the decoder which
      production follows, and none is the list/dictionary terminator 'e'. */
  predicate StartsValue(b: byte) {
    IsDigit(b) || b == INT_TAG || b == LIST_TAG || b == DICT_TAG
  }

  /** `Encode`: `<len>:<bytes>`, `i<n>e`, `l<items>e`, and `d<key><value>...e`
      with the keys in ascending byte order. */
  function Encode(v: BValue): (r: seq<byte>)
    ensures r != [] && StartsValue(r[0]) && r[0] != END
    ensures v.Str? ==> IsDigit(r[0])
    ensures v.Int? ==> r[0] == INT_TAG
    ensures v.List? ==> r[0] == LIST_TAG
    ensures v.Dict? ==> r[0] == DICT_TAG
    decreases v
  {
    match v
    case Str(b) => EncodeString(b)
    case Int(n) => [INT_TAG] + Signed(n) + [END]
    case List(items) => [LIST_TAG] + EncodeItems(items) + [END]
    case Dict(m) => [DICT_TAG] + EncodePairs(m, InSortedOrder(m), v) + [END]
  }

  /** The string branch: decimal byte length, ':', then the bytes unchanged. */
  function EncodeString(b: seq<byte>): (r: seq<byte>)
    ensures |r| > |b| + 1 && IsDigit(r[0])
    ensures r[|r| - |b|..] == b
    ensures var n := |r| - |b| - 1;
            && r[n] == COLON
            && AllDigits(r[..n])
            && DigitsValue(r[..n]) == |b|
            && (n > 1 ==> r[0] != ZERO)
  {
    DigitsValueOfDigits(|b|);
    var r := Digits(|b|) + [COLON] + b;
    assert r[..|r| - |b| - 1] == Digits(|b|);
    r
  }

  /** The list branch's loop: each item's encoding, in order. */
  function EncodeItems(items: seq<BValue>): (r: seq<byte>)
    ensures items == [] <==> r == []
    decreases items
  {
    if items == [] then [] else Encode(items[0]) + EncodeItems(items[1..])
  }

  /** The dictionary branch's callback, once per key in the order given. */
  function EncodePairs(m: map<Key, BValue>, keys: seq<Key>, ghost parent: BValue): (r: seq<byte>)
    requires parent == Dict(m)
    requires forall k :: k in keys ==> k in m
    ensures keys == [] <==> r == []
    decreases parent, |keys|
  {
    if keys == [] then []
    else EncodeString(keys[0]) + Encode(m[keys[0]]) + EncodePairs(m, keys[1..], parent)
  }

  /** `inSortedOrder`: the map's keys, each once, in ascending byte order. */
  function InSortedOrder(m: map<Key, BValue>): (keys: seq<Key>)
    ensures forall k :: k in keys <==> k in m
    ensures |keys| == |m|
    ensures StrictlySorted(keys)
  {
    SortedKeys(m.Keys)
  }

  /** Go collects the keys in map-iteration order, which varies from run to run,
      and sorts them; whatever that order, the sorted result is
      `InSortedOrder(m)`. So equal maps always encode to the same bytes. */
  lemma InSortedOrderIgnoresIterationOrder(m: map<Key, BValue>, visit: seq<Key>)
    requires Distinct(visit)
    requires forall k :: k in visit <==> k in m
    ensures Sort(visit) == InSortedOrder(m)
  {
    SortEnumeration(visit, m.Keys);
  }

  lemma {:induction false} ReadUntilSplit(text: seq<byte>, delim: byte, rest: seq<byte>)
    requires delim !in text
    ensures ReadUntil(text + [delim] + rest, delim) == Ok((text, rest))
    decreases |text|
  {
    var s := text + [delim] + rest;
    if text == [] {
      assert s == [delim] + rest;
    } else {
      assert s[1..] == text[1..] + [delim] + rest;
      ReadUntilSplit(text[1..], delim, rest);
      assert text == [text[0]] + text[1..];
    }
  }

  lemma DigitsAvoid(n: nat, b: byte)
    requires !IsDigit(b)
    ensures b !in Digits(n)
  {
  }

  lemma DecodeEncodedString(b: seq<byte>, rest: seq<byte>)
    requires |b| <= MAX_INT64
    ensures DecodeString(EncodeString(b) + rest) == Ok((b, rest))
  {
    var text := Digits(|b|);
    DigitsAvoid(|b|, COLON);
    assert EncodeString(b) + rest == text + [COLON] + (b + rest);
    ReadUntilSplit(text, COLON, b + rest);
    AtoiDigits(|b|);
    assert (b + rest)[..|b|] == b && (b + rest)[|b|..] == rest;
  }

  lemma DecodeEncodedInteger(n: int, rest: seq<byte>)
    requires InInt64(n)
    ensures DecodeInteger(Signed(n) + [END] + rest) == Ok((n, rest))
  {
    forall i | 0 <= i < |Signed(n)|
      ensures Signed(n)[i] != END
    {
    }
    ReadUntilSplit(Signed(n), END, rest);
    AtoiSigned(n);
  }

  lemma DecodeEncodeStr(b: seq<byte>, rest: seq<byte>)
    requires |b| <= MAX_INT64
    ensures DecodeValue(Encode(Str(b)) + rest) == Ok((Str(b), rest))
  {
    DecodeEncodedString(b, rest);
  }

  lemma DecodeEncodeInt(n: int, rest: seq<byte>)
    requires InInt64(n)
    ensures DecodeValue(Encode(Int(n)) + rest) == Ok((Int(n), rest))
  {
    assert Encode(Int(n)) + rest == [INT_TAG] + (Signed(n) + [END] + rest);
    DecodeEncodedInteger(n, rest);
  }

  lemma DecodeListStep(s: seq<byte>, item: BValue, afterItem: seq<byte>, items: seq<BValue>, rest: seq<byte>)
    requires s != [] && s[0] != END
    requires DecodeValue(s) == Ok((item, afterItem))
    requires DecodeList(afterItem) == Ok((items, rest))
    ensures DecodeList(s) == Ok(([item] + items, rest))
  {
  }

  lemma DecodeDictStep(s: seq<byte>, key: Key, afterKey: seq<byte>, value: BValue, afterValue: seq<byte>,
                       later: map<Key, BValue>, rest: seq<byte>)
    requires s != [] && s[0] != END
    requires DecodeString(s) == Ok((key, afterKey))
    requires DecodeValue(afterKey) == Ok((value, afterValue))
    requires DecodeDict(afterValue) == Ok((later, rest))
    ensures DecodeDict(s) == Ok((map[key := value] + later, rest))
  {
  }

  lemma KeysCover(m: map<Key, BValue>, keys: seq<Key>)
    requires forall k :: k in keys <==> k in m
    ensures (map k | k in keys :: m[k]) == m
  {
  }

  /** Round trip: decoding an encoding consumes exactly that encoding and gives
      back the value, whatever input follows it. */
  lemma {:induction false} DecodeEncode(v: BValue, rest: seq<byte>)
    requires WellFormed(v)
    ensures DecodeValue(Encode(v) + rest) == Ok((v, rest))
    decreases v, 2
  {
    match v
    case Str(b) =>
      DecodeEncodeStr(b, rest);
    case Int(n) =>
      DecodeEncodeInt(n, rest);
    case List(items) =>
      DecodeEncodeList(items, rest);
    case Dict(m) =>
      DecodeEncodeDict(m, v, rest);
  }

  lemma {:induction false} DecodeEncodeList(items: seq<BValue>, rest: seq<byte>)
    requires forall i :: 0 <= i < |items| ==> WellFormed(items[i])
    ensures DecodeValue(Encode(List(items)) + rest) == Ok((List(items), rest))
    decreases items, 1
  {
    var body := EncodeItems(items) + [END] + rest;
    assert Encode(List(items)) + rest == [LIST_TAG] + body;
    DecodeEncodeItems(items, rest);
    DecodeListOk(body, items, rest);
  }

  lemma {:induction false} DecodeEncodeDict(m: map<Key, BValue>, parent: BValue, rest: seq<byte>)
    requires parent == Dict(m) && WellFormed(parent)
    ensures DecodeValue(Encode(parent) + rest) == Ok((parent, rest))
    decreases parent, 1
  {
    var keys := InSortedOrder(m);
    var body := EncodePairs(m, keys, parent) + [END] + rest;
    assert Encode(parent) + rest == [DICT_TAG] + body;
    DecodeEncodePairs(m, keys, parent, rest);
    KeysCover(m, keys);
    DecodeDictOk(body, m, rest);
  }

  lemma {:induction false} DecodeEncodeItems(items: seq<BValue>, rest: seq<byte>)
    requires forall i :: 0 <= i < |items| ==> WellFormed(items[i])
    ensures DecodeList(EncodeItems(items) + [END] + rest) == Ok((items, rest))
    decreases items, 0
  {
    if items != [] {
      var tail := EncodeItems(items[1..]) + [END] + rest;
      assert EncodeItems(items) + [END] + rest == Encode(items[0]) + tail;
      DecodeEncode(items[0], tail);
      DecodeEncodeItems(items[1..], rest);
      DecodeListStep(Encode(items[0]) + tail, items[0], tail, items[1..], rest);
      assert items == [items[0]] + items[1..];
    }
  }

  lemma MapPrepend(m: map<Key, BValue>, keys: seq<Key>)
    requires keys != []
    requires forall k :: k in keys ==> k in m
    ensures map[keys[0] := m[keys[0]]] + (map k | k in keys[1..] :: m[k]) == (map k | k in keys :: m[k])
  {
    assert keys == [keys[0]] + keys[1..];
  }

  /** One dictionary entry followed by input the dictionary decoder accepts. */
  lemma DecodePairThen(k: Key, v: BValue, tail: seq<byte>, later: map<Key, BValue>, rest: seq<byte>)
    requires |k| <= MAX_INT64 && WellFormed(v)
    requires DecodeDict(tail) == Ok((later, rest))
    ensures DecodeDict(EncodeString(k) + Encode(v) + tail) == Ok((map[k := v] + later, rest))
    decreases v, 3
  {
    var key, value := EncodeString(k), Encode(v);
    var s := key + value + tail;
    Assoc(key, value, tail);
    assert s[0] == key[0];
    DecodeEncodedString(k, value + tail);
    DecodeEncode(v, tail);
    DecodeDictStep(s, k, value + tail, v, tail, later, rest);
  }

  lemma Regroup(a: seq<byte>, b: seq<byte>, c: seq<byte>, close: byte, rest: seq<byte>)
    ensures a + b + c + [close] + rest == a + b + (c + [close] + rest)
  {
  }

  lemma {:induction false} DecodeEncodePairs(m: map<Key, BValue>, keys: seq<Key>, parent: BValue, rest: seq<byte>)
    requires parent == Dict(m) && WellFormed(parent)
    requires forall k :: k in keys ==> k in m
    ensures DecodeDict(EncodePairs(m, keys, parent) + [END] + rest)
            == Ok(((map k | k in keys :: m[k]), rest))
    decreases parent, 0, |keys|
  {
    if keys == [] {
      assert (map k | k in keys :: m[k]) == map[];
    } else {
      var key := keys[0];
      var tail := EncodePairs(m, keys[1..], parent) + [END] + rest;
      DecodeEncodePairs(m, keys[1..], parent, rest);
      DecodePairThen(key, m[key], tail, map k | k in keys[1..] :: m[k], rest);
      Regroup(EncodeString(key), Encode(m[key]), EncodePairs(m, keys[1..], parent), END, rest);
      MapPrepend(m, keys);
    }
  }

  /** The whole-input form: `Decode(Encode(v)) == v`. */
  lemma RoundTrip(v: BValue)
    requires WellFormed(v)
    ensures Decode(Encode(v)) == Ok(v)
    ensures DecodeValue(Encode(v)) == Ok((v, []))
  {
    DecodeEncode(v, []);
    assert Encode(v) + [] == Encode(v);
  }
}

=== FILE: handshake.dfy ===
/** The peer handshake, as built in `HandshakePeer`
    (pkg/mybittorrent/protocol.go), `Dial` (pkg/bittorrent/protocol.go) and
    `EstablishPeerConnection` (pkg/mybittorrent/torrent/protocol.go): the
    68-byte greeting, and the peer id read back from the first chunk of the
    reply. Name resolution, dialling, peer-id generation and the socket itself
    are an `Environment` that says which step fails, if any. */
module Handshake {
  import opened Bytes
  import opened Results
  import Hex

  const PSTRLEN: byte := 19
  /** "BitTorrent protocol" */
  const PROTOCOL: seq<byte> := [66, 105, 116, 84, 111, 114, 114, 101, 110, 116, 32,
                                112, 114, 111, 116, 111, 99, 111, 108]
  const REPLY_SIZE: nat := 68

  /** The greeting: the protocol-name length, the name, eight reserved zero
      bytes, the info-hash, then the local peer id. */
  function Message(infoHash: seq<byte>, peerId: seq<byte>): (r: seq<byte>)
    ensures |r| == 28 + |infoHash| + |peerId|
    ensures r[0] == PSTRLEN && r[1..20] == PROTOCOL && r[20..28] == Zeros(8)
    ensures r[28..28 + |infoHash|] == infoHash && r[28 + |infoHash|..] == peerId
  {
    var r := [PSTRLEN] + PROTOCOL + Zeros(8) + infoHash + peerId;
    assert |PROTOCOL| == 19;
    assert r[1..20] == PROTOCOL;
    assert r[20..28] == Zeros(8);
    assert r[28..28 + |infoHash|] == infoHash;
    r
  }

  /** With a 20-byte info-hash and a 20-byte peer id the greeting is 68
      bytes: the hash at [28, 48) and the id at [48, 68). */
  lemma MessageLayout(infoHash: seq<byte>, peerId: seq<byte>)
    requires |infoHash| == 20 && |peerId| == 20
    ensures |Message(infoHash, peerId)| == REPLY_SIZE
    ensures Message(infoHash, peerId)[28..48] == infoHash
    ensures Message(infoHash, peerId)[48..68] == peerId
  {
  }

  /** `peerBuf` after one `conn.Read`: the first bytes of the chunk the peer
      sent, at most 68 of them, and zeros where the chunk falls short. */
  function ReplyBuffer(chunk: seq<byte>): (r: seq<byte>)
    ensures |r| == REPLY_SIZE
    ensures |chunk| >= REPLY_SIZE ==> r == chunk[..REPLY_SIZE]
    ensures |chunk| < REPLY_SIZE ==> r[..|chunk|] == chunk && r[|chunk|..] == Zeros(REPLY_SIZE - |chunk|)
  {
    if |chunk| >= REPLY_SIZE then chunk[..REPLY_SIZE]
    else
      var r := chunk + Zeros(REPLY_SIZE - |chunk|);
      assert r[..|chunk|] == chunk;
      r
  }

  /** The remote peer id: the hex text of bytes [48, 68) of the reply buffer. */
  function RemotePeerId(chunk: seq<byte>): (r: seq<byte>)
    ensures |r| == 40 && Hex.IsHex(r)
    ensures Hex.Decode(r) == ReplyBuffer(chunk)[48..]
    ensures |chunk| >= REPLY_SIZE ==> Hex.Decode(r) == chunk[48..68]
  {
    var id := ReplyBuffer(chunk)[48..];
    Hex.DecodeEncode(id);
    Hex.Encode(id)
  }

  /** Nothing in the reply but bytes [48, 68) is looked at: its protocol name,
      reserved bytes and echoed info-hash are never compared with ours. */
  lemma EchoedHashIgnored(a: seq<byte>, b: seq<byte>)
    requires |a| >= REPLY_SIZE && |b| >= REPLY_SIZE
    requires a[48..68] == b[48..68]
    ensures RemotePeerId(a) == RemotePeerId(b)
  {
    assert ReplyBuffer(a)[48..] == a[48..68];
    assert ReplyBuffer(b)[48..] == b[48..68];
  }

  /** A reply chunk of 48 bytes or fewer leaves the id bytes at zero: the
      peer id comes out as forty '0' characters and no error is raised. */
  lemma ShortReplyGivesZeroId(chunk: seq<byte>)
    requires |chunk| <= 48
    ensures RemotePeerId(chunk) == Hex.Encode(Zeros(20))
  {
    assert ReplyBuffer(chunk)[48..] == Zeros(20);
  }

  /** The step of the handshake that fails. */
  datatype Step = Resolve | DialTcp | GeneratePeerId | Write | Read

  /** What the network and the random source do during one handshake. */
  datatype Environment = Environment(
    failsAt: Option<Step>,  // the first step that reports an error, if any
    localPeerId: seq<byte>, // what peer-id generation produces
    reply: seq<byte>)       // the first chunk the remote peer sends

  /** What `HandshakePeer` leaves behind: the greeting written (empty when no
      write was attempted), the returned id, and the error. */
  datatype Handshaken = Handshaken(written: seq<byte>, peerId: seq<byte>, err: Option<Step>)

  /** `HandshakePeer`. */
  function HandshakePeer(infoHash: seq<byte>, env: Environment): (r: Handshaken)
    ensures r.err == env.failsAt
    ensures r.err.Some? <==> r.peerId == []
    ensures r.err.None? ==> r.peerId == RemotePeerId(env.reply)
    ensures r.err in {None, Some(Write), Some(Read)} <==> r.written == Message(infoHash, env.localPeerId)
    ensures r.err in {Some(Resolve), Some(DialTcp), Some(GeneratePeerId)} ==> r.written == []
  {
    match env.failsAt
    case Some(Resolve) => Handshaken([], [], env.failsAt)
    case Some(DialTcp) => Handshaken([], [], env.failsAt)
    case Some(GeneratePeerId) => Handshaken([], [], env.failsAt)
    case Some(Write) => Handshaken(Message(infoHash, env.localPeerId), [], env.failsAt)
    case Some(Read) => Handshaken(Message(infoHash, env.localPeerId), [], env.failsAt)
    case None => Handshaken(Message(infoHash, env.localPeerId), RemotePeerId(env.reply), None)
  }

  /** A handshake that succeeds wrote the 68-byte greeting carrying the
      info-hash and the generated id, and returned 40 hex characters. */
  lemma SuccessfulHandshake(infoHash: seq<byte>, env: Environment)
    requires |infoHash| == 20 && |env.localPeerId| == 20 && env.failsAt.None?
    ensures var r := HandshakePeer(infoHash, env);
            && |r.written| == REPLY_SIZE && r.written[28..48] == infoHash
            && r.written[48..68] == env.localPeerId
            && |r.peerId| == 40 && Hex.IsHex(r.peerId)
  {
    MessageLayout(infoHash, env.localPeerId);
  }

  /** Why a handshake that checks the reply fails: a step of the exchange, or
      a reply naming another torrent. */
  datatype HandshakeError = Failed(step: Step) | OtherTorrent(echoed: seq<byte>)

  /** The handshake as the peer protocol of BEP 3 asks for it: the same
      exchange, but a reply whose info-hash differs from the one sent ends the
      connection instead of yielding a peer id. */
  function CheckedHandshake(infoHash: seq<byte>, env: Environment): (r: Result<seq<byte>, HandshakeError>)
    ensures env.failsAt.Some? ==> r == Err(Failed(env.failsAt.value))
    ensures r.Ok? <==> env.failsAt.None? && ReplyBuffer(env.reply)[28..48] == infoHash
    ensures r.Ok? ==> r.value == RemotePeerId(env.reply)
    ensures r.Err? && r.error.OtherTorrent? ==> r.error.echoed != infoHash
  {
    var h := HandshakePeer(infoHash, env);
    match h.err
    case Some(step) => Err(Failed(step))
    case None =>
      var echoed := ReplyBuffer(env.reply)[28..48];
      if echoed != infoHash then Err(OtherTorrent(echoed)) else Ok(h.peerId)
  }

  /** A full reply that echoes another info-hash: `HandshakePeer` returns the
      peer id as if all were well, and the checked handshake refuses it. */
  lemma OtherTorrentAccepted(infoHash: seq<byte>, env: Environment)
    requires env.failsAt.None? && |env.reply| >= REPLY_SIZE && env.reply[28..48] != infoHash
    ensures HandshakePeer(infoHash, env).err.None?
    ensures HandshakePeer(infoHash, env).peerId == RemotePeerId(env.reply)
    ensures CheckedHandshake(infoHash, env) == Err(OtherTorrent(env.reply[28..48]))
  {
    assert ReplyBuffer(env.reply)[28..48] == env.reply[28..48];
  }
}

=== FILE: hex.dfy ===
/** `hex.EncodeToString`: two lowercase ASCII hex digits per byte, high nibble first. */
module Hex {
  import opened Bytes

  predicate IsHexDigit(c: byte) {
    48 <= c <= 57 || 97 <= c <= 102
  }

  function Digit(n: nat): (c: byte)
    requires n < 16
    ensures IsHexDigit(c)
  {
    if n < 10 then 48 + n else 87 + n
  }

  function DigitValue(c: byte): (n: nat)
    requires IsHexDigit(c)
    ensures n < 16 && Digit(n) == c
  {
    if c <= 57 then c - 48 else c - 87
  }

  function Encode(bs: seq<byte>): (r: seq<byte>)
    ensures |r| == 2 * |bs|
    ensures forall i :: 0 <= i < |r| ==> IsHexDigit(r[i])
  {
    if bs == [] then [] else [Digit(bs[0] / 16), Digit(bs[0] % 16)] + Encode(bs[1..])
  }

  predicate IsHex(t: seq<byte>) {
    |t| % 2 == 0 && forall i :: 0 <= i < |t| ==> IsHexDigit(t[i])
  }

  /** `hex.DecodeString` on well-formed lowercase text; the inverse of `Encode`. */
  function Decode(t: seq<byte>): (r: seq<byte>)
    requires IsHex(t)
    ensures |r| * 2 == |t|
  {
    if t == [] then [] else [DigitValue(t[0]) * 16 + DigitValue(t[1])] + Decode(t[2..])
  }

  lemma {:induction false} DecodeEncode(bs: seq<byte>)
    ensures IsHex(Encode(bs))
    ensures Decode(Encode(bs)) == bs
    decreases |bs|
  {
    if bs != [] {
      var t := Encode(bs);
      assert t[2..] == Encode(bs[1..]);
      DecodeEncode(bs[1..]);
      assert DigitValue(Digit(bs[0] / 16)) == bs[0] / 16;
      assert DigitValue(Digit(bs[0] % 16)) == bs[0] % 16;
    }
  }

  /** Distinct byte strings have distinct hex text, so comparing hex digests
      compares the digests themselves. */
  lemma EncodeInjective(a: seq<byte>, b: seq<byte>)
    requires Encode(a) == Encode(b)
    ensures a == b
  {
    DecodeEncode(a);
    DecodeEncode(b);
  }
}

=== FILE: lex.dfy ===
/** Byte-wise lexicographic order on byte strings, which is how Go compares
    `string` values, with the two sorting procedures the client uses: visiting a
    map's keys in ascending order and `sort.Strings`. */
module Lex {
  import opened Bytes

  /** `a <= b` for Go strings: the first differing byte decides, and a proper
      prefix sorts first. */
  predicate Le(a: seq<byte>, b: seq<byte>) {
    a == [] || (b != [] && (a[0] < b[0] || (a[0] == b[0] && Le(a[1..], b[1..]))))
  }

  predicate Lt(a: seq<byte>, b: seq<byte>) {
    Le(a, b) && a != b
  }

  lemma {:induction false} LeReflexive(a: seq<byte>)
    ensures Le(a, a)
    decreases |a|
  {
    if a != [] {
      LeReflexive(a[1..]);
    }
  }

  lemma {:induction false} LeAntisymmetric(a: seq<byte>, b: seq<byte>)
    requires Le(a, b) && Le(b, a)
    ensures a == b
    decreases |a|
  {
    if a != [] {
      LeAntisymmetric(a[1..], b[1..]);
      assert a == [a[0]] + a[1..] && b == [b[0]] + b[1..];
    }
  }

  lemma {:induction false} LeTransitive(a: seq<byte>, b: seq<byte>, c: seq<byte>)
    requires Le(a, b) && Le(b, c)
    ensures Le(a, c)
    decreases |a|
  {
    if a != [] && a[0] == b[0] && b[0] == c[0] {
      LeTransitive(a[1..], b[1..], c[1..]);
    }
  }

  lemma {:induction false} LeTotal(a: seq<byte>, b: seq<byte>)
    ensures Le(a, b) || Le(b, a)
    decreases |a|
  {
    if a != [] && b != [] && a[0] == b[0] {
      LeTotal(a[1..], b[1..]);
    }
  }

  lemma LeAntisymmetricAll()
    ensures forall a, b :: Le(a, b) && Le(b, a) ==> a == b
  {
    forall a, b | Le(a, b) && Le(b, a)
      ensures a == b
    {
      LeAntisymmetric(a, b);
    }
  }

  predicate IsLeast(k: seq<byte>, ks: set<seq<byte>>) {
    k in ks && forall j :: j in ks ==> Le(k, j)
  }

  lemma {:induction false} LeastExists(ks: set<seq<byte>>)
    requires ks != {}
    ensures exists k :: IsLeast(k, ks)
    decreases |ks|
  {
    var x :| x in ks;
    LeReflexive(x);
    if ks == {x} {
      assert IsLeast(x, ks);
    } else {
      LeastExists(ks - {x});
      var y :| IsLeast(y, ks - {x});
      LeTotal(x, y);
      if Le(x, y) {
        forall j | j in ks
          ensures Le(x, j)
        {
          if j != x {
            LeTransitive(x, y, j);
          }
        }
        assert IsLeast(x, ks);
      } else {
        assert IsLeast(y, ks);
      }
    }
  }

  /** The smallest key of a non-empty key set. */
  function Least(ks: set<seq<byte>>): (k: seq<byte>)
    requires ks != {}
    ensures IsLeast(k, ks)
  {
    LeastExists(ks);
    LeAntisymmetricAll();
    var k :| IsLeast(k, ks); k
  }

  predicate Sorted(xs: seq<seq<byte>>) {
    forall i, j :: 0 <= i < j < |xs| ==> Le(xs[i], xs[j])
  }

  predicate StrictlySorted(xs: seq<seq<byte>>) {
    forall i, j :: 0 <= i < j < |xs| ==> Lt(xs[i], xs[j])
  }

  /** The keys of a set in ascending order, each exactly once. */
  function SortedKeys(ks: set<seq<byte>>): (r: seq<seq<byte>>)
    ensures forall k :: k in r <==> k in ks
    ensures |r| == |ks|
    ensures StrictlySorted(r)
    decreases |ks|
  {
    if ks == {} then []
    else
      var k := Least(ks);
      var rest := SortedKeys(ks - {k});
      PrependLeast(k, ks, rest);
      [k] + rest
  }

  lemma PrependLeast(k: seq<byte>, ks: set<seq<byte>>, rest: seq<seq<byte>>)
    requires IsLeast(k, ks)
    requires forall x :: x in rest <==> x in ks - {k}
    requires StrictlySorted(rest)
    ensures forall x :: x in [k] + rest <==> x in ks
    ensures StrictlySorted([k] + rest)
  {
    var r := [k] + rest;
    forall i, j | 0 <= i < j < |r|
      ensures Lt(r[i], r[j])
    {
      if i == 0 {
        assert r[j] == rest[j - 1] && r[j] in ks - {k};
      }
    }
  }

  /** One step of insertion sort. */
  function Insert(x: seq<byte>, xs: seq<seq<byte>>): (r: seq<seq<byte>>)
    requires Sorted(xs)
    ensures Sorted(r)
    ensures multiset(r) == multiset(xs) + multiset{x}
  {
    if xs == [] then [x]
    else if Le(x, xs[0]) then
      assert forall j :: 0 <= j < |xs| ==> Le(x, xs[j]) by {
        forall j | 0 <= j < |xs|
          ensures Le(x, xs[j])
        {
          if j > 0 {
            LeTransitive(x, xs[0], xs[j]);
          }
        }
      }
      [x] + xs
    else
      LeTotal(x, xs[0]);
      var tail := Insert(x, xs[1..]);
      assert xs == [xs[0]] + xs[1..];
      assert forall j :: 0 <= j < |tail| ==> Le(xs[0], tail[j]) by {
        forall j | 0 <= j < |tail|
          ensures Le(xs[0], tail[j])
        {
          assert tail[j] in multiset(tail);
          if tail[j] != x {
            assert tail[j] in multiset(xs[1..]);
            var m :| 0 <= m < |xs[1..]| && xs[1..][m] == tail[j];
            assert xs[m + 1] == tail[j];
          }
        }
      }
      [xs[0]] + tail
  }

  /** `sort.Strings`: the same strings in ascending order. Sorting strings is
      stable or not alike, since equal strings are indistinguishable. */
  function Sort(xs: seq<seq<byte>>): (r: seq<seq<byte>>)
    ensures Sorted(r)
    ensures multiset(r) == multiset(xs)
  {
    if xs == [] then []
    else
      assert xs == [xs[0]] + xs[1..];
      Insert(xs[0], Sort(xs[1..]))
  }

  lemma SortedHeadFirst(a: seq<seq<byte>>, x: seq<byte>)
    requires Sorted(a) && x in multiset(a)
    ensures Le(a[0], x)
  {
    var i :| 0 <= i < |a| && a[i] == x;
    if i == 0 {
      LeReflexive(x);
    }
  }

  lemma MultisetTail(a: seq<seq<byte>>)
    requires a != []
    ensures multiset(a[1..]) == multiset(a) - multiset{a[0]}
  {
    assert a == [a[0]] + a[1..];
  }

  lemma SameHead(a: seq<seq<byte>>, b: seq<seq<byte>>)
    requires Sorted(a) && Sorted(b) && a != []
    requires multiset(a) == multiset(b)
    ensures b != [] && a[0] == b[0]
  {
    assert a[0] in multiset(b);
    assert b[0] in multiset(a);
    SortedHeadFirst(b, a[0]);
    SortedHeadFirst(a, b[0]);
    LeAntisymmetric(a[0], b[0]);
  }

  /** Two ascending sequences holding the same strings are the same sequence:
      the sorted order does not depend on the order the strings came in. */
  lemma {:induction false} SortedUnique(a: seq<seq<byte>>, b: seq<seq<byte>>)
    requires Sorted(a) && Sorted(b)
    requires multiset(a) == multiset(b)
    ensures a == b
    decreases |a|
  {
    if a != [] {
      SameHead(a, b);
      MultisetTail(a);
      MultisetTail(b);
      SortedUnique(a[1..], b[1..]);
      assert a == [a[0]] + a[1..] && b == [b[0]] + b[1..];
    }
  }

  predicate Distinct(xs: seq<seq<byte>>) {
    forall i, j :: 0 <= i < j < |xs| ==> xs[i] != xs[j]
  }

  lemma {:induction false} DistinctMultiplicity(xs: seq<seq<byte>>, x: seq<byte>)
    requires Distinct(xs)
    ensures multiset(xs)[x] == if x in xs then 1 else 0
    decreases |xs|
  {
    if xs != [] {
      assert xs == [xs[0]] + xs[1..];
      DistinctMultiplicity(xs[1..], x);
    }
  }

  /** Sorting any duplicate-free listing of a key set, whatever order it comes
      in, yields the ascending listing of that set. */
  lemma SortEnumeration(visit: seq<seq<byte>>, ks: set<seq<byte>>)
    requires Distinct(visit)
    requires forall k :: k in visit <==> k in ks
    ensures Sort(visit) == SortedKeys(ks)
  {
    var sk := SortedKeys(ks);
    assert Distinct(sk);
    forall x
      ensures multiset(visit)[x] == multiset(sk)[x]
    {
      DistinctMultiplicity(visit, x);
      DistinctMultiplicity(sk, x);
    }
    assert multiset(visit) == multiset(sk);
    assert Sorted(sk);
    SortedUnique(Sort(visit), sk);
  }
}

=== FILE: loose_download.dfy ===
/** `Download` of pkg/mybittorrent/torrent/protocol.go, the earlier variant
    of the piece download. It sizes the piece and plans its blocks as
    pkg/bittorrent/protocol.go does, but looks up the piece hash before any
    Request is sent, copies each block at the offset the peer echoes without
    comparing it (or the echoed index) with the request, and computes the
    SHA-1 of the piece without comparing it with the listed hash. */
module LooseDownload {
  import opened Bytes
  import opened Results
  import opened Wire
  import opened PiecePlan
  import opened Download
  import Hex
  import Metafile

  /** The block loop: send the next Request, read one Piece reply and copy its
      block at the offset the reply names. The first error ends the loop. */
  function FetchLoose(plan: seq<Request>, buf: seq<byte>, inbound: seq<byte>): (r: Fetched)
    ensures |r.sent| <= |plan| && r.sent == plan[..|r.sent|]
    ensures plan != [] ==> r.sent != []
    ensures r.result.Ok? ==> r.sent == plan && |r.result.value.0| == |buf|
    ensures r.result.Err? ==> r.result.error.Reply? || r.result.error.BeginPastEnd?
    decreases |plan|
  {
    if plan == [] then Fetched([], Ok((buf, inbound)))
    else
      var q := plan[0];
      match ReceivePiece(inbound)
      case Err(e) => Fetched([q], Err(Reply(e)))
      case Ok((m, rest)) =>
        if m.offset > |buf| then Fetched([q], Err(BeginPastEnd(m.offset, |buf|)))
        else
          var next := FetchLoose(plan[1..], Copy(buf, m.offset, m.block), rest);
          PrefixCons(plan, next.sent);
          Fetched([q] + next.sent, next.result)
  }

  /** `Download`: the effective piece size, the hash lookup, the zeroed buffer,
      then the block loop. Whatever the loop leaves in the buffer is returned.
      An index outside the hash list, negative ones included, fails at the
      lookup before any Request. */
  function LooseDownloadPiece(info: Metafile.Info, index: int, inbound: seq<byte>): (r: Fetched)
    ensures info.pieceLength == 0 ==> r == Fetched([], Err(ZeroPieceLength))
    ensures info.pieceLength != 0 && !(0 <= index < |info.pieces|) ==> r == Fetched([], Err(NoSuchPiece(index)))
    ensures info.pieceLength != 0 && 0 <= index < |info.pieces| && PieceSize(info.length, info.pieceLength, index) < 0 ==>
              r == Fetched([], Err(NegativePieceSize(PieceSize(info.length, info.pieceLength, index))))
    ensures r.result.Ok? ==>
      && info.pieceLength != 0
      && 0 <= index < |info.pieces|
      && |r.result.value.0| == PieceSize(info.length, info.pieceLength, index)
      && r.sent == Plan(index, |r.result.value.0|)
    ensures r.result.Err? ==>
      !r.result.error.HashMismatch? && !r.result.error.OffsetMismatch? && !r.result.error.IndexMismatch?
  {
    if info.pieceLength == 0 then Fetched([], Err(ZeroPieceLength))
    else
      var size := PieceSize(info.length, info.pieceLength, index);
      if !(0 <= index < |info.pieces|) then Fetched([], Err(NoSuchPiece(index)))
      else if size < 0 then Fetched([], Err(NegativePieceSize(size)))
      else FetchLoose(Plan(index, size), Zeros(size), inbound)
  }

  /** The two block loops part ways only where the strict one refuses an
      echoed offset or index: otherwise they send the same Requests and end
      alike. */
  lemma {:induction false} FetchAgrees(plan: seq<Request>, buf: seq<byte>, inbound: seq<byte>)
    ensures var s := Fetch(plan, buf, inbound);
            !(s.result.Err? && (s.result.error.OffsetMismatch? || s.result.error.IndexMismatch?)) ==>
              FetchLoose(plan, buf, inbound) == s
    decreases |plan|
  {
    if plan != [] {
      var q := plan[0];
      match ReceivePiece(inbound)
      case Err(e) =>
      case Ok((m, rest)) =>
        if Check(q, ReceivePiece(inbound)).Ok? && q.offset <= |buf| {
          FetchStep(plan, buf, inbound, m, rest);
          FetchAgrees(plan[1..], Copy(buf, q.offset, m.block), rest);
        }
    }
  }

  /** Every piece the strict download accepts, the loose one returns too,
      after the same Requests. */
  lemma StrictAcceptedIsLooseAccepted(info: Metafile.Info, index: int, sha1: Metafile.Sha1, inbound: seq<byte>)
    requires DownloadPiece(info, index, sha1, inbound).result.Ok?
    ensures LooseDownloadPiece(info, index, inbound) == DownloadPiece(info, index, sha1, inbound)
  {
    var size := PieceSize(info.length, info.pieceLength, index);
    FetchAgrees(Plan(index, size), Zeros(size), inbound);
  }

  /** A piece the strict download rejects for its hash is returned by the
      loose one as if nothing were wrong: the bytes whose SHA-1 differs from
      the listed hash. */
  lemma HashMismatchAccepted(info: Metafile.Info, index: int, sha1: Metafile.Sha1, inbound: seq<byte>)
    requires DownloadPiece(info, index, sha1, inbound).result.Err?
    requires DownloadPiece(info, index, sha1, inbound).result.error.HashMismatch?
    ensures var s := DownloadPiece(info, index, sha1, inbound);
            var l := LooseDownloadPiece(info, index, inbound);
            && l.result.Ok? && l.sent == s.sent
            && Hex.Encode(sha1(l.result.value.0)) == s.result.error.actual
            && s.result.error.actual != s.result.error.expected
  {
    var size := PieceSize(info.length, info.pieceLength, index);
    FetchAgrees(Plan(index, size), Zeros(size), inbound);
  }

  /** For a piece index outside the hash list, the loose download fails
      before sending anything, while the strict one requests every block
      first. */
  lemma MissingHashBeforeRequests(info: Metafile.Info, index: int, sha1: Metafile.Sha1, inbound: seq<byte>)
    requires info.pieceLength != 0 && !(0 <= index < |info.pieces|)
    requires PieceSize(info.length, info.pieceLength, index) > 0
    ensures LooseDownloadPiece(info, index, inbound).sent == []
    ensures DownloadPiece(info, index, sha1, inbound).sent != []
  {
  }

  /** One honest answer is read back and copied at the offset it names. */
  lemma LooseStep(plan: seq<Request>, buf: seq<byte>, content: seq<byte>, from: nat, echo: uint32, rest: seq<byte>)
    requires plan != [] && plan[0].offset == from
    requires |buf| == |content| && from + plan[0].length <= |content|
    requires Inside(plan, |content|) && |content| + 9 < UINT32_LIMIT
    ensures Inside(plan[1..], |content|)
    ensures var next := FetchLoose(plan[1..], Copy(buf, from, content[from..from + plan[0].length]), Serve(plan[1..], content, echo) + rest);
            FetchLoose(plan, buf, Serve(plan, content, echo) + rest) == Fetched([plan[0]] + next.sent, next.result)
  {
    ServeFirst(plan, content, echo, rest);
    FetchLooseStep(plan, buf, Serve(plan, content, echo) + rest, echo, content[from..from + plan[0].length],
                   Serve(plan[1..], content, echo) + rest);
  }

  /** A reply naming an offset inside the buffer is copied there and the loop
      goes on, whatever index it echoes. */
  lemma FetchLooseStep(plan: seq<Request>, buf: seq<byte>, inbound: seq<byte>, echo: uint32, block: seq<byte>, rest: seq<byte>)
    requires plan != [] && plan[0].offset <= |buf|
    requires ReceivePiece(inbound) == Ok((PieceMessage(echo, plan[0].offset, block), rest))
    ensures var next := FetchLoose(plan[1..], Copy(buf, plan[0].offset, block), rest);
            FetchLoose(plan, buf, inbound) == Fetched([plan[0]] + next.sent, next.result)
  {
  }

  /** A peer that sends the right bytes fills the buffer with them, whatever
      piece index it echoes. */
  lemma {:induction false} FetchLooseHonest(plan: seq<Request>, buf: seq<byte>, content: seq<byte>, from: nat,
                                            echo: uint32, rest: seq<byte>)
    requires from <= |content| && |buf| == |content| && buf[..from] == content[..from]
    requires Tiles(plan, from, |content|)
    requires |content| + 9 < UINT32_LIMIT
    ensures Inside(plan, |content|)
    ensures FetchLoose(plan, buf, Serve(plan, content, echo) + rest) == Fetched(plan, Ok((content, rest)))
    decreases |plan|
  {
    TilesRequested(plan, from, |content|);
    if plan == [] {
      assert buf == buf[..from] == content[..from] == content;
      assert Serve([], content, echo) + rest == rest;
    } else {
      var len := plan[0].length;
      CopyExtends(buf, content, from, len);
      FetchLooseHonest(plan[1..], Copy(buf, from, content[from..from + len]), content, from + len, echo, rest);
      LooseStep(plan, buf, content, from, echo, rest);
      assert [plan[0]] + plan[1..] == plan;
    }
  }

  /** A peer answering with the right bytes but another piece's index: the
      strict download refuses the first block, the loose one returns the
      piece. */
  lemma ForeignIndexAccepted(info: Metafile.Info, index: int, sha1: Metafile.Sha1, content: seq<byte>,
                             echo: uint32, rest: seq<byte>)
    requires info.pieceLength != 0 && 0 <= index < |info.pieces|
    requires |content| == PieceSize(info.length, info.pieceLength, index)
    requires 0 < |content| && |content| + 9 < UINT32_LIMIT
    requires echo != ToUint32(index)
    ensures Inside(Plan(index, |content|), |content|)
    ensures var inbound := Serve(Plan(index, |content|), content, echo) + rest;
            && LooseDownloadPiece(info, index, inbound) == Fetched(Plan(index, |content|), Ok((content, rest)))
            && DownloadPiece(info, index, sha1, inbound).result == Err(IndexMismatch(ToUint32(index), echo))
  {
    PlanCoversPiece(index, |content|);
    FetchLooseHonest(Plan(index, |content|), Zeros(|content|), content, 0, echo, rest);
    ForeignIndexRefused(info, index, sha1, content, echo, rest);
  }
}

=== FILE: metafile.dfy ===
/** Metainfo interpretation of pkg/bittorrent/metafile.go: the checks that
    turn a decoded torrent file into its announce URL, file name, lengths and
    per-piece SHA-1 hashes, and the info-hash. */
module Metafile {
  import opened Bytes
  import opened Results
  import opened Bencode
  import opened Decoder
  import Encoder
  import Hex

  /** A SHA-1 digest. */
  type Digest = d: seq<byte> | |d| == 20 witness Zeros(20)

  /** SHA-1 itself is not modelled; every operation that hashes takes it as a
      parameter. */
  type Sha1 = seq<byte> -> Digest


  const ANNOUNCE: Key := [97, 110, 110, 111, 117, 110, 99, 101]          // "announce"
  const INFO: Key := [105, 110, 102, 111]                                 // "info"
  const NAME: Key := [110, 97, 109, 101]                                  // "name"
  const LENGTH: Key := [108, 101, 110, 103, 116, 104]                     // "length"
  const PIECE_LENGTH: Key := [112, 105, 101, 99, 101, 32] + LENGTH        // "piece length"
  const PIECES: Key := [112, 105, 101, 99, 101, 115]                      // "pieces"

  datatype Info = Info(name: seq<byte>, length: int, pieceLength: int, pieces: seq<seq<byte>>)

  /** `MetaInfoFile`: the decoded dictionary itself, and the fields read from it. */
  datatype MetaInfo = MetaInfo(raw: map<Key, BValue>, announce: seq<byte>, info: Info)

  datatype MetaError =
    | DecodeFailed(cause: DecodeError)  // the decoder's error, returned as is
    | NotADict                          // "metafile not a dict"
    | PiecesNotMultipleOf20             // printed, then os.Exit(1)
    | MissingField(field: Key)          // a type assertion on an absent or mistyped entry panics
    | BadAnnounce(announce: seq<byte>)  // url.Parse refused the announce URL

  /** The `pieces` string, when the file has one where the parser looks for it. */
  predicate HasPieces(v: BValue) {
    v.Dict? && HasDict(v.entries, INFO) && HasStr(v.entries[INFO].entries, PIECES)
  }

  function RawPieces(v: BValue): seq<byte>
    requires HasPieces(v)
  {
    v.entries[INFO].entries[PIECES].bytes
  }

  /** Every entry the parser reads is present with the type it asserts. */
  predicate HasFields(v: BValue) {
    && HasPieces(v)
    && HasStr(v.entries, ANNOUNCE)
    && HasStr(v.entries[INFO].entries, NAME)
    && HasInt(v.entries[INFO].entries, LENGTH)
    && HasInt(v.entries[INFO].entries, PIECE_LENGTH)
  }

  /** The piece-splitting loop: `buf.Next(20)` until the buffer is empty, each
      chunk hex-encoded, in input order. A final short chunk is taken whole, as
      `Next` does; the callers reject such input beforehand. */
  function SplitPieces(raw: seq<byte>): (r: seq<seq<byte>>)
    ensures |raw| % 20 == 0 ==> |r| == |raw| / 20
    ensures forall i :: 0 <= i < |r| ==> Hex.IsHex(r[i]) && 0 < |r[i]| <= 40
    decreases |raw|
  {
    if raw == [] then []
    else
      var n := if |raw| < 20 then |raw| else 20;
      Hex.DecodeEncode(raw[..n]);
      [Hex.Encode(raw[..n])] + SplitPieces(raw[n..])
  }

  /** When the `pieces` length is a multiple of 20, entry i is the hex of bytes
      [20i, 20i+20): the hash of piece i stays at index i. */
  lemma {:induction false} SplitPiecesInOrder(raw: seq<byte>)
    requires |raw| % 20 == 0
    ensures |SplitPieces(raw)| == |raw| / 20
    ensures forall i :: 0 <= i < |raw| / 20 ==> SplitPieces(raw)[i] == Hex.Encode(raw[20 * i..20 * i + 20])
    decreases |raw|
  {
    if raw != [] {
      var r, tail := SplitPieces(raw), SplitPieces(raw[20..]);
      SplitPiecesInOrder(raw[20..]);
      assert r == [Hex.Encode(raw[..20])] + tail;
      forall i | 1 <= i < |raw| / 20
        ensures r[i] == Hex.Encode(raw[20 * i..20 * i + 20])
      {
        assert r[i] == tail[i - 1];
        assert raw[20..][20 * (i - 1)..20 * (i - 1) + 20] == raw[20 * i..20 * i + 20];
      }
    }
  }

  /** The bytes the hex pieces stand for, concatenated in order. */
  function JoinPieces(pieces: seq<seq<byte>>): seq<byte>
    requires forall i :: 0 <= i < |pieces| ==> Hex.IsHex(pieces[i])
  {
    if pieces == [] then [] else Hex.Decode(pieces[0]) + JoinPieces(pieces[1..])
  }

  /** No byte of the `pieces` string is lost, duplicated or moved by splitting. */
  lemma {:induction false} JoinSplitPieces(raw: seq<byte>)
    ensures JoinPieces(SplitPieces(raw)) == raw
    decreases |raw|
  {
    if raw != [] {
      var n := if |raw| < 20 then |raw| else 20;
      Hex.DecodeEncode(raw[..n]);
      JoinSplitPieces(raw[n..]);
      assert SplitPieces(raw)[1..] == SplitPieces(raw[n..]);
      assert raw == raw[..n] + raw[n..];
    }
  }

  /** `ParseMetaInfoFile` from the decoded value on: the dictionary check, the
      `info` and `pieces` assertions, the multiple-of-20 check, splitting in
      order, then the announce, name, length and piece length assertions. */
  function Interpret(v: BValue): (r: Result<MetaInfo, MetaError>)
    ensures !v.Dict? ==> r == Err(NotADict)
    ensures v.Dict? && !HasDict(v.entries, INFO) ==> r == Err(MissingField(INFO))
    ensures HasPieces(v) && |RawPieces(v)| % 20 != 0 ==> r == Err(PiecesNotMultipleOf20)
    ensures r.Ok? <==> HasFields(v) && |RawPieces(v)| % 20 == 0
    ensures r.Ok? ==>
      var info := v.entries[INFO].entries;
      && r.value.raw == v.entries
      && r.value.announce == v.entries[ANNOUNCE].bytes
      && r.value.info.name == info[NAME].bytes
      && r.value.info.length == info[LENGTH].n
      && r.value.info.pieceLength == info[PIECE_LENGTH].n
      && |r.value.info.pieces| == |RawPieces(v)| / 20
      && (forall i :: 0 <= i < |r.value.info.pieces| ==>
            r.value.info.pieces[i] == Hex.Encode(RawPieces(v)[20 * i..20 * i + 20]))
  {
    if !v.Dict? then Err(NotADict)
    else
      var meta := v.entries;
      if !HasDict(meta, INFO) then Err(MissingField(INFO))
      else
        var info := meta[INFO].entries;
        if !HasStr(info, PIECES) then Err(MissingField(PIECES))
        else
          var pieces := info[PIECES].bytes;
          if |pieces| % 20 != 0 then Err(PiecesNotMultipleOf20)
          else
            var hashes := SplitPieces(pieces);
            SplitPiecesInOrder(pieces);
            if !HasStr(meta, ANNOUNCE) then Err(MissingField(ANNOUNCE))
            else if !HasStr(info, NAME) then Err(MissingField(NAME))
            else if !HasInt(info, LENGTH) then Err(MissingField(LENGTH))
            else if !HasInt(info, PIECE_LENGTH) then Err(MissingField(PIECE_LENGTH))
            else Ok(MetaInfo(meta, meta[ANNOUNCE].bytes,
                             Info(info[NAME].bytes, info[LENGTH].n, info[PIECE_LENGTH].n, hashes)))
  }

  /** `ParseMetaInfoFile` from the file's bytes on: decoding errors are
      returned unchanged. */
  function ParseMetaInfoFile(content: seq<byte>): (r: Result<MetaInfo, MetaError>)
    ensures Decode(content).Err? ==> r == Err(DecodeFailed(Decode(content).error))
    ensures Decode(content).Ok? ==> r == Interpret(Decode(content).value)
    ensures r.Ok? ==> WellFormed(Dict(r.value.raw)) && HasDict(r.value.raw, INFO)
  {
    match Decode(content)
    case Err(e) => Err(DecodeFailed(e))
    case Ok(v) => Interpret(v)
  }

  /** The `info` entry of a parsed file as `HashInfo` encodes it: the
      canonical encoding, which the decoder reads back as that very entry. */
  function InfoBytes(m: MetaInfo): (r: seq<byte>)
    requires HasDict(m.raw, INFO) && WellFormed(m.raw[INFO])
    ensures Decode(r) == Ok(m.raw[INFO])
    ensures DecodeValue(r) == Ok((m.raw[INFO], []))
  {
    Encoder.RoundTrip(m.raw[INFO]);
    Encoder.Encode(m.raw[INFO])
  }

  /** `HashInfo`: the 20-byte SHA-1 of the encoded `info` entry. */
  function HashInfo(m: MetaInfo, sha1: Sha1): (r: Digest)
    requires HasDict(m.raw, INFO) && WellFormed(m.raw[INFO])
  {
    sha1(InfoBytes(m))
  }

  /** Two files whose `info` entries are equal share their info-hash, whatever
      else they hold: the announce URL and any other top-level entry play no part.
      This holds because `HashInfo` is defined from `m.raw[INFO]` alone; the
      lemma records the promise rather than proving anything deep. */
  lemma HashInfoOnlyReadsInfo(a: MetaInfo, b: MetaInfo, sha1: Sha1)
    requires HasDict(a.raw, INFO) && WellFormed(a.raw[INFO])
    requires HasDict(b.raw, INFO) && WellFormed(b.raw[INFO])
    requires a.raw[INFO] == b.raw[INFO]
    ensures HashInfo(a, sha1) == HashInfo(b, sha1)
    ensures |HashInfo(a, sha1)| == 20
  {
  }

  /** The info-hash of a parsed file is a function of the decoded `info`
      dictionary alone: two torrent files that decode to the same `info`
      dictionary have the same info-hash, even when their bytes differ (in key
      order or in leading zeros, say). Like the lemma above, it follows from
      `HashInfo` reading nothing but the `info` entry. */
  lemma SameInfoSameHash(a: seq<byte>, b: seq<byte>, sha1: Sha1)
    requires ParseMetaInfoFile(a).Ok? && ParseMetaInfoFile(b).Ok?
    requires Decode(a).value.entries[INFO] == Decode(b).value.entries[INFO]
    ensures HashInfo(ParseMetaInfoFile(a).value, sha1) == HashInfo(ParseMetaInfoFile(b).value, sha1)
  {
  }
}

=== FILE: piece_plan.dfy ===
/** How `DownloadPiece` (pkg/bittorrent/protocol.go) and `Download`
    (pkg/mybittorrent/torrent/protocol.go) size a piece and cut it into
    Request messages of at most 16 KiB. */
module PiecePlan {
  import opened Bytes
  import opened Wire

  const BLOCK_SIZE: nat := 16384

  function Abs(a: int): nat {
    if a < 0 then -a else a
  }

  /** Go's `/` on `int`, which truncates toward zero (Dafny's rounds toward
      negative infinity for a positive divisor). */
  function GoDiv(a: int, b: int): (q: int)
    requires b != 0
    ensures Abs(a - b * q) < Abs(b)
    ensures a - b * q == 0 || (a - b * q > 0 <==> a > 0)
  {
    var m := Abs(a) / Abs(b);
    var q := if (a < 0) == (b < 0) then m else -m;
    TruncatedRemainder(a, b, m, q);
    q
  }

  lemma TruncatedRemainder(a: int, b: int, m: nat, q: int)
    requires b != 0 && m == Abs(a) / Abs(b)
    requires q == if (a < 0) == (b < 0) then m as int else -(m as int)
    ensures a - b * q == (if a < 0 then -(Abs(a) % Abs(b)) else Abs(a) % Abs(b))
  {
    var x, y := Abs(a), Abs(b);
    var p := y * m;
    assert x == p + x % y;
    MulNeg(y, m);
    assert b * q == (if a < 0 then -p else p);
  }

  lemma MulNeg(y: int, m: int)
    ensures (-y) * m == -(y * m) && y * (-m) == -(y * m) && (-y) * (-m) == y * m
  {
  }

  /** The effective piece length: `PieceLength`, except for an index at or past
      `Length / PieceLength`, which gets what is left of the file (zero or
      negative when the index lies past the end). A negative index is never
      at or past that quotient, so it gets the full piece length. */
  function PieceSize(length: int, pieceLength: int, index: int): (r: int)
    requires pieceLength != 0
    ensures 0 < pieceLength && 0 <= length ==> r == CappedRest(length, pieceLength, index)
  {
    var r := if index >= GoDiv(length, pieceLength) then length - pieceLength * index else pieceLength;
    PieceSizeIsCappedRest(length, pieceLength, index);
    r
  }

  /** The bytes of the file from where piece `index` starts, but at most one
      piece length. */
  function CappedRest(length: int, pieceLength: int, index: int): int {
    var rest := length - pieceLength * index;
    if rest < pieceLength then rest else pieceLength
  }

  lemma PieceSizeIsCappedRest(length: int, pieceLength: int, index: int)
    ensures 0 < pieceLength && 0 <= length ==>
              (if index >= GoDiv(length, pieceLength) then length - pieceLength * index else pieceLength)
                == CappedRest(length, pieceLength, index)
  {
    if 0 < pieceLength && 0 <= length {
      PieceSizeCases(length, pieceLength, index);
    }
  }

  lemma PieceSizeCases(length: int, pieceLength: int, index: int)
    requires 0 < pieceLength && 0 <= length
    ensures (if index >= GoDiv(length, pieceLength) then length - pieceLength * index else pieceLength)
              == CappedRest(length, pieceLength, index)
  {
    var q := length / pieceLength;
    assert GoDiv(length, pieceLength) == q;
    assert pieceLength * q + length % pieceLength == length;
    if index < q {
      MulLe(pieceLength, index + 1, q);
    } else if index > q {
      MulLe(pieceLength, q + 1, index);
    }
  }

  lemma MulLe(p: nat, x: int, y: int)
    requires x <= y
    ensures p * x <= p * y
  {
    assert p * y - p * x == p * (y - x);
  }

  /** The number of pieces a file of `length` bytes has: ceil(length/pieceLength). */
  function PieceCount(length: nat, pieceLength: nat): (n: nat)
    requires pieceLength > 0
    ensures pieceLength * n >= length
    ensures n > 0 ==> pieceLength * (n - 1) < length
  {
    if length % pieceLength == 0 then length / pieceLength else length / pieceLength + 1
  }

  /** For a non-negative length and a positive piece length, every piece but
      the last is full, the last holds the remainder, and an index past the
      last gets a size of zero or less. */
  lemma PieceSizeBounds(length: nat, pieceLength: nat, index: int)
    requires pieceLength > 0
    ensures index < length / pieceLength ==> PieceSize(length, pieceLength, index) == pieceLength
    ensures index < PieceCount(length, pieceLength) ==> 0 < PieceSize(length, pieceLength, index) <= pieceLength
    ensures index == PieceCount(length, pieceLength) - 1 ==>
              PieceSize(length, pieceLength, index) == length - pieceLength * index
    ensures index >= PieceCount(length, pieceLength) ==> PieceSize(length, pieceLength, index) <= 0
  {
    var n := PieceCount(length, pieceLength);
    assert GoDiv(length, pieceLength) == length / pieceLength;
    if index >= n {
      assert pieceLength * index >= pieceLength * n by {
        assert pieceLength * (index - n) >= 0;
      }
    } else if index >= length / pieceLength {
      assert pieceLength * (length / pieceLength) + length % pieceLength == length;
      assert index == length / pieceLength;
    }
  }

  /** The total size of pieces [0, n). */
  function TotalSize(length: int, pieceLength: int, n: nat): int
    requires pieceLength != 0
  {
    if n == 0 then 0 else TotalSize(length, pieceLength, n - 1) + PieceSize(length, pieceLength, n - 1)
  }

  lemma {:induction false} FullPiecesSize(length: nat, pieceLength: nat, n: nat)
    requires pieceLength > 0 && n <= length / pieceLength
    ensures TotalSize(length, pieceLength, n) == pieceLength * n
  {
    if n > 0 {
      FullPiecesSize(length, pieceLength, n - 1);
      PieceSizeBounds(length, pieceLength, n - 1);
      assert pieceLength * (n - 1) + pieceLength == pieceLength * n;
    }
  }

  /** The piece sizes of a file add up to its length. */
  lemma PieceSizesSum(length: nat, pieceLength: nat)
    requires pieceLength > 0
    ensures TotalSize(length, pieceLength, PieceCount(length, pieceLength)) == length
  {
    var n := PieceCount(length, pieceLength);
    FullPiecesSize(length, pieceLength, length / pieceLength);
    if n != length / pieceLength {
      PieceSizeBounds(length, pieceLength, n - 1);
    }
  }

  /** ceil(size / 16384) blocks. */
  function BlockCount(size: nat): (n: nat)
    ensures BLOCK_SIZE * n >= size
    ensures n > 0 ==> BLOCK_SIZE * (n - 1) < size
    ensures n == 0 <==> size == 0
  {
    if size % BLOCK_SIZE == 0 then size / BLOCK_SIZE else size / BLOCK_SIZE + 1
  }

  /** The size of the last block: the remainder, or a whole block when the
      division is exact. */
  function LastBlockSize(size: nat): (r: nat)
    ensures 0 < r <= BLOCK_SIZE
    ensures size > 0 ==> r == size - BLOCK_SIZE * (BlockCount(size) - 1)
  {
    if size % BLOCK_SIZE == 0 then BLOCK_SIZE else size % BLOCK_SIZE
  }

  function BlockLength(size: nat, i: nat): nat
    requires i < BlockCount(size)
  {
    if i == BlockCount(size) - 1 then LastBlockSize(size) else BLOCK_SIZE
  }

  /** The Request messages for piece `index` of `size` bytes, in the order they
      are sent: block i asks for the bytes at 16384·i, each field truncated to
      32 bits by the Go conversion. */
  function Plan(index: int, size: nat): (r: seq<Request>)
    ensures |r| == BlockCount(size)
    ensures forall i :: 0 <= i < |r| ==>
      && r[i].index == ToUint32(index)
      && r[i].offset == ToUint32(BLOCK_SIZE * i)
      && r[i].offset <= size
      && 0 < r[i].length <= BLOCK_SIZE
  {
    seq(BlockCount(size), (i: nat) requires i < BlockCount(size) =>
      Request(ToUint32(index), ToUint32(BLOCK_SIZE * i), BlockLength(size, i)))
  }

  /** The requests ask for consecutive, non-empty ranges covering [from, to). */
  predicate Tiles(plan: seq<Request>, from: int, to: int)
    decreases |plan|
  {
    if plan == [] then from == to
    else plan[0].offset == from && plan[0].length > 0 && Tiles(plan[1..], from + plan[0].length, to)
  }

  /** The sizes asked for. */
  function Requested(plan: seq<Request>): nat
  {
    if plan == [] then 0 else plan[0].length + Requested(plan[1..])
  }

  lemma {:induction false} TilesRequested(plan: seq<Request>, from: int, to: int)
    requires Tiles(plan, from, to)
    ensures Requested(plan) == to - from
    ensures forall i :: 0 <= i < |plan| ==> from <= plan[i].offset && plan[i].offset + plan[i].length <= to
    decreases |plan|
  {
    if plan != [] {
      TilesRequested(plan[1..], from + plan[0].length, to);
      forall i | 1 <= i < |plan|
        ensures from <= plan[i].offset && plan[i].offset + plan[i].length <= to
      {
        assert plan[i] == plan[1..][i - 1];
      }
    }
  }

  lemma {:induction false} PlanTilesFrom(index: int, size: nat, k: nat)
    requires size < UINT32_LIMIT && k < BlockCount(size)
    ensures Tiles(Plan(index, size)[k..], BLOCK_SIZE * k, size)
    decreases BlockCount(size) - k
  {
    var plan := Plan(index, size);
    assert plan[k..][0] == plan[k];
    if k == BlockCount(size) - 1 {
      assert plan[k..][1..] == [];
    } else {
      assert plan[k..][1..] == plan[k + 1..];
      PlanTilesFrom(index, size, k + 1);
    }
  }

  /** For a piece under 4 GiB the blocks follow one another from offset 0 to
      the end of the piece, so their sizes add up to the piece size. */
  lemma PlanCoversPiece(index: int, size: nat)
    requires size < UINT32_LIMIT
    ensures Tiles(Plan(index, size), 0, size)
    ensures Requested(Plan(index, size)) == size
  {
    if size > 0 {
      PlanTilesFrom(index, size, 0);
      assert Plan(index, size)[0..] == Plan(index, size);
    }
    TilesRequested(Plan(index, size), 0, size);
  }

  lemma PlanExamples(index: nat)
    requires index < UINT32_LIMIT
    ensures Plan(index, 32768) == [Request(index, 0, 16384), Request(index, 16384, 16384)]
    ensures Plan(index, 20000) == [Request(index, 0, 16384), Request(index, 16384, 3616)]
    ensures Plan(index, 0) == []
  {
  }
}

=== FILE: results.dfy ===
/** Success-or-error values. Go functions in this client return `(value, error)`;
    the model returns exactly one of the two. */
module Results {

  datatype Option<+T> = None | Some(value: T)

  datatype Result<+T, +E> = Ok(value: T) | Err(error: E) {

    predicate IsFailure() {
      Err?
    }

    function PropagateFailure<U>(): Result<U, E>
      requires Err?
    {
      Err(error)
    }

    function Extract(): T
      requires Ok?
    {
      value
    }
  }
}

=== FILE: sorted_metafile.dfy ===
/** Metainfo interpretation of pkg/mybittorrent/metafile.go: the same checks
    and splitting as pkg/bittorrent/metafile.go, followed by `sort.Sort` of the
    hex piece hashes. */
module SortedMetafile {
  import opened Bytes
  import opened Results
  import opened Bencode
  import opened Decoder
  import opened Lex
  import Hex
  import Metafile

  /** `ParseMetaInfoFile` from the decoded value on: every check, and every
      error, as in the order-preserving parser; the pieces come out in
      ascending order. */
  function Interpret(v: BValue): (r: Result<Metafile.MetaInfo, Metafile.MetaError>)
    ensures r.Ok? <==> Metafile.Interpret(v).Ok?
    ensures r.Err? ==> r.error == Metafile.Interpret(v).error
    ensures r.Ok? ==>
      var kept := Metafile.Interpret(v).value;
      && r.value.raw == kept.raw
      && r.value.announce == kept.announce
      && r.value.info.name == kept.info.name
      && r.value.info.length == kept.info.length
      && r.value.info.pieceLength == kept.info.pieceLength
      && |r.value.info.pieces| == |kept.info.pieces|
      && Sorted(r.value.info.pieces)
      && multiset(r.value.info.pieces) == multiset(kept.info.pieces)
  {
    match Metafile.Interpret(v)
    case Err(e) => Err(e)
    case Ok(m) => Ok(WithSortedPieces(m))
  }

  /** `sort.Sort(sort.StringSlice(piecesHashes))`. */
  function WithSortedPieces(m: Metafile.MetaInfo): (r: Metafile.MetaInfo)
    ensures r.raw == m.raw && r.announce == m.announce
    ensures r.info.name == m.info.name && r.info.length == m.info.length
    ensures r.info.pieceLength == m.info.pieceLength
    ensures |r.info.pieces| == |m.info.pieces|
    ensures Sorted(r.info.pieces) && multiset(r.info.pieces) == multiset(m.info.pieces)
  {
    var sorted := Sort(m.info.pieces);
    assert |sorted| == |multiset(sorted)| == |multiset(m.info.pieces)| == |m.info.pieces|;
    m.(info := m.info.(pieces := sorted))
  }

  function ParseMetaInfoFile(content: seq<byte>): (r: Result<Metafile.MetaInfo, Metafile.MetaError>)
    ensures Decode(content).Err? ==> r == Err(Metafile.DecodeFailed(Decode(content).error))
    ensures Decode(content).Ok? ==> r == Interpret(Decode(content).value)
    ensures r.Ok? ==> WellFormed(Dict(r.value.raw)) && HasDict(r.value.raw, Metafile.INFO)
  {
    match Decode(content)
    case Err(e) => Err(Metafile.DecodeFailed(e))
    case Ok(v) => Interpret(v)
  }

  /** Sorting changes nothing when the hashes already come in ascending order. */
  lemma SortedInputUnchanged(v: BValue)
    requires Metafile.Interpret(v).Ok? && Sorted(Metafile.Interpret(v).value.info.pieces)
    ensures Interpret(v) == Metafile.Interpret(v)
  {
    var kept := Metafile.Interpret(v).value;
    SortedUnique(Sort(kept.info.pieces), kept.info.pieces);
  }

  lemma SortTwo(a: seq<byte>, b: seq<byte>)
    requires Le(b, a)
    ensures Sort([a, b]) == [b, a]
  {
    assert Sorted([b, a]) by {
      assert Le([b, a][0], [b, a][1]);
    }
    assert multiset([b, a]) == multiset([a, b]);
    SortedUnique(Sort([a, b]), [b, a]);
  }

  /** A two-piece torrent whose second piece hash starts with a smaller hex
      digit than the first (say `pieces` = twenty 0xff bytes, then twenty zero
      bytes): after sorting, the hash listed for piece 0 is not the hash of the
      first 20 bytes of `pieces`, so piece 0 would be checked against the hash
      of piece 1. The order-preserving parser lists it at index 0. */
  lemma SortingMisindexesPieces(v: BValue)
    requires Metafile.Interpret(v).Ok?
    requires |Metafile.RawPieces(v)| == 40
    requires Metafile.RawPieces(v)[20] / 16 < Metafile.RawPieces(v)[0] / 16
    ensures var first := Hex.Encode(Metafile.RawPieces(v)[0..20]);
            && Metafile.Interpret(v).value.info.pieces[0] == first
            && Interpret(v).value.info.pieces[0] != first
  {
    var raw := Metafile.RawPieces(v);
    var kept := Metafile.Interpret(v).value.info.pieces;
    var high, low := Hex.Encode(raw[0..20]), Hex.Encode(raw[20..40]);
    assert kept == [high, low];
    assert raw[20..40][0] == raw[20] && raw[0..20][0] == raw[0];
    assert low[0] < high[0];
    SortTwo(high, low);
  }
}

=== FILE: trackers.dfy ===
/** What `FetchTrackerInfo` (pkg/bittorrent/trackers.go and
    pkg/mybittorrent/trackers.go) makes of a decoded tracker response: the
    `failure reason` check, the compact peer list of BEP 23 (six bytes per
    peer: the IPv4 address, then the port in big-endian order) and the
    announce interval. The HTTP request itself is not modelled. */
module Trackers {
  import opened Bytes
  import opened Results
  import opened Bencode
  import Decimal
  import Decoder
  import Encoder

  const FAILURE_REASON: Key := [102, 97, 105, 108, 117, 114, 101, 32, 114, 101, 97, 115, 111, 110] // "failure reason"
  const PEERS: Key := [112, 101, 101, 114, 115]                  // "peers"
  const INTERVAL: Key := [105, 110, 116, 101, 114, 118, 97, 108] // "interval"

  /** The first twelve bytes of the 16-byte form `net.IPv4` returns. */
  const V4_PREFIX: seq<byte> := Zeros(10) + [255, 255]

  /** `Peer`: the address in Go's 16-byte form, and the port. */
  datatype Peer = Peer(ip: seq<byte>, port: uint16)

  /** `TrackerInfo`. */
  datatype TrackerInfo = TrackerInfo(interval: int, peers: seq<Peer>)

  datatype TrackerError =
    | DecodeFailed(cause: Decoder.DecodeError) // the decoder's error, returned as is
    | NotADict(decoded: BValue)                // "invalid tracker response"
    | Failure(reason: BValue)                  // the tracker sent a `failure reason`
    | MissingField(field: Key)                 // a type assertion on an absent or mistyped entry panics
    | PeersNotMultipleOf6                      // "peers not a multiple of 6 bytes"

  /** `net.IPv4(a, b, c, d)`. */
  function IPv4(a: seq<byte>): (r: seq<byte>)
    requires |a| == 4
    ensures |r| == 16 && r[..12] == V4_PREFIX && r[12..] == a
  {
    V4_PREFIX + a
  }

  /** One six-byte entry of the compact list. */
  function CompactPeer(entry: seq<byte>): (p: Peer)
    requires |entry| == 6
    ensures |p.ip| == 16 && p.ip[..12] == V4_PREFIX && p.ip[12..] == entry[..4]
    ensures BE16(p.port) == entry[4..]
  {
    ReadBE16RoundTrip(entry[4..]);
    Peer(IPv4(entry[..4]), ReadBE16(entry[4..]))
  }

  /** The loop over `buf.Next(6)`: one peer per six bytes, in order. */
  function ParsePeers(raw: seq<byte>): (r: seq<Peer>)
    requires |raw| % 6 == 0
    ensures |r| == |raw| / 6
    decreases |raw|
  {
    if raw == [] then [] else [CompactPeer(raw[..6])] + ParsePeers(raw[6..])
  }

  /** Peer i comes from bytes [6i, 6i+6): the address from the first four,
      the port from the last two. */
  lemma {:induction false} ParsePeersEntries(raw: seq<byte>)
    requires |raw| % 6 == 0
    ensures forall i :: 0 <= i < |raw| / 6 ==> 6 * i + 6 <= |raw| && ParsePeers(raw)[i] == CompactPeer(raw[6 * i..6 * i + 6])
    decreases |raw|
  {
    if raw != [] {
      ParsePeersEntries(raw[6..]);
      forall i | 0 <= i < |raw| / 6
        ensures 6 * i + 6 <= |raw| && ParsePeers(raw)[i] == CompactPeer(raw[6 * i..6 * i + 6])
      {
        if i > 0 {
          var j := i - 1;
          assert 6 * i == 6 * j + 6;
          assert raw[6..][6 * j..6 * j + 6] == raw[6 * i..6 * i + 6];
        }
      }
    }
  }

  /** A peer `net.IPv4` can produce. */
  predicate IsV4(p: Peer) {
    |p.ip| == 16 && p.ip[..12] == V4_PREFIX
  }

  /** The compact form of a peer list: the inverse of `ParsePeers`. */
  function Compact(peers: seq<Peer>): (r: seq<byte>)
    requires forall i :: 0 <= i < |peers| ==> IsV4(peers[i])
    ensures |r| == 6 * |peers|
  {
    if peers == [] then []
    else
      assert IsV4(peers[0]);
      assert forall i :: 0 <= i < |peers[1..]| ==> peers[1..][i] == peers[i + 1];
      peers[0].ip[12..] + BE16(peers[0].port) + Compact(peers[1..])
  }

  /** Parsing a compact list and writing it back gives the same bytes. */
  lemma {:induction false} CompactParsePeers(raw: seq<byte>)
    requires |raw| % 6 == 0
    ensures forall i :: 0 <= i < |ParsePeers(raw)| ==> IsV4(ParsePeers(raw)[i])
    ensures Compact(ParsePeers(raw)) == raw
    decreases |raw|
  {
    if raw != [] {
      CompactParsePeers(raw[6..]);
      var r := ParsePeers(raw);
      assert r[1..] == ParsePeers(raw[6..]);
      forall i | 0 <= i < |r| ensures IsV4(r[i]) {
        if i > 0 {
          assert r[i] == r[1..][i - 1];
        }
      }
      assert raw == raw[..6][..4] + raw[..6][4..] + raw[6..];
    }
  }

  /** Writing a list of IPv4 peers in compact form and parsing it gives the
      same peers back. */
  lemma {:induction false} ParseCompactPeers(peers: seq<Peer>)
    requires forall i :: 0 <= i < |peers| ==> IsV4(peers[i])
    ensures ParsePeers(Compact(peers)) == peers
    decreases |peers|
  {
    if peers != [] {
      var p := peers[0];
      var raw := Compact(peers);
      assert forall i :: 0 <= i < |peers[1..]| ==> peers[1..][i] == peers[i + 1];
      ParseCompactPeers(peers[1..]);
      assert raw[..6] == p.ip[12..] + BE16(p.port);
      assert raw[6..] == Compact(peers[1..]);
      assert raw[..6][..4] == p.ip[12..] && raw[..6][4..] == BE16(p.port);
      BE16RoundTrip(p.port);
      assert p.ip == p.ip[..12] + p.ip[12..];
      assert [p] + peers[1..] == peers;
    }
  }

  /** The interpretation of the decoded response, checks in the order the
      source makes them. */
  function Interpret(decoded: BValue): (r: Result<TrackerInfo, TrackerError>)
    ensures !decoded.Dict? ==> r == Err(NotADict(decoded))
    ensures decoded.Dict? && FAILURE_REASON in decoded.entries ==>
              r == Err(Failure(decoded.entries[FAILURE_REASON]))
    ensures r.Ok? <==>
      && decoded.Dict? && FAILURE_REASON !in decoded.entries
      && HasStr(decoded.entries, PEERS) && |decoded.entries[PEERS].bytes| % 6 == 0
      && HasInt(decoded.entries, INTERVAL)
    ensures r.Ok? ==>
      && r.value.interval == decoded.entries[INTERVAL].n
      && |r.value.peers| == |decoded.entries[PEERS].bytes| / 6
      && (forall i :: 0 <= i < |r.value.peers| ==> IsV4(r.value.peers[i]))
      && Compact(r.value.peers) == decoded.entries[PEERS].bytes
  {
    if !decoded.Dict? then Err(NotADict(decoded))
    else
      var response := decoded.entries;
      if FAILURE_REASON in response then Err(Failure(response[FAILURE_REASON]))
      else if !HasStr(response, PEERS) then Err(MissingField(PEERS))
      else
        var raw := response[PEERS].bytes;
        if |raw| % 6 != 0 then Err(PeersNotMultipleOf6)
        else
          var peers := ParsePeers(raw);
          CompactParsePeers(raw);
          if !HasInt(response, INTERVAL) then Err(MissingField(INTERVAL))
          else Ok(TrackerInfo(response[INTERVAL].n, peers))
  }

  /** The response body as pkg/mybittorrent/trackers.go reads it: decoded by
      the decoder of pkg/mybittorrent/decode.go, then interpreted. */
  function ParseResponse(body: seq<byte>): (r: Result<TrackerInfo, TrackerError>)
    ensures body == [] ==> r == Err(DecodeFailed(Decoder.EndOfInput))
    ensures Decoder.Decode(body).Err? ==> r == Err(DecodeFailed(Decoder.Decode(body).error))
    ensures r.Err? && r.error.DecodeFailed? ==> Decoder.Decode(body) == Err(r.error.cause)
    ensures r.Ok? ==>
      && Decoder.Decode(body).Ok? && Decoder.Decode(body).value.Dict?
      && var response := Decoder.Decode(body).value.entries;
         && FAILURE_REASON !in response
         && HasStr(response, PEERS) && HasInt(response, INTERVAL)
         && r.value.interval == response[INTERVAL].n
         && Decimal.InInt64(r.value.interval)
         && (forall i :: 0 <= i < |r.value.peers| ==> IsV4(r.value.peers[i]))
         && Compact(r.value.peers) == response[PEERS].bytes
  {
    match Decoder.Decode(body)
    case Err(e) => Err(DecodeFailed(e))
    case Ok(v) => Interpret(v)
  }

  /** A response a tracker writes with the canonical encoder is read as the
      interpretation of the dictionary it wrote. */
  lemma EncodedResponseParses(m: map<Key, BValue>)
    requires WellFormed(Dict(m))
    ensures ParseResponse(Encoder.Encode(Dict(m))) == Interpret(Dict(m))
  {
    Encoder.RoundTrip(Dict(m));
  }

  /** The dictionary a tracker sends for `t`: the interval and the compact
      peer list. */
  function Response(t: TrackerInfo): BValue
    requires forall i :: 0 <= i < |t.peers| ==> IsV4(t.peers[i])
  {
    Dict(map[INTERVAL := Int(t.interval), PEERS := Str(Compact(t.peers))])
  }

  /** Every tracker answer with a 64-bit interval and IPv4 peers, encoded and
      then parsed, gives the same interval and peers back. */
  lemma ParseEncodedResponse(t: TrackerInfo)
    requires Decimal.InInt64(t.interval) && 6 * |t.peers| <= Decimal.MAX_INT64
    requires forall i :: 0 <= i < |t.peers| ==> IsV4(t.peers[i])
    ensures ParseResponse(Encoder.Encode(Response(t))) == Ok(t)
  {
    var m := map[INTERVAL := Int(t.interval), PEERS := Str(Compact(t.peers))];
    assert FAILURE_REASON !in m;
    EncodedResponseParses(m);
    ParseCompactPeers(t.peers);
  }

  /** Each peer of an accepted response is entry i of the compact list. */
  lemma PeersOfResponse(decoded: BValue)
    requires Interpret(decoded).Ok?
    ensures var peers := Interpret(decoded).value.peers;
            var raw := decoded.entries[PEERS].bytes;
            forall i :: 0 <= i < |peers| ==>
              6 * i + 6 <= |raw| && IsV4(peers[i]) && peers[i].ip[12..] == raw[6 * i..6 * i + 4]
              && peers[i].port == ReadBE16(raw[6 * i + 4..6 * i + 6])
  {
    var raw := decoded.entries[PEERS].bytes;
    ParsePeersEntries(raw);
    forall i | 0 <= i < |raw| / 6
      ensures ParsePeers(raw)[i].ip[12..] == raw[6 * i..6 * i + 4]
      ensures ParsePeers(raw)[i].port == ReadBE16(raw[6 * i + 4..6 * i + 6])
    {
      var e := raw[6 * i..6 * i + 6];
      assert e[..4] == raw[6 * i..6 * i + 4];
      assert e[4..] == raw[6 * i + 4..6 * i + 6];
      BE16RoundTrip(ParsePeers(raw)[i].port);
    }
  }
}

=== FILE: wire.dfy ===
/** Peer-wire framing of pkg/bittorrent/protocol.go (the same code appears in
    pkg/mybittorrent/torrent/protocol.go): `Send` writes a length-prefixed
    message, `Receive` reads one from the inbound byte stream, plus the
    Request payload and the Piece reply. Network reads are modelled as taking
    bytes off the front of the stream the peer sends. */
module Wire {
  import opened Bytes
  import opened Results

  const UNCHOKE: byte := 1
  const INTERESTED: byte := 2
  const BITFIELD: byte := 5
  const REQUEST: byte := 6
  const PIECE: byte := 7

  /** `Payload`: the length prefix as read, the message id and the bytes after it. */
  datatype Payload = Payload(len: uint32, id: byte, data: seq<byte>)

  datatype WireError =
    | ShortLength                        // "binary read length"
    | ShortMessageId                     // "binary read message id"
    | ShortPayload(wanted: nat, got: nat) // "ReadFull err": the stream ended inside the payload

  /** `Send`: the bytes written for one message, a big-endian u32 holding
      len(data)+1 (truncated to 32 bits by the Go conversion), the id byte,
      then the data. */
  function Send(id: byte, data: seq<byte>): (r: seq<byte>)
    ensures |r| == 5 + |data|
    ensures ReadBE32(r[..4]) == ToUint32(|data| + 1)
    ensures r[4] == id && r[5..] == data
  {
    BE32RoundTrip(ToUint32(|data| + 1));
    BE32(ToUint32(|data| + 1)) + [id] + data
  }

  /** `Receive`: the length prefix, the id byte (read even when the length is
      0), then exactly length-1 payload bytes when the length exceeds 1, and no
      payload otherwise. Also returns the stream left after the message. */
  function Receive(s: seq<byte>): (r: Result<(Payload, seq<byte>), WireError>)
    ensures |s| < 4 ==> r == Err(ShortLength)
    ensures |s| == 4 ==> r == Err(ShortMessageId)
    ensures r.Ok? ==>
      var (p, rest) := r.value;
      && |s| >= 5
      && p.len == ReadBE32(s[..4]) && p.id == s[4]
      && (p.len > 1 ==> |p.data| == p.len - 1)
      && (p.len <= 1 ==> p.data == [])
      && s == s[..5] + p.data + rest
    ensures r.Err? && |s| >= 5 ==> ReadBE32(s[..4]) > 1 && |s| - 5 < ReadBE32(s[..4]) - 1
  {
    if |s| < 4 then Err(ShortLength)
    else
      var length := ReadBE32(s[..4]);
      if |s| < 5 then Err(ShortMessageId)
      else if length > 1 then
        var wanted := length - 1;
        if |s| - 5 < wanted then Err(ShortPayload(wanted, |s| - 5))
        else
          assert s == s[..5] + s[5..5 + wanted] + s[5 + wanted..];
          Ok((Payload(length, s[4], s[5..5 + wanted]), s[5 + wanted..]))
      else
        assert s == s[..5] + [] + s[5..];
        Ok((Payload(length, s[4], []), s[5..]))
  }

  /** `Receive` reads back exactly the message `Send` wrote, leaving whatever
      follows it, for every payload short enough for the 32-bit length. */
  lemma ReceiveSend(id: byte, data: seq<byte>, rest: seq<byte>)
    requires |data| + 1 < UINT32_LIMIT
    ensures Receive(Send(id, data) + rest) == Ok((Payload(|data| + 1, id, data), rest))
  {
    var s := Send(id, data) + rest;
    assert s[..4] == Send(id, data)[..4];
    assert s[4] == id;
    assert s[5..5 + |data|] == data;
    assert s[5 + |data|..] == rest;
    assert data == [] ==> s[5..] == rest;
  }

  /** A keep-alive message is a zero length with no id byte, but `Receive`
      still reads an id byte: it takes the first byte of the next message, so
      the stream is read out of step from then on. */
  lemma KeepAliveTakesNextByte(next: seq<byte>)
    requires next != []
    ensures Receive(BE32(0) + next) == Ok((Payload(0, next[0], []), next[1..]))
  {
    var s := BE32(0) + next;
    assert s[..4] == BE32(0);
    BE32RoundTrip(0);
    assert s[4] == next[0];
    assert s[5..] == next[1..];
  }

  /** `RequestMessageData`. */
  datatype Request = Request(index: uint32, offset: uint32, length: uint32)

  /** The 12-byte Request payload: index, offset and size, each big-endian. */
  function RequestPayload(q: Request): (r: seq<byte>)
    ensures |r| == 12
  {
    BE32(q.index) + BE32(q.offset) + BE32(q.length)
  }

  /** How a peer reads a Request payload. */
  function ParseRequest(b: seq<byte>): Request
    requires |b| == 12
  {
    Request(ReadBE32(b[0..4]), ReadBE32(b[4..8]), ReadBE32(b[8..12]))
  }

  lemma ParseRequestPayload(q: Request)
    ensures ParseRequest(RequestPayload(q)) == q
  {
    var b := RequestPayload(q);
    assert b[0..4] == BE32(q.index);
    assert b[4..8] == BE32(q.offset);
    assert b[8..12] == BE32(q.length);
    BE32RoundTrip(q.index);
    BE32RoundTrip(q.offset);
    BE32RoundTrip(q.length);
  }

  /** `sendRequestMessage`: a 17-byte message with id 6. */
  function SendRequest(q: Request): (r: seq<byte>)
    ensures |r| == 17 && r[4] == REQUEST
    ensures Receive(r) == Ok((Payload(13, REQUEST, RequestPayload(q)), []))
    ensures ParseRequest(r[5..]) == q
  {
    ReceiveSend(REQUEST, RequestPayload(q), []);
    ParseRequestPayload(q);
    assert Send(REQUEST, RequestPayload(q)) + [] == Send(REQUEST, RequestPayload(q));
    Send(REQUEST, RequestPayload(q))
  }

  /** `PieceMessageData`: the echoed index and offset, and the block. */
  datatype PieceMessage = PieceMessage(index: uint32, offset: uint32, block: seq<byte>)

  datatype PieceError =
    | Receiving(cause: WireError)
    | WrongMessageId(id: byte)        // "invalid message id"
    | ShortPiece(payload: seq<byte>)  // slicing a payload under 8 bytes panics

  /** `receivePieceMessage`: a message with id 7 whose payload is the
      big-endian index, the big-endian offset, then the block. */
  function ReceivePiece(s: seq<byte>): (r: Result<(PieceMessage, seq<byte>), PieceError>)
    ensures Receive(s).Err? ==> r == Err(Receiving(Receive(s).error))
    ensures Receive(s).Ok? && Receive(s).value.0.id != PIECE ==> r == Err(WrongMessageId(Receive(s).value.0.id))
    ensures r.Ok? ==>
      var (p, rest) := Receive(s).value;
      && p.id == PIECE && |p.data| >= 8
      && r.value.0 == PieceMessage(ReadBE32(p.data[0..4]), ReadBE32(p.data[4..8]), p.data[8..])
      && r.value.1 == rest
  {
    match Receive(s)
    case Err(e) => Err(Receiving(e))
    case Ok((p, rest)) =>
      if p.id != PIECE then Err(WrongMessageId(p.id))
      else if |p.data| < 8 then Err(ShortPiece(p.data))
      else Ok((PieceMessage(ReadBE32(p.data[0..4]), ReadBE32(p.data[4..8]), p.data[8..]), rest))
  }

  /** The message a peer sends to deliver a block. */
  function PieceReply(m: PieceMessage): (r: seq<byte>)
    ensures |r| == 13 + |m.block|
  {
    Send(PIECE, BE32(m.index) + BE32(m.offset) + m.block)
  }

  /** A Piece message as a peer sends it is read back field for field. */
  lemma ReceivePieceReply(m: PieceMessage, rest: seq<byte>)
    requires |m.block| + 9 < UINT32_LIMIT
    ensures ReceivePiece(PieceReply(m) + rest) == Ok((m, rest))
  {
    var data := BE32(m.index) + BE32(m.offset) + m.block;
    ReceiveSend(PIECE, data, rest);
    assert data[0..4] == BE32(m.index);
    assert data[4..8] == BE32(m.offset);
    assert data[8..] == m.block;
    BE32RoundTrip(m.index);
    BE32RoundTrip(m.offset);
  }
}
